=== FILE: README.md ===
# Sharded web search, modelled in Dafny

This project models the query and indexing logic of a small sharded web-search
system written in Go. The system has five parts:

- **The inverted index.** Index files hold lines `word: count doc1,doc2,...`.
  The index answers keyword queries in one of two ways. `SearchScanFiles`
  re-reads every file on each query. `SearchInMemory` loads all files once
  into a word → entry map and looks the keywords up there. Both return one
  result per document, with the keywords it matched. Results are ordered by
  number of matches (descending), then by document name (ascending).
- **The index server's RPC handler** (`IndexServer.Search`). It splits the
  query into lower-case words, runs the strategy the server was started with,
  and copies the results into the reply.
- **The index server's start-up logic.** This covers resolving the shard ID
  from `-shard_id` or `-shard_name`, the partitioned-mode guard, and
  `selectFilesForShard`. A file `...-<n>.txt` belongs to shard
  `n % numShards`.
- **The web server's aggregation** (`aggregateShardResults`). It unions each
  document's keywords over the replies of all shards, ranks the documents
  with the same ordering, and keeps the first `k`. The fan-out
  `searchAcrossShards` is modelled as aggregation over the shards that
  replied.
- **The index partitioner** (`PartitionIndexFile`). It deals every document
  of every line to one of `n` partitions using an injected random source. For
  each partition that received documents of a keyword, it writes one line
  `keyword: count doc, doc, ...`.

Files are modelled as sequences of lines. Each file is either `Unreadable`,
meaning it cannot be opened, or `Readable(lines, readFails)`, where
`readFails` says the scanner reported an error after delivering `lines`. The
random source is a supplied sequence of draws in `[0, n)`. Results are pure
values. The in-memory index is a two-state value: not loaded (`None`) or
loaded (`Some(map)`).

The modules follow the Go code:

| module | Go counterpart |
|---|---|
| `Wrappers`, `Collections`, `Ordering` | option/outcome types, sequence helpers, string order and stable sorting (`sort.Strings`, `sort.SliceStable`) |
| `Text`, `Numbers` | `strings.TrimFunc`/`TrimSpace`/`Split`/`Join`/`Fields`/`ToLower`, `unicode.IsSpace`, `fmt.Sscanf("%d")`, `strconv.Atoi`, `%d` formatting |
| `IndexLine` | `parseInvertedIndexEntry` and the line format both tools write |
| `IndexMerge` | `mergeIntoIndex`, `loadInvertedIndexFiles` |
| `DocMatches` | `collectDocMatches`, the scan's keyword loop, `convertSetMapToSliceMap` |
| `Ranking` | `Result`, `toSortedResults`, the top-K cut |
| `InvertedIndex` | `InvertedIndex`, `ensureIndexIsLoaded`, `SearchScanFiles`, `SearchInMemory`, `SearchInMemoryTopK` |
| `RpcApi`, `IndexServer` | the RPC types and `IndexServer.Search` |
| `IndexServerMain` | `parseFlags` (shard ID, guards), `selectFilesForShard`, the choice of files in `main` |
| `WebServer` | `aggregateShardResults`, `searchAcrossShards` |
| `PartitionIndex` | `PartitionIndexFile` and the `Rand` interface |
| `IndexServerExample`, `WebServerExample`, `PartitionExample` | the scenarios of the Go tests, proved on the model |

The central property is that the two search paths agree. It is proved
against an independent reference: `DocMatches.MatchesOf` builds the keyword
map holding exactly a given set of (word, document) pairs. Both paths are
shown to build `MatchesOf` of the same pairs: those of every line read before
the first failing file, restricted to the query's keywords. So they return
the same results, or fail at the same file.

## Model

| member | source | states |
|---|---|---|
| IndexLine.MatchLine | labs/05-websearch/starter/internal/invertedindex/invertedindex.go:117-123 | When the pattern `^(\S+): (\d+) (.+)$` matches, the three groups are well shaped: a word without RE2 white space, a digit run, and a non-empty rest without a newline. Put back together as `word: digits rest`, they give the line. |
| IndexLine.MatchLineComplete | labs/05-websearch/starter/internal/invertedindex/invertedindex.go:117-123 | Every well-shaped triple of groups is matched, and the groups are recovered uniquely. Together with `MatchLine` this makes the match an if-and-only-if. |
| IndexLine.ParseInvertedIndexEntry | labs/05-websearch/starter/internal/invertedindex/invertedindex.go:115-141 | The word is `""` exactly when the line is rejected: either it does not match, or its count overflows `int`. A rejected line gives the zero entry. An accepted line gives the matched word and the parsed count, which is not checked against the number of documents. Its documents are the rest split at `,` with each piece trimmed, empty and repeated pieces included. No document holds a comma or untrimmed space. |
| IndexLine.ParseFormatRoundTrip | labs/05-websearch/starter/tools/partition_index/main.go:125 | A line written as `keyword: n d1, d2, ...` has `n` equal to the number of documents. For a whitespace-free keyword and clean document names, it parses back to the same keyword, count and document list. |
| IndexLine.ParseCommaJoinedLine | labs/05-websearch/starter/internal/invertedindex/invertedindex.go:133-140 | A line `keyword: count d1,d2,...` with the documents joined by bare commas (the form of the test files) parses to its keyword, count and documents. |
| IndexMerge.FirstFailure | labs/05-websearch/starter/internal/invertedindex/invertedindex.go:213-220 | Gives the position of the first file that cannot be opened or read, if there is one. When there is none, every file is readable and reads without error. |
| IndexMerge.NewDocuments | labs/05-websearch/starter/internal/invertedindex/invertedindex.go:192-201 | The documents appended to an existing entry are exactly the incoming ones not already present, each at most once. |
| IndexMerge.MergeEntry | labs/05-websearch/starter/internal/invertedindex/invertedindex.go:189-203 | Merging into an existing word: the old list stays as a prefix; only new documents follow, each once; the document set is the union; the count becomes the number of distinct documents; a line whose documents are all present leaves the list unchanged. |
| IndexMerge.MergeParsed | labs/05-websearch/starter/internal/invertedindex/invertedindex.go:184-206 | A rejected line changes nothing. The first occurrence of a word stores the parsed entry as it is, with the file's count and any duplicates. A later occurrence merges with `MergeEntry`. No other word is touched. |
| IndexMerge.MergeParsedPairs | labs/05-websearch/starter/internal/invertedindex/invertedindex.go:184-206 | A line adds exactly its own (word, document) pairs to the index. |
| IndexMerge.MergeLines | labs/05-websearch/starter/internal/invertedindex/invertedindex.go:182-207 | After the line loop, the words of the index are the old ones plus the words of the accepted lines. |
| IndexMerge.MergeLinesPairs | labs/05-websearch/starter/internal/invertedindex/invertedindex.go:182-207 | After the line loop, the index holds exactly its old pairs plus those of the accepted lines. |
| IndexMerge.MergeIntoIndex | labs/05-websearch/starter/internal/invertedindex/invertedindex.go:174-210 | A file that cannot be opened leaves the index unchanged and reports the open failure. A readable file merges all its delivered lines, so the index gains exactly their (word, document) pairs. A read error is reported after the lines are merged. |
| IndexMerge.LoadFiles | labs/05-websearch/starter/internal/invertedindex/invertedindex.go:213-221 | The load stops at the first failing file and reports that file's position and kind of failure. |
| IndexMerge.LoadFilesContents | labs/05-websearch/starter/internal/invertedindex/invertedindex.go:213-221 | Whether or not the load fails, it leaves the old pairs plus the pairs of every line delivered before the first failure, and the corresponding words. |
| IndexMerge.MergeAgainKeepsDocuments | labs/05-websearch/starter/internal/invertedindex/invertedindex.go:189-203 | Merging the same lines a second time adds no word and changes no document list. |
| IndexMerge.MergeParsedCovered | labs/05-websearch/starter/internal/invertedindex/invertedindex.go:189-203 | A line whose pairs and word are already in the index leaves every document list unchanged. |
| IndexMerge.RemergeCovered | labs/05-websearch/starter/internal/invertedindex/invertedindex.go:182-207 | Lines whose pairs and words are already in the index leave every document list unchanged. |
| DocMatches.MatchesOf | labs/05-websearch/starter/internal/invertedindex/invertedindex.go:224-239 | This is the reference keyword map. It holds exactly the given (keyword, document) pairs, and no document has an empty set. |
| DocMatches.PairsDetermine | labs/05-websearch/starter/internal/invertedindex/invertedindex.go:224-239 | A keyword map without empty sets is determined by its pairs. |
| DocMatches.AddMatch | labs/05-websearch/starter/internal/invertedindex/invertedindex.go:61-64 | Recording a match adds exactly the pair `(kw, doc)`, creating the document's set if it had none. |
| DocMatches.AddMatches | labs/05-websearch/starter/internal/invertedindex/invertedindex.go:60-65 | The document loop adds exactly the pairs of the keyword with each listed document. |
| DocMatches.ScanKeywords | labs/05-websearch/starter/internal/invertedindex/invertedindex.go:58-67 | For an accepted line, the line's pairs are added when its word is one of the keywords, and nothing otherwise. A keyword listed twice adds nothing more. |
| DocMatches.ScanParsed | labs/05-websearch/starter/internal/invertedindex/invertedindex.go:54-67 | One scanned line adds exactly its pairs whose word is a keyword. A rejected line adds nothing. |
| DocMatches.ScanLines | labs/05-websearch/starter/internal/invertedindex/invertedindex.go:52-68 | The scan of one file adds exactly the pairs of its accepted lines whose word is a keyword. |
| DocMatches.ScanFiles | labs/05-websearch/starter/internal/invertedindex/invertedindex.go:46-73 | The file loop fails at the first file that cannot be opened or read. Its map holds exactly the pairs of every line read before that failure, restricted to the keywords. |
| DocMatches.CollectFrom | labs/05-websearch/starter/internal/invertedindex/invertedindex.go:227-238 | The keyword loop adds exactly the index's pairs whose word is a keyword. A keyword missing from the index adds nothing. |
| DocMatches.CollectDocMatches | labs/05-websearch/starter/internal/invertedindex/invertedindex.go:224-240 | `kw ∈ r[d]` holds exactly when `kw` is a keyword, `kw` is in the index, and `d` is among its documents. No document has an empty set. |
| DocMatches.ConvertSetMapToSliceMap | labs/05-websearch/starter/internal/invertedindex/invertedindex.go:244-254 | Each document keeps its keywords as a list with the same elements and no repetition. |
| DocMatches.RankDocMatches | labs/05-websearch/starter/internal/invertedindex/invertedindex.go:75-77 | There is one result per document of the keyword map, ordered by the ranking order. |
| DocMatches.ResultsComeFromDocuments | labs/05-websearch/starter/internal/invertedindex/invertedindex.go:146-169 | Every result is some document's cleaned name, with exactly that document's keywords, each once, in ascending order. |
| DocMatches.DocumentsHaveResults | labs/05-websearch/starter/internal/invertedindex/invertedindex.go:146-169 | Every document of the keyword map has a result carrying its cleaned name and its keywords. |
| Ranking.CleanDocumentName | labs/05-websearch/starter/internal/invertedindex/invertedindex.go:150-152 | Trimming Unicode white space and U+00A0 from both ends is `strings.TrimSpace`, because U+00A0 is itself white space. |
| Ranking.SortStrings | labs/05-websearch/starter/internal/invertedindex/invertedindex.go:155-157 | The keywords are sorted: an ascending permutation of the input. |
| Ranking.MakeResult | labs/05-websearch/starter/internal/invertedindex/invertedindex.go:148-159 | A document's result has the trimmed name and an ascending permutation of its keywords. |
| Ranking.RanksBeforeIsTotalPreorder | labs/05-websearch/starter/internal/invertedindex/invertedindex.go:162-167 | The order "more matches first, then by name" is total and transitive. |
| Ranking.Reported | labs/05-websearch/starter/internal/invertedindex/invertedindex.go:148-160 | Every document of the map is reported as its cleaned name with its sorted keywords. |
| Ranking.ToSortedResults | labs/05-websearch/starter/internal/invertedindex/invertedindex.go:146-170 | There is one result per map key, as a multiset equality: each result occurs as often as there are documents reported as it. The results are ordered by matches descending, then by name ascending. |
| Ranking.RankingIsDetermined | labs/05-websearch/starter/internal/invertedindex/invertedindex.go:162-167 | Unless two documents trim to the same name with as many matches, any ordering of the reported results that `sort.Slice` may produce is this one. The unstable sort cannot change the answer. |
| Ranking.TopK | labs/05-websearch/starter/internal/invertedindex/invertedindex.go:92-97 | The cut is the prefix of length `min(max(k, 0), n)`. |
| Ranking.TopKKeepsTheBest | labs/05-websearch/starter/internal/invertedindex/invertedindex_test.go:95-101 | From a ranking, the first `k` results stay ranked. Each of them ranks at least as well as every result left out. |
| Ordering.LessEqTotalOrder | labs/05-websearch/starter/internal/invertedindex/invertedindex.go:166 | Go's `<` on strings, with equality, is a total order. |
| Ordering.SortedElements | labs/08-docker-websearch/starter/internal/webserver/search.go:107-112 | A set's elements in ascending order: exactly the set, without repetition. |
| Ordering.SortBy | labs/08-docker-websearch/starter/internal/webserver/search.go:135-141 | The stable sort returns a permutation of its input, ordered by the given total preorder. For every `x`, the elements tying with `x` come out in the order they went in. |
| Ordering.InsertByKeepsTies | labs/08-docker-websearch/starter/internal/webserver/search.go:135-141 | Inserting an element passes only elements that do not tie with it, so the elements tying with any `y` keep their order, with the inserted one first. |
| Ordering.SortedPermutationUnique | labs/05-websearch/starter/internal/invertedindex/invertedindex.go:162-167 | Two sorted permutations of the same elements are equal when no two distinct elements tie. |
| Text.TrimFunc | labs/05-websearch/starter/internal/invertedindex/invertedindex.go:150-152 | Removes the longest prefix and the longest suffix whose characters satisfy the predicate, and keeps the middle unchanged. |
| Text.TrimFuncAgrees | labs/05-websearch/starter/internal/invertedindex/invertedindex.go:150-152 | Trimming depends only on which characters the predicate accepts. |
| Text.JoinSplit | labs/05-websearch/starter/internal/invertedindex/invertedindex.go:133 | Joining the pieces of a split with the separator gives the text back. |
| Text.SplitJoin | labs/05-websearch/starter/internal/invertedindex/invertedindex.go:133 | Splitting a join gives back the parts, when no part holds the separator. |
| Text.SplitPiecesLack | labs/05-websearch/starter/tools/partition_index/main.go:109 | No piece of a split holds the separator. |
| Text.Fields | labs/06-sharding/solution/internal/indexserver/search.go:12 | Every field is non-empty and free of white space. |
| Text.FieldsKeepNonSpace | labs/06-sharding/solution/internal/indexserver/search.go:12 | Together, the fields hold exactly the non-space characters of the text, in order. |
| Text.FieldsOfJoin | labs/06-sharding/solution/internal/indexserver/search.go:12 | Words joined by single spaces come back as the same words. |
| Text.ToLower | labs/06-sharding/solution/internal/indexserver/search.go:12 | Keeps the length, and lower-cases each character on its own. White space stays white space. |
| Numbers.Decimal | labs/05-websearch/starter/tools/partition_index/main.go:125 | `%d` gives a digit run without leading zeros that reads back as the number. |
| Numbers.ScanInt | labs/05-websearch/starter/internal/invertedindex/invertedindex.go:126-131 | A digit run is accepted exactly when its value fits in `int`, and then gives that value. |
| Numbers.Atoi | labs/06-sharding/starter/cmd/indexserver/main.go:91-94 | A text without a sign is accepted exactly when it is a non-empty digit run whose value fits `int`, and its value is that of the digits, leading zeros included. A text with a `+` or `-` is accepted exactly when the rest is a digit run and the signed value fits, and that signed value is the result. The empty text is refused. |
| Numbers.AtoiOfPaddedDecimal | labs/06-sharding/starter/cmd/indexserver/main.go:90-95 | A shard number written with leading zeros or an explicit sign (`x-007.txt`, `x-+7.txt`) is read as that number; with `-` it is read as its negation. |
| Numbers.AtoiOfDecimal | labs/06-sharding/starter/cmd/indexserver/main.go:90-91 | A formatted number within range is read back by `Atoi`. |
| InvertedIndex.NewInvertedIndex | labs/05-websearch/starter/internal/invertedindex/invertedindex.go:34-39 | A new index keeps its files and has nothing loaded. |
| InvertedIndex.EnsureIndexIsLoaded | labs/05-websearch/starter/internal/invertedindex/invertedindex.go:99-109 | A loaded index is left as it is, with no error. Otherwise the map is created and loaded, and the first failing file is reported. The map keeps, even after a failure, the pairs and words of every line read before that file. |
| InvertedIndex.SearchScanFiles | labs/05-websearch/starter/internal/invertedindex/invertedindex.go:43-78 | A failing file fails the search with its position. Otherwise the results rank the reference keyword map of the files' pairs restricted to the keywords. |
| InvertedIndex.SearchInMemory | labs/05-websearch/starter/internal/invertedindex/invertedindex.go:83-90 | Loads if needed and reports a failed load. Otherwise it ranks the reference keyword map of the loaded pairs restricted to the keywords. |
| InvertedIndex.SearchInMemoryTopK | labs/05-websearch/starter/internal/invertedindex/invertedindex_test.go:95-101 | This is the intended behaviour of the stub: the in-memory results cut to their first `k`, and the in-memory failure otherwise. |
| InvertedIndex.ScanAndMemoryAgree | labs/05-websearch/starter/internal/invertedindex/invertedindex_test.go:81-93 | On a new index, the two search paths return the same failure or the same results, whatever the files. |
| InvertedIndex.LoadedIndexAgreesWithScan | labs/05-websearch/starter/internal/invertedindex/invertedindex.go:83-90 | After a successful load, every in-memory search answers as a scan would. |
| InvertedIndex.LoadAtMostOnce | labs/05-websearch/starter/internal/invertedindex/invertedindex.go:99-102 | Once loaded, the index never loads again and never changes. |
| InvertedIndex.FailedLoadLeavesPartialIndex | labs/05-websearch/starter/internal/invertedindex/invertedindex.go:104-107 | A failed first load is reported once. The next in-memory search succeeds on the partial map, while a scan still fails. |
| InvertedIndex.KeywordsActAsASet | labs/05-websearch/starter/internal/invertedindex/invertedindex.go:58-67 | Only which keywords are asked for matters, not their order or repetition. |
| RpcApi.FromResult | labs/06-sharding/solution/internal/indexserver/search.go:28-31 | The copy into an RPC result keeps document and matches. |
| RpcApi.FromResults | labs/06-sharding/solution/internal/indexserver/search.go:25-34 | The conversion keeps length and order, with each result copied field by field. |
| IndexServer.QueryWords | labs/06-sharding/solution/internal/indexserver/search.go:12 | The query's words are non-empty, free of white space and of upper-case letters. |
| IndexServer.QueryOfWords | labs/06-sharding/solution/internal/indexserver/search.go:12 | Lower-case words joined by spaces are read back as the same words. |
| IndexServer.RunStrategy | labs/06-sharding/solution/internal/indexserver/search.go:16-20 | Exactly one strategy runs: the in-memory top-K search when `useMemory`, the file scan otherwise. On an index not loaded yet, with `k` at least the number of results, both give the same failure or the same results. |
| IndexServer.TopKAgreesWithScan | labs/06-sharding/solution/internal/indexserver/search.go:16-20 | On an index not loaded yet, with `k` at least the number of results, the in-memory top-K search has the outcome of a scan. |
| IndexServer.Answer | labs/06-sharding/solution/internal/indexserver/search.go:21-34 | A strategy error is returned wrapped, and the reply is left unassigned. Otherwise the reply carries the results one for one. |
| IndexServer.SearchAsWritten | labs/06-sharding/solution/internal/indexserver/search.go:11-36 | Given the intended `SearchInMemoryTopK` (see Left out), the handler as written always leaves the index loaded. In memory mode it never reports an error. In scan mode it fails exactly when a file fails. |
| IndexServer.Search | labs/06-sharding/solution/internal/indexserver/search.go:11-36 | This is the intended handler. In scan mode the server is unchanged, an error comes exactly from a failing file, and the reply is the whole ranking, uncapped. In memory mode the index is loaded once, a failed load is reported, and the reply is the first `topK` results of the in-memory ranking. On error the reply is untouched. |
| IndexServer.ScanPathIsUncapped | labs/06-sharding/solution/internal/indexserver/search.go:18-20 | In scan mode `topK` has no effect. |
| IndexServer.StrategiesAgree | labs/06-sharding/solution/internal/indexserver/search.go:15-20 | On a new index over readable files, with `topK` at least the number of results, both strategies give the same reply. |
| IndexServer.CarriedReplyIsUnique | labs/06-sharding/solution/internal/indexserver/search.go:25-34 | The converted reply is determined by the results. |
| IndexServer.AsWrittenMasksFailedLoad | labs/06-sharding/solution/internal/indexserver/search.go:15-17 | In memory mode, with a first file that fails, the handler as written returns no error. The intended handler reports the failure and leaves the reply untouched. |
| IndexServer.AsWrittenLoadsOnScan | labs/06-sharding/solution/internal/indexserver/search.go:15-19 | In scan mode, the handler as written loads the whole index, which the intended handler does not. The replies and errors are the same. |
| IndexServer.AsWrittenAgreesOnceLoaded | labs/06-sharding/solution/internal/indexserver/search.go:15-20 | Once the index is loaded, the handler as written and the intended handler agree. |
| IndexServerExample.ExampleFileContents | labs/06-sharding/starter/internal/indexserver/server_test.go:37-40 | The test's index file reads without error and holds the pairs apple–doc1, apple–doc2 and banana–doc1. |
| IndexServerExample.ExampleQueryWords | labs/06-sharding/starter/internal/indexserver/server_test.go:52 | "apple banana cherry" tokenises to the three words. |
| IndexServerExample.ExampleExpected | labs/06-sharding/starter/internal/indexserver/server_test.go:68-71 | The reference keyword map of the test is doc1 → {apple, banana} and doc2 → {apple}. The unindexed "cherry" adds nothing. |
| IndexServerExample.ExampleReply | labs/06-sharding/starter/internal/indexserver/server_test.go:61-71 | A reply carrying the ranking of that map has doc1 with [apple, banana], then doc2 with [apple]. |
| IndexServerExample.SearchMatchesPerDocument | labs/06-sharding/starter/internal/indexserver/server_test.go:31-76 | The test: the scan-mode handler answers the query without error, with the expected matches per document. |
| WebServer.MergeResult | labs/08-docker-websearch/starter/internal/webserver/search.go:97-103 | One result's keywords are added to its document's set, creating the set if needed. Other documents are unchanged. |
| WebServer.MergeResults | labs/08-docker-websearch/starter/internal/webserver/search.go:96-104 | The merge loop combines keyword sets and never overwrites them. |
| WebServer.MergeShardResults | labs/08-docker-websearch/starter/internal/webserver/search.go:93-105 | The merged map holds each reported document with the union of its keywords over every result of every shard. |
| WebServer.RankMerged | labs/08-docker-websearch/starter/internal/webserver/search.go:107-141 | There is one entry per distinct raw document name, so two raw names that trim alike give two entries. The entries are in ranking order. |
| WebServer.AggregateShardResults | labs/08-docker-websearch/starter/internal/webserver/search.go:92-152 | The length is `min(max(k, 0), number of distinct documents)`, and the output is in ranking order. |
| WebServer.AggregatedResultsAreMerged | labs/08-docker-websearch/starter/internal/webserver/search.go:114-133 | Every output entry is a merged document's trimmed name with exactly its union of keywords, each once, in ascending order. |
| WebServer.AggregateKeepsTheBest | labs/08-docker-websearch/starter/internal/webserver/search.go:143-151 | The output is a prefix of the full ranking. Every document left out ranks no better than every one kept. |
| WebServer.AggregateDependsOnlyOnResults | labs/08-docker-websearch/starter/internal/webserver/search.go:93-141 | The output depends only on which results arrived. |
| WebServer.ReplyOrderIrrelevant | labs/08-docker-websearch/starter/internal/webserver/search.go:93-141 | Permuting the shard replies does not change the output. |
| WebServer.ResultOrderIrrelevant | labs/08-docker-websearch/starter/internal/webserver/search.go:93-141 | Permuting the results within each reply does not change the output. |
| WebServer.SuccessfulReplies | labs/08-docker-websearch/starter/internal/webserver/search.go:63-79 | The replies kept are exactly those of the shards whose dial and call succeeded. |
| WebServer.SearchAcrossShards | labs/08-docker-websearch/starter/internal/webserver/search.go:83-87 | The fan-out never fails. Its answer is in ranking order, and empty for `topK <= 0`. |
| WebServer.FailedShardsIgnored | labs/08-docker-websearch/starter/internal/webserver/search.go:58-87 | The answer is the aggregate of the replies that arrived, whatever the failures and arrival order. |
| WebServerExample.MergedShape | labs/10-kubernetes-websearch/starter/internal/webserver/search_test.go:13-20 | The test's four results merge to {a, b, c} for the first document and {a, b} for the second. |
| WebServerExample.TwoDocumentRanking | labs/08-docker-websearch/starter/internal/webserver/search.go:135-141 | Of two documents, the one with more keywords is ranked first. |
| WebServerExample.AggregateExample | labs/10-kubernetes-websearch/starter/internal/webserver/search_test.go:12-37 | The test: with `k = 10`, the output is doc1 with its three keywords, then doc2 with two. |
| PartitionIndex.DropEmpty | labs/05-websearch/starter/tools/partition_index/main.go:113-116 | The kept names are the input's non-empty names, in their order (the `Filter` of the input by non-emptiness) and as often as they occur (the input's multiset with `""` removed). |
| PartitionIndex.DocumentList | labs/05-websearch/starter/tools/partition_index/main.go:109-116 | The documents of a list are its comma pieces, each trimmed, with the empty ones dropped, in order and with their multiplicity. Every document is non-empty, trimmed and comma-free. |
| PartitionIndex.ParseLine | labs/05-websearch/starter/tools/partition_index/main.go:97-109 | A line is kept exactly when it has a `:` and its trimmed remainder has a space. The keyword is the trimmed text before the first `:`. The documents are the document list of the trimmed text after the first space of that remainder. The keyword is free of `:` and the documents are clean names. |
| PartitionIndex.ParseFormattedLine | labs/05-websearch/starter/tools/partition_index/main.go:98-109 | A line in the written format is read as its keyword and documents, and the count is discarded. |
| PartitionIndex.RouteDocuments | labs/05-websearch/starter/tools/partition_index/main.go:111-119 | The routing loop deals each document to the partition its draw names. Together the partitions hold exactly the documents, as a multiset. |
| PartitionIndex.BucketsStep | labs/05-websearch/starter/tools/partition_index/main.go:117-118 | One more document is appended to the partition of its draw. The others are unchanged. |
| PartitionIndex.BucketsKeepEveryDocument | labs/05-websearch/starter/tools/partition_index/main.go:111-119 | For each line, the partitions together hold a permutation of the kept documents: none lost, none duplicated. |
| PartitionIndex.PickedKeepsOrder | labs/05-websearch/starter/tools/partition_index/main.go:112-119 | Each partition holds exactly the documents drawn for it, in their input order. |
| PartitionIndex.Emitted | labs/05-websearch/starter/tools/partition_index/main.go:121-124 | A partition receives a line only if it received documents of the keyword. |
| PartitionIndex.EmitInto | labs/05-websearch/starter/tools/partition_index/main.go:121-129 | Every partition is appended its own line, or nothing. |
| PartitionIndex.EmitIntoPairs | labs/05-websearch/starter/tools/partition_index/main.go:121-129 | One line adds to the partitions, together, exactly its keyword paired with each routed document. |
| PartitionIndex.PartitionRecords | labs/05-websearch/starter/tools/partition_index/main.go:96-130 | The line loop produces one output per partition. |
| PartitionIndex.PartitionIndexFile | labs/05-websearch/starter/tools/partition_index/main.go:70-146 | An input that cannot be opened, or that fails while it is read, is reported. Otherwise there is one output per partition. Each holds the lines of the records routed to it. Across all partitions, those records hold exactly the (keyword, document) pairs of the accepted input lines, as a multiset: no document is lost or duplicated. |
| PartitionIndex.PartitionKeepsEveryDocument | labs/05-websearch/starter/tools/partition_index/main.go:96-130 | Over all partitions, the (keyword, document) pairs written are exactly those of the kept input lines, as a multiset. |
| PartitionIndex.PartitionWritesReadableLines | labs/05-websearch/starter/tools/partition_index/main.go:121-129 | Every written record has a trimmed keyword without `:`, at least one document, and clean document names. |
| PartitionIndex.WrittenLineReadsBack | labs/05-websearch/starter/tools/partition_index/main.go:125 | A written line is read back by the partitioner as the same record. |
| PartitionIndex.ReadBackRendered | labs/05-websearch/starter/tools/partition_index/main.go:125 | A partition file's lines read back as the records written. |
| PartitionIndex.PartitionRoundTrip | labs/10-kubernetes-websearch/starter/tools/partition_index/main_test.go:53-111 | Partitioning a readable file succeeds with one file per partition. Reading those files back gives, over all partitions, the input's (keyword, document) pairs as a multiset. |
| PartitionIndex.WrittenLineIndexes | labs/05-websearch/starter/tools/partition_index/main.go:125 | A written line with a whitespace-free keyword is accepted by the index parser, with the same keyword, count and documents. |
| PartitionExample.RoundRobin | labs/10-kubernetes-websearch/starter/tools/partition_index/main_test.go:18-22 | The test's round-robin source gives valid draws in `[0, n)`. |
| PartitionExample.ExampleInputText | labs/10-kubernetes-websearch/starter/tools/partition_index/main_test.go:131-133 | The test's input lines are the rendering of its three records. |
| PartitionExample.ExampleLinesParse | labs/10-kubernetes-websearch/starter/tools/partition_index/main_test.go:131-133 | Every line of the test input is accepted, as its record. |
| PartitionExample.ExampleRouting | labs/10-kubernetes-websearch/starter/tools/partition_index/main_test.go:143-145 | With the round-robin source and `n = 3`, document `j` goes to partition `j mod 3`. |
| PartitionExample.ExampleRendering | labs/05-websearch/starter/tools/partition_index/main.go:121-129 | The three partition files the test produces, line by line. |
| PartitionExample.RoundRobinExample | labs/10-kubernetes-websearch/starter/tools/partition_index/main_test.go:128-152 | The test: partitioning succeeds, every partition is non-empty, and each partition lists its documents in dealing order. |
| IndexServerMain.Base | labs/06-sharding/starter/cmd/indexserver/main.go:81 | `filepath.Base` has no `/` unless it is the root, and is never empty. |
| IndexServerMain.BaseOfName | labs/06-sharding/starter/cmd/indexserver/main.go:81 | The base of `dir/name` is `name`. |
| IndexServerMain.FileIndex | labs/06-sharding/starter/cmd/indexserver/main.go:81-94 | A file has an index only if its base name holds a `-` and ends in `.txt`. The index is non-negative, because the text after the last `-` holds no minus sign. |
| IndexServerMain.FileIndexOfName | labs/06-sharding/starter/cmd/indexserver/main.go:81-94 | `dir/stem-<n>.txt` has index `n`. |
| IndexServerMain.GoRem | labs/06-sharding/starter/cmd/indexserver/main.go:95 | Go's `%` truncates toward zero, and its result takes the sign of the dividend. |
| IndexServerMain.SelectFilesForShard | labs/06-sharding/starter/cmd/indexserver/main.go:78-101 | A file is selected exactly when it has an index `i` with `i % numShards == shardID`. |
| IndexServerMain.SelectionKeepsOrder | labs/06-sharding/starter/cmd/indexserver/main.go:78-101 | The selection is a subsequence of the listing, in its order, and misses no selected file. |
| IndexServerMain.ExactlyOneShard | labs/06-sharding/starter/cmd/indexserver/main.go:85-95 | For `numShards > 0`, a well-formed file is selected by exactly one shard ID, which lies in `[0, numShards)`. |
| IndexServerMain.MalformedNeverSelected | labs/06-sharding/starter/cmd/indexserver/main.go:84-87 | A name without `-` or without `.txt` is never selected. |
| IndexServerMain.ShardsPartitionTheListing | labs/06-sharding/starter/cmd/indexserver/main.go:78-101 | A listed file with an index is selected by its home shard only. A file without an index is selected by none. |
| IndexServerMain.ResolveShardId | labs/06-sharding/starter/cmd/indexserver/main.go:38-52 | An explicit `shard_id >= 0`, or an empty name, is used as given. Otherwise a name without `-` is an error. A name with `-` yields the number after its last `-`, or an error when that number is not valid. |
| IndexServerMain.LastPiece | labs/06-sharding/starter/cmd/indexserver/main.go:42-46 | The last piece of a split at `-` is the text after the last `-`. There are two pieces or more exactly when there is a `-`. |
| IndexServerMain.NamedShardIsNonNegative | labs/06-sharding/starter/cmd/indexserver/main.go:41-52 | A shard ID taken from a name is never negative. |
| IndexServerMain.ParseFlags | labs/06-sharding/starter/cmd/indexserver/main.go:19-61 | Both or neither index sources is an error. With exactly one source, a shard name that cannot be resolved gives its error. Otherwise the flags are accepted exactly when, in partitioned mode, the resolved shard ID is `>= 0` and `numShards > 0`, and they are refused with the partitioned error when not. An accepted configuration has the given source, flags and the resolved shard ID. |
| IndexServerMain.PartitionedGuard | labs/06-sharding/starter/cmd/indexserver/main.go:54-58 | In partitioned mode the flags are accepted exactly when the shard ID is non-negative and `numShards > 0`. |
| IndexServerMain.FilesToLoad | labs/06-sharding/starter/cmd/indexserver/main.go:109-123 | An explicit list is split at commas. A directory that cannot be listed is an error. From a listing, the files are accepted exactly when some listed file is chosen (any file, or in partitioned mode one of this shard's files), and refused with the no-files error otherwise. The choice is the whole listing, or in partitioned mode exactly this shard's files. An accepted choice is never empty. |
| IndexServerMain.AcceptedFlagsSelect | labs/06-sharding/starter/cmd/indexserver/main.go:54-58 | Accepted flags in partitioned mode make the modulo safe. |
| IndexServerMain.ShardsLoadDisjointFiles | labs/06-sharding/starter/cmd/indexserver/main.go:116-118 | Two different shards of the same partitioned deployment never load the same file. |

## Left out

- File and OS I/O are parameters. Files are line sequences with an open failure or a read failure. The partitioner's output files are returned as line sequences. Its create, write, flush and close failures, and its clean-up of open handles, are not modelled.
- The partitioner writes lines before it checks the scanner's error. The model reports a read failure without the partial output written before it.
- A negative partition count makes Go's `make` panic, and so does `Intn(0)`. The model takes the count as a natural number, and its draws must lie in `[0, n)`.
- `InvertedIndex.EnsureIndexIsLoaded`, `InvertedIndex.LoadAtMostOnce`, `IndexServer.SearchAsWritten`: calls to the index server are modelled one after another. The Go server serves every connection in its own goroutine (labs/06-sharding/starter/cmd/indexserver/main.go:149), and the lazy load (labs/05-websearch/starter/internal/invertedindex/invertedindex.go:99-109) takes no lock. So two first queries arriving together may both load the index, and a read of the map during another query's load is a Go runtime fatal error. "Loads at most once" holds only for sequential calls.
- Concurrency in `searchAcrossShards` (goroutines, `WaitGroup`, the mutex) and the RPC `Dial`/`Call` are left out. The shards' outcomes are a sequence of optional replies, and a failed shard is `None`.
- The HTTP handlers, the web server's `main`, `log` output and `log.Fatal` exits are left out. Start-up failures are error values.
- `util.go` is not part of this model. It is a wrapper over `net.SplitHostPort` and `strconv.Atoi`.
- `math/rand` and time-based seeding are left out. The random source is a supplied sequence of draws.
- `listAllFiles` is a parameter: the directory listing, or a failure to list it. `filepath.Join`'s path cleaning is not modelled.
- The `-rpc_addr` flag is left out. It has no logic.
- Lines are assumed to hold no newline, as the scanner delivers them. The round-trip lemmas require it.
- Go's map iteration order is not modelled. The model visits map keys in ascending order. `toSortedResults` sorts with the unstable `sort.Slice`; the model sorts stably. `Ranking.ToSortedResults` therefore states only sortedness and the multiset of results. `Ranking.RankingIsDetermined` shows that the order is fixed unless two raw names trim alike with as many matches. The web server visits names in ascending order and sorts stably, so for it the model is exact.
- `InvertedIndex.SearchInMemoryTopK`: the Go function is a stub that always fails. The model gives it the behaviour the tests expect, and clamps a negative `k` to 0, as the web server does.
- `Text.ToLower`: lower-cases ASCII letters only. Go's `strings.ToLower` also maps other Unicode upper-case letters. Only the query tokens go through it.
- `Text.Fields`, `Text.TrimFunc` and `Ranking.CleanDocumentName` use Unicode's White_Space list for `unicode.IsSpace`. The regular expression's `\s` is RE2's ASCII class, which the model keeps separate.
- `InvertedIndex.ScanAndMemoryAgree`, `InvertedIndex.LoadedIndexAgreesWithScan` and `InvertedIndex.FailedLoadLeavesPartialIndex` treat the files as a fixed snapshot. Go's scan re-reads them on every query (labs/05-websearch/starter/internal/invertedindex/invertedindex.go:45-72), while the in-memory path reads them once, so a file changed between queries is not modelled.
- `InvertedIndex.ScanAndMemoryAgree`, `InvertedIndex.LoadedIndexAgreesWithScan` and `InvertedIndex.FailedLoadLeavesPartialIndex` compare errors as `IndexError(position, kind)`. Go's messages differ between the paths. The scan says "failed to open index file %s" (labs/05-websearch/starter/internal/invertedindex/invertedindex.go:48) or "error reading index file %s" (labs/05-websearch/starter/internal/invertedindex/invertedindex.go:69), naming the file. The in-memory load says "failed to open index file" (labs/05-websearch/starter/internal/invertedindex/invertedindex.go:178) or returns the bare scanner error (labs/05-websearch/starter/internal/invertedindex/invertedindex.go:209).
- `Text.TrimSpace`: the contract states only that the result is trimmed and no longer than the input. `Text.TrimFunc` and `Text.TrimSpaceOfTrimmed` give the rest.

## Findings

| source | as written | input that shows it | evidently intended | confidence | as-written member | corrected member |
|---|---|---|---|---|---|---|
| labs/06-sharding/solution/internal/indexserver/search.go:15 | `Search` calls `SearchInMemoryTopK` before the strategy dispatch and overwrites its outcome. Given the intended `SearchInMemoryTopK` (see Left out), that first call loads the index whatever the strategy. With the stub it does nothing, and memory mode always fails. | A server in memory mode, not yet loaded, whose first index file cannot be opened. The first call fails but leaves an empty map behind. The dispatched call then succeeds on that map, so the handler returns no error and an empty reply. | Run exactly one strategy, and report a failed load. | not executed | IndexServer.SearchAsWritten (shown by IndexServer.AsWrittenMasksFailedLoad) | IndexServer.Search |

=== FILE: collections.dfy ===
/** Small facts about sequences, sets and maps shared by the modules. */
module Collections {

  /** The set of elements of a sequence. */
  function Elements<T(!new)>(s: seq<T>): (r: set<T>)
    ensures forall x :: x in r <==> x in s
  {
    set x | x in s
  }

  /** The sequences of `ss`, one after another. An element occurs in the
      result exactly when it occurs in one of them. */
  function Flatten<T(!new)>(ss: seq<seq<T>>): (r: seq<T>)
    ensures forall x :: x in r <==> exists i :: 0 <= i < |ss| && x in ss[i]
  {
    if ss == [] then []
    else
      var rest := Flatten(ss[1..]);
      assert forall x :: x in rest <==> exists i :: 1 <= i < |ss| && x in ss[i] by {
        forall x | x in rest ensures exists i :: 1 <= i < |ss| && x in ss[i] {
          var j :| 0 <= j < |ss[1..]| && x in ss[1..][j];
          assert x in ss[j + 1];
        }
        forall x | exists i :: 1 <= i < |ss| && x in ss[i] ensures x in rest {
          var i :| 1 <= i < |ss| && x in ss[i];
          assert x in ss[1..][i - 1];
        }
      }
      ss[0] + rest
  }

  lemma {:induction false} FlattenOfEmpties<T(!new)>(ss: seq<seq<T>>)
    requires forall i :: 0 <= i < |ss| ==> ss[i] == []
    ensures Flatten(ss) == []
  {
    if ss != [] {
      FlattenOfEmpties(ss[1..]);
    }
  }

  /** Appending `x` to one of the sequences adds one `x` to the whole. */
  lemma {:induction false} FlattenAppendAt<T(!new)>(ss: seq<seq<T>>, c: int, x: T)
    requires 0 <= c < |ss|
    ensures multiset(Flatten(ss[c := ss[c] + [x]])) == multiset(Flatten(ss)) + multiset{x}
  {
    var tt := ss[c := ss[c] + [x]];
    if c == 0 {
      assert tt[1..] == ss[1..];
    } else {
      assert tt[1..] == ss[1..][c - 1 := ss[c] + [x]];
      FlattenAppendAt(ss[1..], c - 1, x);
    }
  }

  /** The elements of `s` that satisfy `p`, in their order. */
  function Filter<T(==, !new)>(s: seq<T>, p: T -> bool): (r: seq<T>)
    ensures |r| <= |s|
    ensures forall x :: x in r <==> x in s && p(x)
  {
    if s == [] then []
    else
      var rest := Filter(s[1..], p);
      assert forall x :: x in s <==> x == s[0] || x in s[1..];
      (if p(s[0]) then [s[0]] else []) + rest
  }

  /** The kept elements sit at increasing positions of `s`, and every
      position whose element satisfies `p` is kept: the result is the
      subsequence of the satisfying elements. */
  lemma FilterKeepsOrder<T(!new)>(s: seq<T>, p: T -> bool) returns (at: seq<nat>)
    ensures |at| == |Filter(s, p)|
    ensures forall k :: 0 <= k < |at| ==> at[k] < |s| && Filter(s, p)[k] == s[at[k]]
    ensures forall k, l :: 0 <= k < l < |at| ==> at[k] < at[l]
    ensures forall j :: 0 <= j < |s| && p(s[j]) ==> j in at
  {
    at := Positions(s, p);
    PositionsPick(s, p);
    PositionsIncrease(s, p);
    PositionsCover(s, p);
  }

  /** The positions of the elements of `s` that satisfy `p`. */
  function Positions<T>(s: seq<T>, p: T -> bool): (at: seq<nat>)
    ensures forall k :: 0 <= k < |at| ==> at[k] < |s|
  {
    if s == [] then []
    else (if p(s[0]) then [0] else []) + Shifted(Positions(s[1..], p))
  }

  /** Every position moved one place on. */
  function Shifted(at: seq<nat>): (r: seq<nat>)
    ensures |r| == |at| && forall k :: 0 <= k < |at| ==> r[k] == at[k] + 1
  {
    seq(|at|, k requires 0 <= k < |at| => at[k] + 1)
  }

  lemma {:induction false} PositionsPick<T(!new)>(s: seq<T>, p: T -> bool)
    ensures |Positions(s, p)| == |Filter(s, p)|
    ensures forall k :: 0 <= k < |Positions(s, p)| ==> Filter(s, p)[k] == s[Positions(s, p)[k]]
  {
    if s != [] {
      PositionsPick(s[1..], p);
      var at := Positions(s, p);
      var before := Positions(s[1..], p);
      var rest := Filter(s[1..], p);
      var head: seq<nat> := if p(s[0]) then [0] else [];
      assert at == head + Shifted(before);
      assert Filter(s, p) == (if p(s[0]) then [s[0]] else []) + rest;
      forall k | |head| <= k < |at| ensures Filter(s, p)[k] == s[at[k]] {
        var m := k - |head|;
        assert s[at[k]] == s[1..][before[m]];
      }
    }
  }

  lemma {:induction false} PositionsIncrease<T>(s: seq<T>, p: T -> bool)
    ensures forall k, l :: 0 <= k < l < |Positions(s, p)| ==> Positions(s, p)[k] < Positions(s, p)[l]
  {
    if s != [] {
      PositionsIncrease(s[1..], p);
      var at := Positions(s, p);
      var before := Positions(s[1..], p);
      var head: seq<nat> := if p(s[0]) then [0] else [];
      assert at == head + Shifted(before);
      forall k, l | 0 <= k < l < |at| ensures at[k] < at[l] {
        assert at[l] == before[l - |head|] + 1;
        if k >= |head| {
          assert at[k] == before[k - |head|] + 1;
        }
      }
    }
  }

  lemma {:induction false} PositionsCover<T>(s: seq<T>, p: T -> bool)
    ensures forall j :: 0 <= j < |s| && p(s[j]) ==> j in Positions(s, p)
  {
    if s != [] {
      PositionsCover(s[1..], p);
      var at := Positions(s, p);
      var before := Positions(s[1..], p);
      var head: seq<nat> := if p(s[0]) then [0] else [];
      assert at == head + Shifted(before);
      forall j | 0 <= j < |s| && p(s[j]) ensures j in at {
        if j > 0 {
          assert s[j] == s[1..][j - 1];
          var m :| 0 <= m < |before| && before[m] == j - 1;
          assert at[|head| + m] == j;
        } else {
          assert at[0] == 0;
        }
      }
    }
  }

  /** No element occurs twice. */
  predicate Distinct<T(==)>(s: seq<T>) {
    forall i, j :: 0 <= i < j < |s| ==> s[i] != s[j]
  }

  /** The values of `m` at the given keys, in the order of the keys. */
  function ValuesAt<K, V>(m: map<K, V>, keys: seq<K>): (r: seq<V>)
    requires forall i :: 0 <= i < |keys| ==> keys[i] in m
    ensures |r| == |keys|
    ensures forall i :: 0 <= i < |keys| ==> r[i] == m[keys[i]]
  {
    if keys == [] then [] else [m[keys[0]]] + ValuesAt(m, keys[1..])
  }

  /** The keys among `keys` at which `m` holds `v`. */
  ghost function KeysWith<K(!new), V>(m: map<K, V>, keys: set<K>, v: V): set<K>
    requires keys <= m.Keys
  {
    set k | k in keys && m[k] == v
  }

  /** Read at distinct keys, a value occurs as often as there are keys
      holding it. */
  lemma {:induction false} ValuesAtCount<K(!new), V>(m: map<K, V>, keys: seq<K>, v: V)
    requires forall i :: 0 <= i < |keys| ==> keys[i] in m
    requires Distinct(keys)
    ensures multiset(ValuesAt(m, keys))[v] == |KeysWith(m, Elements(keys), v)|
  {
    if keys != [] {
      var rest := keys[1..];
      assert Distinct(rest);
      ValuesAtCount(m, rest, v);
      assert ValuesAt(m, keys) == [m[keys[0]]] + ValuesAt(m, rest);
      KeysWithCons(m, keys, v);
    }
  }

  lemma KeysWithCons<K(!new), V>(m: map<K, V>, keys: seq<K>, v: V)
    requires keys != []
    requires forall i :: 0 <= i < |keys| ==> keys[i] in m
    requires Distinct(keys)
    ensures var here := if m[keys[0]] == v then 1 else 0;
      |KeysWith(m, Elements(keys), v)| == here + |KeysWith(m, Elements(keys[1..]), v)|
  {
    var rest := keys[1..];
    assert keys[0] !in Elements(rest);
    assert Elements(keys) == {keys[0]} + Elements(rest);
    if m[keys[0]] == v {
      assert KeysWith(m, Elements(keys), v) == {keys[0]} + KeysWith(m, Elements(rest), v);
    } else {
      assert KeysWith(m, Elements(keys), v) == KeysWith(m, Elements(rest), v);
    }
  }
}

=== FILE: doc_matches.dfy ===
/** The per-document keyword sets both search paths build
    (`map[string]map[string]struct{}`): by scanning the index files
    (`SearchScanFiles`) or by looking the keywords up in the loaded index
    (`collectDocMatches`), and their conversion to lists
    (`convertSetMapToSliceMap`), and the ranking of the result. */
module DocMatches {
  import opened Wrappers
  import opened Collections
  import opened Ordering
  import opened IndexLine
  import opened IndexMerge
  import Ranking
  import Text

  /** For each document, the keywords it matched. */
  type DocMatches = map<string, set<string>>

  /** The (keyword, document) pairs a keyword map records, oriented like
      the index's (word, document) pairs. */
  ghost function MatchPairs(dm: DocMatches): set<(string, string)> {
    set d, kw | d in dm && kw in dm[d] :: (kw, d)
  }

  /** Go creates a document's set only to put a keyword in it. */
  ghost predicate NoEmptySets(dm: DocMatches) {
    forall d :: d in dm ==> dm[d] != {}
  }

  /** The pairs whose word is one of the keywords. */
  ghost function Restrict(pairs: set<(string, string)>, keywords: seq<string>): set<(string, string)> {
    set p | p in pairs && p.0 in keywords
  }

  /** The keyword map holding exactly the given pairs: the reference both
      search paths are compared with. */
  ghost function MatchesOf(pairs: set<(string, string)>): (r: DocMatches)
    ensures MatchPairs(r) == pairs
    ensures NoEmptySets(r)
  {
    var docs := set p | p in pairs :: p.1;
    var r := map d | d in docs :: set p | p in pairs && p.1 == d :: p.0;
    assert forall p :: p in pairs ==> p.1 in r && p.0 in r[p.1];
    r
  }

  /** A keyword map without empty sets is determined by its pairs. */
  lemma PairsDetermine(a: DocMatches, b: DocMatches)
    requires NoEmptySets(a) && NoEmptySets(b)
    requires MatchPairs(a) == MatchPairs(b)
    ensures a == b
  {
    forall d | d in a ensures d in b && a[d] == b[d] {
      var kw :| kw in a[d];
      assert (kw, d) in MatchPairs(a);
      forall k | k in a[d] ensures k in b[d] {
        assert (k, d) in MatchPairs(b);
      }
      forall k | k in b[d] ensures k in a[d] {
        assert (k, d) in MatchPairs(a);
      }
    }
    forall d | d in b ensures d in a {
      var kw :| kw in b[d];
      assert (kw, d) in MatchPairs(a);
    }
  }

  // ---------------------------------------------------------------------------
  // Recording matches
  // ---------------------------------------------------------------------------

  /** `docMatches[doc][kw] = struct{}{}`, creating the document's set first
      if it has none. */
  function AddMatch(dm: DocMatches, kw: string, doc: string): (r: DocMatches)
    ensures r.Keys == dm.Keys + {doc}
    ensures MatchPairs(r) == MatchPairs(dm) + {(kw, doc)}
    ensures NoEmptySets(dm) ==> NoEmptySets(r)
  {
    var r := dm[doc := (if doc in dm then dm[doc] else {}) + {kw}];
    assert (kw, doc) in MatchPairs(r);
    assert forall p :: p in MatchPairs(dm) ==> p.1 in r && p.0 in r[p.1];
    r
  }

  /** The loop over a keyword's documents, shared by both search paths. */
  function AddMatches(dm: DocMatches, kw: string, docs: seq<string>): (r: DocMatches)
    ensures r.Keys == dm.Keys + Elements(docs)
    ensures MatchPairs(r) == MatchPairs(dm) + set d | d in docs :: (kw, d)
    ensures NoEmptySets(dm) ==> NoEmptySets(r)
    decreases docs
  {
    if docs == [] then dm
    else
      var r := AddMatches(AddMatch(dm, kw, docs[0]), kw, docs[1..]);
      assert (set d | d in docs :: (kw, d)) == {(kw, docs[0])} + set d | d in docs[1..] :: (kw, d);
      r
  }

  // ---------------------------------------------------------------------------
  // Scanning the files (SearchScanFiles)
  // ---------------------------------------------------------------------------

  /** The keyword loop for one parsed line: the line's documents are
      recorded once for every keyword equal to its word. */
  function ScanKeywords(dm: DocMatches, p: (string, Entry), keywords: seq<string>): (r: DocMatches)
    requires p.0 != ""
    ensures MatchPairs(r) == MatchPairs(dm) + (if p.0 in keywords then ParsedPairs(p) else {})
    ensures NoEmptySets(dm) ==> NoEmptySets(r)
    decreases keywords
  {
    if keywords == [] then dm
    else
      var next := if p.0 == keywords[0] then AddMatches(dm, p.0, p.1.documents) else dm;
      ScanKeywords(next, p, keywords[1..])
  }

  /** One line of the scan: a rejected line is skipped. */
  function ScanParsed(dm: DocMatches, p: (string, Entry), keywords: seq<string>): (r: DocMatches)
    ensures MatchPairs(r) == MatchPairs(dm) + Restrict(ParsedPairs(p), keywords)
    ensures NoEmptySets(dm) ==> NoEmptySets(r)
  {
    if p.0 == "" then dm else ScanKeywords(dm, p, keywords)
  }

  /** The line loop of the scan over one file. */
  function ScanLines(dm: DocMatches, lines: seq<string>, keywords: seq<string>): (r: DocMatches)
    ensures MatchPairs(r) == MatchPairs(dm) + Restrict(LinesPairs(lines), keywords)
    ensures NoEmptySets(dm) ==> NoEmptySets(r)
    decreases lines
  {
    if lines == [] then dm
    else
      ScanLines(ScanParsed(dm, ParseInvertedIndexEntry(lines[0]), keywords), lines[1..], keywords)
  }

  /** The file loop of `SearchScanFiles`: scans file after file and stops at
      the first one that cannot be opened or read. */
  function ScanFiles(dm: DocMatches, files: seq<IndexFile>, keywords: seq<string>): (r: (DocMatches, Option<IndexError>))
    ensures r.1 == FirstFailure(files)
    ensures MatchPairs(r.0) == MatchPairs(dm) + Restrict(ReadPairs(files), keywords)
    ensures NoEmptySets(dm) ==> NoEmptySets(r.0)
    decreases files
  {
    if files == [] then (dm, None)
    else
      match files[0]
      case Unreadable => (dm, Some(IndexError(0, CannotOpen)))
      case Readable(lines, readFails) =>
        var scanned := ScanLines(dm, lines, keywords);
        if readFails then (scanned, Some(IndexError(0, CannotRead)))
        else
          var rest := ScanFiles(scanned, files[1..], keywords);
          (rest.0, if rest.1.Some? then Some(IndexError(rest.1.value.file + 1, rest.1.value.kind)) else None)
  }

  // ---------------------------------------------------------------------------
  // Looking the keywords up (collectDocMatches)
  // ---------------------------------------------------------------------------

  /** The keyword loop of `collectDocMatches`: a keyword absent from the
      index is skipped. */
  function CollectFrom(dm: DocMatches, data: Index, keywords: seq<string>): (r: DocMatches)
    ensures MatchPairs(r) == MatchPairs(dm) + Restrict(DocPairs(data), keywords)
    ensures NoEmptySets(dm) ==> NoEmptySets(r)
    decreases keywords
  {
    if keywords == [] then dm
    else
      var kw := keywords[0];
      var next := if kw in data then AddMatches(dm, kw, data[kw].documents) else dm;
      var r := CollectFrom(next, data, keywords[1..]);
      RestrictCons(data, keywords);
      r
  }

  /** The pairs of the first keyword, then those of the others. */
  lemma RestrictCons(data: Index, keywords: seq<string>)
    requires keywords != []
    ensures Restrict(DocPairs(data), keywords)
      == (if keywords[0] in data then set d | d in data[keywords[0]].documents :: (keywords[0], d) else {})
        + Restrict(DocPairs(data), keywords[1..])
  {
    var kw := keywords[0];
    assert forall w :: w in keywords <==> w == kw || w in keywords[1..];
  }

  /** Go's `collectDocMatches`: exactly the keyword map of the index's pairs
      whose word is a keyword. */
  function CollectDocMatches(data: Index, keywords: seq<string>): (r: DocMatches)
    ensures r == MatchesOf(Restrict(DocPairs(data), keywords))
  {
    var r := CollectFrom(map[], data, keywords);
    PairsDetermine(r, MatchesOf(Restrict(DocPairs(data), keywords)));
    r
  }

  // ---------------------------------------------------------------------------
  // From sets to lists (convertSetMapToSliceMap)
  // ---------------------------------------------------------------------------

  /** Go's `convertSetMapToSliceMap`: the same documents, each set listed
      once per element. Go lists a set in its map's unspecified order; the
      model lists it in ascending order. */
  function ConvertSetMapToSliceMap(dm: DocMatches): (r: map<string, seq<string>>)
    ensures r.Keys == dm.Keys
    ensures forall d :: d in r ==> Elements(r[d]) == dm[d] && |r[d]| == |dm[d]|
  {
    map d | d in dm :: SortedElements(dm[d])
  }

  // ---------------------------------------------------------------------------
  // Ranking a keyword map
  // ---------------------------------------------------------------------------

  /** `toSortedResults(convertSetMapToSliceMap(docMatches))`, the last step
      of both search paths. */
  function RankDocMatches(dm: DocMatches): (r: seq<Ranking.Result>)
    ensures |r| == |dm|
    ensures SortedBy(Ranking.RanksBefore, r)
  {
    Ranking.ToSortedResults(ConvertSetMapToSliceMap(dm))
  }

  /** Each result of a keyword map is one document's cleaned name with
      exactly that document's keywords, each once, in ascending order. */
  lemma ResultsComeFromDocuments(dm: DocMatches, x: Ranking.Result)
    requires x in RankDocMatches(dm)
    ensures SortedBy(LessEq, x.matches)
    ensures exists d :: d in dm && x.document == Text.TrimSpace(d) && Elements(x.matches) == dm[d] && |x.matches| == |dm[d]|
  {
    var slices := ConvertSetMapToSliceMap(dm);
    var d := Ranking.ReportedFrom(slices, RankDocMatches(dm), x);
    MultisetElements(x.matches, slices[d]);
    assert |multiset(x.matches)| == |multiset(slices[d])|;
  }

  /** Each document of a keyword map has a result carrying its keywords. */
  lemma DocumentsHaveResults(dm: DocMatches, d: string)
    requires d in dm
    ensures exists x :: x in RankDocMatches(dm) && x.document == Text.TrimSpace(d) && Elements(x.matches) == dm[d]
  {
    var slices := ConvertSetMapToSliceMap(dm);
    var reported := Ranking.Reported(slices);
    var x := reported[d];
    assert d in KeysWith(reported, slices.Keys, x);
    assert multiset(RankDocMatches(dm))[x] > 0;
    MultisetElements(x.matches, slices[d]);
  }

  lemma MultisetElements(a: seq<string>, b: seq<string>)
    requires multiset(a) == multiset(b)
    ensures Elements(a) == Elements(b)
  {
    assert forall x :: x in a <==> x in multiset(a);
    assert forall x :: x in b <==> x in multiset(b);
  }
}

=== FILE: index_line.dfy ===
/** One line of an inverted-index file, `word: count doc1, doc2, ...`: the
    parser used when loading or scanning an index, and the line format the
    partitioner writes. */
module IndexLine {
  import opened Wrappers
  import opened Text
  import opened Numbers

  /** Go's `InvertedIndexEntry`: the count field as written in the file and
      the documents in file order (duplicates and empty names included). */
  datatype Entry = Entry(count: int, documents: seq<string>)

  /** The zero value `InvertedIndexEntry{}` returned for a rejected line. */
  const EmptyEntry: Entry := Entry(0, [])

  /** The three capture groups of `^(\S+): (\d+) (.+)$`. */
  datatype LineMatch = LineMatch(word: string, digits: string, rest: string)

  predicate IsNotRegexSpace(c: char) {
    !IsRegexSpace(c)
  }

  /** A word the group `\S+` accepts. */
  predicate IsRegexWord(w: string) {
    |w| > 0 && forall k :: 0 <= k < |w| ==> !IsRegexSpace(w[k])
  }

  /** A text the group `.+` accepts: `.` matches anything but a newline. */
  predicate IsRegexRest(r: string) {
    |r| > 0 && '\n' !in r
  }

  predicate WellShaped(m: LineMatch) {
    IsRegexWord(m.word) && IsDigits(m.digits) && IsRegexRest(m.rest)
  }

  /** The line a set of capture groups comes from. */
  function Assemble(m: LineMatch): string {
    m.word + ": " + m.digits + " " + m.rest
  }

  /** Matching of `^(\S+): (\d+) (.+)$` against a whole line. Because `\S+`
      cannot cross the space after the colon and `\d+` cannot cross the space
      after the digits, a match splits the line in exactly one way: the word
      ends one character before the first white space, which must be the
      space of `": "`. */
  function MatchLine(line: string): (r: Option<LineMatch>)
    ensures r.Some? ==> WellShaped(r.value) && Assemble(r.value) == line
  {
    var i := PrefixSpan(line, IsNotRegexSpace);
    if i < 2 || i == |line| || line[i - 1] != ':' || line[i] != ' ' then
      None
    else
      var after := line[i + 1..];
      var j := PrefixSpan(after, IsDigit);
      if j == 0 || j == |after| || after[j] != ' ' then
        None
      else
        var rest := after[j + 1..];
        if rest == [] || '\n' in rest then
          None
        else
          AssembleParts(line, i, j);
          Some(LineMatch(line[..i - 1], after[..j], rest))
  }

  /** Cutting a line at the space of `": "` and at the space after the digits
      gives groups that put the line back together. */
  lemma AssembleParts(line: string, i: nat, j: nat)
    requires 2 <= i < |line| && line[i - 1] == ':' && line[i] == ' '
    requires j < |line[i + 1..]| && line[i + 1..][j] == ' '
    ensures Assemble(LineMatch(line[..i - 1], line[i + 1..][..j], line[i + 1..][j + 1..])) == line
  {
    var word := line[..i - 1];
    var after := line[i + 1..];
    var digits := after[..j];
    var rest := after[j + 1..];
    assert after == digits + " " + rest;
    assert line == word + ": " + after;
  }

  /** Every line of the right shape is matched, with exactly its own groups:
      together with the contract of `MatchLine`, a line is accepted if and
      only if it has the shape, and the groups are unique. */
  lemma MatchLineComplete(m: LineMatch)
    requires WellShaped(m)
    ensures MatchLine(Assemble(m)) == Some(m)
  {
    var line := Assemble(m);
    var i := |m.word| + 1;
    var after := m.digits + " " + m.rest;
    WordSpan(m);
    assert line[i - 1] == ':' && line[i] == ' ' by {
      assert line == m.word + ":" + " " + after;
    }
    assert line[..i - 1] == m.word && line[i + 1..] == after by {
      assert line == m.word + ": " + after;
    }
    DigitSpan(m.digits, m.rest);
  }

  lemma WordSpan(m: LineMatch)
    requires WellShaped(m)
    ensures PrefixSpan(Assemble(m), IsNotRegexSpace) == |m.word| + 1
  {
    var head := m.word + ":";
    var tail := " " + m.digits + " " + m.rest;
    assert Assemble(m) == head + tail;
    assert forall k :: 0 <= k < |head| ==> IsNotRegexSpace(head[k]) by {
      forall k | 0 <= k < |head| ensures IsNotRegexSpace(head[k]) {
        if k < |m.word| { assert head[k] == m.word[k]; }
      }
    }
    PrefixSpanOf(head, tail, IsNotRegexSpace);
  }

  lemma DigitSpan(digits: string, rest: string)
    requires IsDigits(digits)
    ensures var after := digits + " " + rest;
      && PrefixSpan(after, IsDigit) == |digits|
      && after[|digits|] == ' '
      && after[..|digits|] == digits
      && after[|digits| + 1..] == rest
  {
    var after := digits + " " + rest;
    assert after == digits + (" " + rest);
    PrefixSpanOf(digits, " " + rest, IsDigit);
  }

  /** `strings.TrimSpace` applied to every piece. */
  function TrimEach(pieces: seq<string>): (r: seq<string>)
    ensures |r| == |pieces|
    ensures forall k :: 0 <= k < |r| ==> r[k] == TrimSpace(pieces[k])
  {
    if pieces == [] then [] else [TrimSpace(pieces[0])] + TrimEach(pieces[1..])
  }

  /** Whether `parseInvertedIndexEntry` accepts the line: it matches the
      pattern and its count fits in an `int`. */
  predicate Accepted(line: string) {
    MatchLine(line).Some? && DigitsValue(MatchLine(line).value.digits) <= MaxInt
  }

  /** Go's `parseInvertedIndexEntry`: `("", InvertedIndexEntry{})` for a
      rejected line; otherwise the word, the count as written (never checked
      against the documents) and the text after the count split at every
      comma with each piece trimmed. Pieces may be empty or repeated. */
  function ParseInvertedIndexEntry(line: string): (r: (string, Entry))
    ensures r.0 == "" <==> !Accepted(line)
    ensures !Accepted(line) ==> r.1 == EmptyEntry
    ensures Accepted(line) ==>
      var m := MatchLine(line).value;
      && r.0 == m.word
      && r.1.count == DigitsValue(m.digits)
      && |r.1.documents| == |Split(m.rest, ',')|
      && forall k :: 0 <= k < |r.1.documents| ==> r.1.documents[k] == TrimSpace(Split(m.rest, ',')[k])
    ensures forall k :: 0 <= k < |r.1.documents| ==> ',' !in r.1.documents[k] && IsTrimmed(r.1.documents[k])
  {
    match MatchLine(line)
    case None => ("", EmptyEntry)
    case Some(m) =>
      match ScanInt(m.digits)
      case None => ("", EmptyEntry)
      case Some(count) =>
        var pieces := Split(m.rest, ',');
        SplitPiecesLack(m.rest, ',');
        var docs := TrimEach(pieces);
        assert forall k :: 0 <= k < |docs| ==> ',' !in docs[k] by {
          forall k | 0 <= k < |docs| ensures ',' !in docs[k] {
            TrimSpaceKeepsOut(pieces[k], ',');
          }
        }
        (m.word, Entry(count, docs))
  }

  /** Trimming never introduces a character. */
  lemma TrimSpaceKeepsOut(s: string, c: char)
    requires c !in s
    ensures c !in TrimSpace(s)
  {
    var t := TrimSpace(s);
    var i := PrefixSpan(s, IsSpace);
    assert t == s[i..i + |t|];
    forall k | 0 <= k < |t| ensures t[k] != c {
      assert t[k] == s[i + k] && s[i + k] in s;
    }
  }

  // ---------------------------------------------------------------------------
  // The line format the partitioner writes, and reading it back
  // ---------------------------------------------------------------------------

  /** `fmt.Sprintf("%s: %d %s", keyword, count, strings.Join(docs, ", "))`,
      without the line terminator. */
  function FormatLine(keyword: string, count: nat, docs: seq<string>): string {
    keyword + ": " + Decimal(count) + " " + Join(docs, ", ")
  }

  /** A document name as the partitioner emits it. */
  predicate IsCleanDocument(d: string) {
    |d| > 0 && IsTrimmed(d) && ',' !in d && '\n' !in d
  }

  /** The list joined with `", "` is the list with a space put in front of
      every piece but the first, joined with `","`. */
  function SpacePrefixed(docs: seq<string>): (r: seq<string>)
    requires |docs| >= 1
    ensures |r| == |docs| && r[0] == docs[0]
    ensures forall k :: 1 <= k < |docs| ==> r[k] == " " + docs[k]
  {
    [docs[0]] + seq(|docs| - 1, k requires 0 <= k < |docs| - 1 => " " + docs[k + 1])
  }

  lemma {:induction false} JoinCommaSpace(docs: seq<string>)
    requires |docs| >= 1
    ensures Join(docs, ", ") == Join(SpacePrefixed(docs), ",")
  {
    if |docs| > 1 {
      var tail := docs[1..];
      JoinCommaSpace(tail);
      var p := SpacePrefixed(docs);
      var q := SpacePrefixed(tail);
      assert p[1..] == [" " + docs[1]] + q[1..];
      assert Join(p, ",") == docs[0] + "," + Join(p[1..], ",");
      if |tail| == 1 {
        assert Join(p[1..], ",") == " " + docs[1];
      } else {
        assert Join(p[1..], ",") == " " + docs[1] + "," + Join(q[1..], ",");
        assert Join(q, ",") == docs[1] + "," + Join(q[1..], ",");
      }
    }
  }

  lemma {:induction false} JoinKeepsOut(parts: seq<string>, sep: string, c: char)
    requires c !in sep
    requires forall k :: 0 <= k < |parts| ==> c !in parts[k]
    ensures c !in Join(parts, sep)
  {
    if |parts| > 1 {
      JoinKeepsOut(parts[1..], sep, c);
    }
  }

  /** Every line the partitioner writes for a non-empty, white-space-free
      keyword is accepted by `parseInvertedIndexEntry` and reads back as the
      same keyword, count and document list. */
  lemma ParseFormatRoundTrip(keyword: string, docs: seq<string>)
    requires IsRegexWord(keyword)
    requires |docs| >= 1 && |docs| <= MaxInt
    requires forall k :: 0 <= k < |docs| ==> IsCleanDocument(docs[k])
    ensures ParseInvertedIndexEntry(FormatLine(keyword, |docs|, docs)) == (keyword, Entry(|docs|, docs))
  {
    var rest := Join(docs, ", ");
    JoinedDocuments(docs);
    var m := LineMatch(keyword, Decimal(|docs|), rest);
    assert Assemble(m) == FormatLine(keyword, |docs|, docs);
    MatchLineComplete(m);
    TrimSpacePrefixed(docs);
    var r := ParseInvertedIndexEntry(FormatLine(keyword, |docs|, docs));
    assert r.1.documents == TrimEach(SpacePrefixed(docs));
  }

  /** The document text of a formatted line is a valid `.+` group that
      splits back into the space-prefixed pieces. */
  lemma JoinedDocuments(docs: seq<string>)
    requires |docs| >= 1
    requires forall k :: 0 <= k < |docs| ==> IsCleanDocument(docs[k])
    ensures IsRegexRest(Join(docs, ", "))
    ensures Split(Join(docs, ", "), ',') == SpacePrefixed(docs)
  {
    var rest := Join(docs, ", ");
    var pieces := SpacePrefixed(docs);
    JoinCommaSpace(docs);
    PrefixedKeepsOut(docs, ',');
    PrefixedKeepsOut(docs, '\n');
    JoinKeepsOut(pieces, ",", '\n');
    assert |rest| > 0 by {
      if |docs| == 1 { assert rest == docs[0]; }
      else { assert rest == docs[0] + ", " + Join(docs[1..], ", "); }
    }
    SplitJoin(pieces, ',');
  }

  /** Putting a space in front of the pieces brings in no other character. */
  lemma PrefixedKeepsOut(docs: seq<string>, c: char)
    requires |docs| >= 1 && c != ' '
    requires forall k :: 0 <= k < |docs| ==> c !in docs[k]
    ensures forall k :: 0 <= k < |docs| ==> c !in SpacePrefixed(docs)[k]
  {
    var pieces := SpacePrefixed(docs);
    forall k | 1 <= k < |docs| ensures c !in pieces[k] {
      SpaceInFront(docs[k], c);
    }
  }

  lemma SpaceInFront(d: string, c: char)
    requires c != ' ' && c !in d
    ensures c !in " " + d
  {
  }

  lemma TrimSpacePrefixed(docs: seq<string>)
    requires |docs| >= 1
    requires forall k :: 0 <= k < |docs| ==> IsCleanDocument(docs[k])
    ensures TrimEach(SpacePrefixed(docs)) == docs
  {
    var pieces := SpacePrefixed(docs);
    forall k | 0 <= k < |docs| ensures TrimSpace(pieces[k]) == docs[k] {
      if k == 0 {
        TrimSpaceOfTrimmed(docs[0]);
      } else {
        assert pieces[k] == [' '] + docs[k];
        TrimSpaceAfterSpace(' ', docs[k]);
      }
    }
  }

  /** Lines in the form the index files and tests use, with the documents
      joined by bare commas, parse to their parts. */
  lemma ParseCommaJoinedLine(keyword: string, count: nat, docs: seq<string>)
    requires IsRegexWord(keyword)
    requires count <= MaxInt
    requires |docs| >= 1
    requires forall k :: 0 <= k < |docs| ==> IsCleanDocument(docs[k])
    ensures ParseInvertedIndexEntry(keyword + ": " + Decimal(count) + " " + Join(docs, ",")) == (keyword, Entry(count, docs))
  {
    var rest := Join(docs, ",");
    CommaJoinedDocuments(docs);
    var m := LineMatch(keyword, Decimal(count), rest);
    MatchLineComplete(m);
    ParseOfMatch(Assemble(m), m);
  }

  lemma CommaJoinedDocuments(docs: seq<string>)
    requires |docs| >= 1
    requires forall k :: 0 <= k < |docs| ==> IsCleanDocument(docs[k])
    ensures IsRegexRest(Join(docs, ","))
    ensures TrimEach(Split(Join(docs, ","), ',')) == docs
  {
    JoinedIsRest(docs, ",");
    SplitJoin(docs, ',');
    TrimEachOfTrimmed(docs);
  }

  lemma JoinedIsRest(docs: seq<string>, sep: string)
    requires |docs| >= 1 && '\n' !in sep
    requires forall k :: 0 <= k < |docs| ==> IsCleanDocument(docs[k])
    ensures IsRegexRest(Join(docs, sep))
  {
    JoinKeepsOut(docs, sep, '\n');
    if |docs| > 1 {
      assert Join(docs, sep) == docs[0] + sep + Join(docs[1..], sep);
    }
  }

  lemma TrimEachOfTrimmed(docs: seq<string>)
    requires forall k :: 0 <= k < |docs| ==> IsTrimmed(docs[k])
    ensures TrimEach(docs) == docs
  {
    forall k | 0 <= k < |docs| ensures TrimSpace(docs[k]) == docs[k] {
      TrimSpaceOfTrimmed(docs[k]);
    }
  }

  /** What `parseInvertedIndexEntry` returns for a matched line. */
  lemma ParseOfMatch(line: string, m: LineMatch)
    requires MatchLine(line) == Some(m)
    requires DigitsValue(m.digits) <= MaxInt
    ensures ParseInvertedIndexEntry(line) == (m.word, Entry(DigitsValue(m.digits), TrimEach(Split(m.rest, ','))))
  {
  }
}

=== FILE: index_merge.dfy ===
/** Building the in-memory index: `mergeIntoIndex` (one file's lines) and
    `loadInvertedIndexFiles` (every file, stopping at the first failure).
    Files are modelled by their content; opening or reading one can fail. */
module IndexMerge {
  import opened Wrappers
  import opened IndexLine
  import opened Collections

  /** Go's `map[string]InvertedIndexEntry`. */
  type Index = map<string, Entry>

  /** One index file as the process sees it: it cannot be opened, or it
      yields its lines and then either ends cleanly or reports a read error
      (`scanner.Err() != nil`). */
  datatype IndexFile = Unreadable | Readable(lines: seq<string>, readFails: bool)

  datatype FileError = CannotOpen | CannotRead

  /** A failure of the file at position `file` of the index's file list. */
  datatype IndexError = IndexError(file: nat, kind: FileError)

  // ---------------------------------------------------------------------------
  // The (word, document) pairs an index or a run of lines holds
  // ---------------------------------------------------------------------------

  ghost function DocPairs(index: Index): set<(string, string)> {
    set w, d | w in index && d in index[w].documents :: (w, d)
  }

  /** The pairs a parsed line contributes: none when it was rejected. */
  ghost function ParsedPairs(p: (string, Entry)): set<(string, string)> {
    if p.0 == "" then {} else set d | d in p.1.documents :: (p.0, d)
  }

  /** The word of a parsed line, if it was accepted. */
  function ParsedWords(p: (string, Entry)): set<string> {
    if p.0 == "" then {} else {p.0}
  }

  ghost function LinesPairs(lines: seq<string>): set<(string, string)> {
    if lines == [] then {} else ParsedPairs(ParseInvertedIndexEntry(lines[0])) + LinesPairs(lines[1..])
  }

  ghost function LinesWords(lines: seq<string>): set<string> {
    if lines == [] then {} else ParsedWords(ParseInvertedIndexEntry(lines[0])) + LinesWords(lines[1..])
  }

  /** The pairs of every line delivered before the first failure. */
  ghost function ReadPairs(files: seq<IndexFile>): set<(string, string)> {
    if files == [] then {}
    else match files[0]
      case Unreadable => {}
      case Readable(lines, readFails) =>
        LinesPairs(lines) + (if readFails then {} else ReadPairs(files[1..]))
  }

  /** The words of every accepted line delivered before the first failure. */
  ghost function ReadWords(files: seq<IndexFile>): set<string> {
    if files == [] then {}
    else match files[0]
      case Unreadable => {}
      case Readable(lines, readFails) =>
        LinesWords(lines) + (if readFails then {} else ReadWords(files[1..]))
  }

  /** The position of the first file that cannot be opened or read, if any. */
  function FirstFailure(files: seq<IndexFile>): (r: Option<IndexError>)
    ensures r.Some? ==> r.value.file < |files|
    ensures r.None? ==> forall i :: 0 <= i < |files| ==> files[i].Readable? && !files[i].readFails
  {
    if files == [] then None
    else match files[0]
      case Unreadable => Some(IndexError(0, CannotOpen))
      case Readable(_, readFails) =>
        if readFails then Some(IndexError(0, CannotRead))
        else match FirstFailure(files[1..])
          case None => None
          case Some(e) => Some(IndexError(e.file + 1, e.kind))
  }

  // ---------------------------------------------------------------------------
  // Merging one entry
  // ---------------------------------------------------------------------------

  /** The documents of `incoming` that are not in `seen`, each kept once, in
      order of first appearance: what the Go loop appends while it grows its
      `docSet`. */
  function NewDocuments(seen: set<string>, incoming: seq<string>): (r: seq<string>)
    ensures forall d :: d in r <==> d in incoming && d !in seen
    ensures Distinct(r)
    decreases |incoming|
  {
    if incoming == [] then []
    else if incoming[0] in seen then NewDocuments(seen, incoming[1..])
    else
      var tail := NewDocuments(seen + {incoming[0]}, incoming[1..]);
      assert incoming[0] !in tail;
      [incoming[0]] + tail
  }

  /** The merge of a line's documents into an existing entry: the old list
      stays as a prefix, only documents not yet present are appended (each
      once), the documents become the union, and the count becomes the
      number of distinct documents. */
  function MergeEntry(existing: Entry, incoming: seq<string>): (r: Entry)
    ensures |existing.documents| <= |r.documents|
    ensures r.documents[..|existing.documents|] == existing.documents
    ensures forall d :: d in r.documents <==> d in existing.documents || d in incoming
    ensures forall i :: |existing.documents| <= i < |r.documents| ==> r.documents[i] !in existing.documents
    ensures Distinct(r.documents[|existing.documents|..])
    ensures r.count == |Elements(existing.documents) + Elements(incoming)|
    ensures (forall d :: d in incoming ==> d in existing.documents) ==> r.documents == existing.documents
  {
    var docSet := Elements(existing.documents);
    var added := NewDocuments(docSet, incoming);
    var documents := existing.documents + added;
    assert Elements(existing.documents) + Elements(incoming) == docSet + Elements(added);
    assert added != [] ==> added[0] in added;
    Entry(|docSet + Elements(added)|, documents)
  }

  // ---------------------------------------------------------------------------
  // Merging lines and files
  // ---------------------------------------------------------------------------

  /** One iteration of the line loop of `mergeIntoIndex`, given the parsed
      line. A rejected line changes nothing; the first line of a word is
      stored exactly as parsed (its count and any repeated documents
      included); a later line is merged into the stored entry; no other
      word is touched. */
  function MergeParsed(index: Index, p: (string, Entry)): (r: Index)
    ensures r.Keys == index.Keys + ParsedWords(p)
    ensures forall v :: v in index && v != p.0 ==> r[v] == index[v]
    ensures p.0 != "" && p.0 !in index ==> r[p.0] == p.1
    ensures p.0 != "" && p.0 in index ==> r[p.0] == MergeEntry(index[p.0], p.1.documents)
  {
    if p.0 == "" then
      index
    else
      var merged := if p.0 in index then MergeEntry(index[p.0], p.1.documents) else p.1;
      index[p.0 := merged]
  }

  /** Replacing the entry of `w` by one whose documents are the old ones plus
      `extra` adds exactly the pairs of `w` with `extra`. */
  lemma UpdatePairs(index: Index, w: string, e: Entry, extra: seq<string>)
    requires forall d :: d in e.documents <==> (w in index && d in index[w].documents) || d in extra
    ensures DocPairs(index[w := e]) == DocPairs(index) + set d | d in extra :: (w, d)
  {
    var r := index[w := e];
    forall p | p in DocPairs(r) ensures p in DocPairs(index) + set d | d in extra :: (w, d) {
      if p.0 != w { assert p.0 in index && p.1 in index[p.0].documents; }
    }
    forall p | p in DocPairs(index) ensures p in DocPairs(r) {
      assert p.0 in r && p.1 in r[p.0].documents;
    }
  }

  /** A line adds exactly its own pairs to the index. */
  lemma MergeParsedPairs(index: Index, p: (string, Entry))
    ensures DocPairs(MergeParsed(index, p)) == DocPairs(index) + ParsedPairs(p)
  {
    if p.0 != "" {
      UpdatePairs(index, p.0, MergeParsed(index, p)[p.0], p.1.documents);
      assert MergeParsed(index, p) == index[p.0 := MergeParsed(index, p)[p.0]];
    }
  }

  /** The line loop of `mergeIntoIndex`, in file order. */
  function MergeLines(index: Index, lines: seq<string>): (r: Index)
    ensures r.Keys == index.Keys + LinesWords(lines)
    decreases lines
  {
    if lines == [] then index
    else
      MergeLines(MergeParsed(index, ParseInvertedIndexEntry(lines[0])), lines[1..])
  }

  /** After the line loop the index holds exactly its old pairs plus those
      of the accepted lines. */
  lemma {:induction false} MergeLinesPairs(index: Index, lines: seq<string>)
    ensures DocPairs(MergeLines(index, lines)) == DocPairs(index) + LinesPairs(lines)
    decreases lines
  {
    if lines != [] {
      var p := ParseInvertedIndexEntry(lines[0]);
      MergeParsedPairs(index, p);
      MergeLinesPairs(MergeParsed(index, p), lines[1..]);
    }
  }

  /** Go's `mergeIntoIndex`: an unopenable file leaves the index untouched;
      otherwise every delivered line is merged, so the index gains exactly the
      (keyword, document) pairs of the accepted lines, and a read error is
      reported afterwards with the merged lines kept. */
  function MergeIntoIndex(index: Index, file: IndexFile): (r: (Index, Option<FileError>))
    ensures file.Unreadable? ==> r == (index, Some(CannotOpen))
    ensures file.Readable? ==> r.0 == MergeLines(index, file.lines)
    ensures file.Readable? ==> DocPairs(r.0) == DocPairs(index) + LinesPairs(file.lines)
    ensures file.Readable? ==> (r.1.Some? <==> file.readFails)
  {
    match file
    case Unreadable => (index, Some(CannotOpen))
    case Readable(lines, readFails) =>
      MergeLinesPairs(index, lines);
      (MergeLines(index, lines), if readFails then Some(CannotRead) else None)
  }

  /** Go's `loadInvertedIndexFiles`: merges file after file and stops at the
      first failure, keeping what was merged before it. The error names the
      position of the failing file. */
  function LoadFiles(index: Index, files: seq<IndexFile>): (r: (Index, Option<IndexError>))
    ensures r.1 == FirstFailure(files)
    decreases files
  {
    if files == [] then (index, None)
    else
      var step := MergeIntoIndex(index, files[0]);
      if step.1.Some? then
        (step.0, Some(IndexError(0, step.1.value)))
      else
        var rest := LoadFiles(step.0, files[1..]);
        (rest.0, if rest.1.Some? then Some(IndexError(rest.1.value.file + 1, rest.1.value.kind)) else None)
  }

  /** What a load leaves behind, failed or not: the old contents plus every
      line delivered before the first failure. */
  lemma {:induction false} LoadFilesContents(index: Index, files: seq<IndexFile>)
    ensures var r := LoadFiles(index, files).0;
      && DocPairs(r) == DocPairs(index) + ReadPairs(files)
      && r.Keys == index.Keys + ReadWords(files)
    decreases files
  {
    if files != [] {
      var step := MergeIntoIndex(index, files[0]);
      if files[0].Readable? {
        MergeLinesPairs(index, files[0].lines);
        if !files[0].readFails {
          LoadFilesContents(step.0, files[1..]);
        }
      }
    }
  }

  /** Merging the same lines a second time leaves every document list as it
      was: the search results cannot change (only counts that came straight
      from the file are replaced by distinct-document counts). */
  lemma {:induction false} MergeAgainKeepsDocuments(index: Index, lines: seq<string>)
    ensures var once := MergeLines(index, lines);
      var twice := MergeLines(once, lines);
      && twice.Keys == once.Keys
      && forall w :: w in once ==> twice[w].documents == once[w].documents
  {
    var once := MergeLines(index, lines);
    MergeLinesPairs(index, lines);
    RemergeCovered(once, lines);
  }

  /** A line whose pairs an index already holds adds no document and no
      word. */
  lemma MergeParsedCovered(index: Index, p: (string, Entry))
    requires ParsedPairs(p) <= DocPairs(index)
    requires ParsedWords(p) <= index.Keys
    ensures var r := MergeParsed(index, p);
      && r.Keys == index.Keys
      && DocPairs(r) == DocPairs(index)
      && forall w :: w in index ==> r[w].documents == index[w].documents
  {
    if p.0 != "" {
      assert p.0 in index;
      forall d | d in p.1.documents ensures d in index[p.0].documents {
        assert (p.0, d) in ParsedPairs(p);
        assert (p.0, d) in DocPairs(index);
      }
    }
    MergeParsedPairs(index, p);
  }

  /** Lines whose pairs an index already holds add no document and no word. */
  lemma {:induction false} RemergeCovered(index: Index, lines: seq<string>)
    requires LinesPairs(lines) <= DocPairs(index)
    requires LinesWords(lines) <= index.Keys
    ensures var r := MergeLines(index, lines);
      && r.Keys == index.Keys
      && forall w :: w in index ==> r[w].documents == index[w].documents
    decreases lines
  {
    if lines != [] {
      var p := ParseInvertedIndexEntry(lines[0]);
      MergeParsedCovered(index, p);
      RemergeCovered(MergeParsed(index, p), lines[1..]);
    }
  }
}

=== FILE: index_server.dfy ===
/** The index server's RPC handler (`IndexServer.Search`): it splits the
    query into lower-case words, runs the search strategy the server was
    started with, and copies the results into the reply. */
module IndexServer {
  import opened Wrappers
  import opened Collections
  import opened Text
  import opened IndexMerge
  import opened DocMatches
  import opened InvertedIndex
  import opened RpcApi
  import Ranking

  /** Go's `IndexServer`: the shard's index and the strategy flag. */
  datatype IndexServer = IndexServer(index: InvertedIndex, useMemory: bool)

  /** The error `Search` returns: the strategy's error, wrapped. */
  datatype SearchError = SearchFailed(cause: IndexError)

  /** What one call leaves behind: the server (whose index may have been
      loaded on the way), the caller's reply variable, and the error
      returned. */
  datatype Call = Call(server: IndexServer, reply: seq<SearchResult>, error: Option<SearchError>)

  // ---------------------------------------------------------------------------
  // Query words
  // ---------------------------------------------------------------------------

  predicate IsUpper(c: char) {
    'A' <= c <= 'Z'
  }

  predicate NoUpper(s: string) {
    forall k :: 0 <= k < |s| ==> !IsUpper(s[k])
  }

  /** `strings.Fields(strings.ToLower(query))`: the query's words, each
      non-empty, free of white space and of upper-case letters. */
  function QueryWords(query: string): (r: seq<string>)
    ensures forall i :: 0 <= i < |r| ==> |r[i]| > 0 && NoSpace(r[i]) && NoUpper(r[i])
  {
    var lower := ToLower(query);
    var r := Fields(lower);
    FieldsKeepNonSpace(lower);
    NonSpaceCharsFrom(lower);
    forall i, k | 0 <= i < |r| && 0 <= k < |r[i]| ensures !IsUpper(r[i][k]) {
      assert r[i][k] in Flatten(r);
      var j :| 0 <= j < |lower| && lower[j] == r[i][k];
    }
    r
  }

  /** Every character `NonSpaceChars` keeps comes from its argument. */
  lemma {:induction false} NonSpaceCharsFrom(s: string)
    ensures forall c :: c in NonSpaceChars(s) ==> c in s
  {
    if s != [] {
      NonSpaceCharsFrom(s[1..]);
      assert forall c :: c in s[1..] ==> c in s;
    }
  }

  /** Lower-case words joined by single spaces are read back as the same
      words. */
  lemma QueryOfWords(words: seq<string>)
    requires forall i :: 0 <= i < |words| ==> |words[i]| > 0 && NoSpace(words[i]) && NoUpper(words[i])
    ensures QueryWords(Join(words, " ")) == words
  {
    var query := Join(words, " ");
    JoinHasNoUpper(words);
    assert ToLower(query) == query;
    FieldsOfJoin(words);
  }

  lemma {:induction false} JoinHasNoUpper(words: seq<string>)
    requires forall i :: 0 <= i < |words| ==> NoUpper(words[i])
    ensures NoUpper(Join(words, " "))
  {
    if |words| > 1 {
      JoinHasNoUpper(words[1..]);
      var rest := Join(words[1..], " ");
      var s := words[0] + " " + rest;
      assert Join(words, " ") == s;
      forall k | 0 <= k < |s| ensures !IsUpper(s[k]) {
        if k < |words[0]| {
          assert s[k] == words[0][k];
        } else if k > |words[0]| {
          assert s[k] == rest[k - |words[0]| - 1];
        }
      }
    }
  }

  // ---------------------------------------------------------------------------
  // The handler
  // ---------------------------------------------------------------------------

  /** The results `reply` carries: one per index result, in order, with the
      same document and matches. */
  predicate Carries(reply: seq<SearchResult>, results: seq<Ranking.Result>) {
    |reply| == |results| && forall i :: 0 <= i < |reply| ==> ToResult(reply[i]) == results[i]
  }

  /** The strategy the server was started with, on the given index: the
      in-memory top-K search, or a scan of the files. On an index not loaded
      yet, with a cut no shorter than the ranking, the choice does not change
      the outcome. */
  function RunStrategy(useMemory: bool, idx: InvertedIndex, words: seq<string>, k: int): (r: (InvertedIndex, Outcome<seq<Ranking.Result>, IndexError>))
    ensures useMemory ==> r == SearchInMemoryTopK(idx, words, k)
    ensures !useMemory ==> r == (idx, SearchScanFiles(idx, words))
    ensures idx.data.None? && k >= |Expected(ReadPairs(idx.indexFiles), words)| ==>
      r.1 == SearchScanFiles(idx, words)
  {
    if useMemory then
      TopKAgreesWithScan(idx, words, k);
      SearchInMemoryTopK(idx, words, k)
    else
      (idx, SearchScanFiles(idx, words))
  }

  /** On an index not loaded yet, the in-memory top-K search with a cut no
      shorter than the ranking has the outcome of a scan: the same failure,
      or the same results. */
  lemma TopKAgreesWithScan(idx: InvertedIndex, words: seq<string>, k: int)
    ensures idx.data.None? && k >= |Expected(ReadPairs(idx.indexFiles), words)| ==>
      SearchInMemoryTopK(idx, words, k).1 == SearchScanFiles(idx, words)
  {
    if idx.data.None? && k >= |Expected(ReadPairs(idx.indexFiles), words)| {
      ScanAndMemoryAgree(idx.indexFiles, words);
      assert idx == NewInvertedIndex(idx.indexFiles);
      if FirstFailure(idx.indexFiles).None? {
        var ranked := RankDocMatches(Expected(ReadPairs(idx.indexFiles), words));
        assert |ranked| == |Expected(ReadPairs(idx.indexFiles), words)|;
        TopKOfShortRanking(ranked, k);
      }
    }
  }

  /** The end of `Search`: a failure is returned wrapped and leaves the reply
      as it was; otherwise the results are converted into the reply. */
  function Answer(server: IndexServer, reply: seq<SearchResult>, outcome: Outcome<seq<Ranking.Result>, IndexError>): (r: Call)
    ensures r.server == server
    ensures outcome.Err? ==> r.reply == reply && r.error == Some(SearchFailed(outcome.error))
    ensures outcome.Ok? ==> r.error.None? && Carries(r.reply, outcome.value)
  {
    match outcome
    case Err(e) => Call(server, reply, Some(SearchFailed(e)))
    case Ok(results) => Call(server, FromResults(results), None)
  }

  /** Go's `Search` as written: line 15 runs the in-memory top-K search
      whatever the strategy, and its outcome is then overwritten by the
      strategy's. Given the intended `SearchInMemoryTopK` (the Go function is
      a stub that fails without loading anything, so with it line 15 does
      nothing and memory mode always fails), the first search loads the
      index, so in memory mode the second never fails: a failed load is never
      reported, and in scan mode the whole index is loaded though never
      used. */
  function SearchAsWritten(s: IndexServer, args: SearchArgs, reply: seq<SearchResult>): (r: Call)
    ensures r.server == s.(index := EnsureIndexIsLoaded(s.index).0)
    ensures s.useMemory ==> r.error.None?
    ensures !s.useMemory ==> (r.error.Some? <==> FirstFailure(s.index.indexFiles).Some?)
  {
    var words := QueryWords(args.query);
    var first := SearchInMemoryTopK(s.index, words, args.topK);
    LoadAtMostOnce(s.index, words);
    var second := RunStrategy(s.useMemory, first.0, words, args.topK);
    Answer(s.(index := second.0), reply, second.1)
  }

  /** The handler with the evident intent of lines 15-20: exactly one
      strategy runs. Scanning leaves the server as it was and answers from
      the files, uncapped; the in-memory search loads the index once,
      reports a failed load, and answers with the first `topK` results. */
  function Search(s: IndexServer, args: SearchArgs, reply: seq<SearchResult>): (r: Call)
    ensures r.error.Some? ==> r.reply == reply
    ensures !s.useMemory ==> r.server == s
    ensures !s.useMemory ==> (r.error.Some? <==> FirstFailure(s.index.indexFiles).Some?)
    ensures !s.useMemory && r.error.None? ==>
      Carries(r.reply, RankDocMatches(Expected(ReadPairs(s.index.indexFiles), QueryWords(args.query))))
    ensures s.useMemory ==> r.server == s.(index := EnsureIndexIsLoaded(s.index).0)
    ensures s.useMemory ==> (r.error.Some? <==> EnsureIndexIsLoaded(s.index).1.Some?)
    ensures s.useMemory && r.error.None? ==>
      Carries(r.reply, Ranking.TopK(RankDocMatches(Expected(DocPairs(r.server.index.data.value), QueryWords(args.query))), args.topK))
  {
    var words := QueryWords(args.query);
    var outcome := RunStrategy(s.useMemory, s.index, words, args.topK);
    Answer(s.(index := outcome.0), reply, outcome.1)
  }

  // ---------------------------------------------------------------------------
  // Properties
  // ---------------------------------------------------------------------------

  /** The scan strategy ignores `topK`: its reply is the whole ranking. */
  lemma ScanPathIsUncapped(s: IndexServer, args: SearchArgs, reply: seq<SearchResult>, topK: int)
    requires !s.useMemory
    ensures Search(s, args, reply) == Search(s, args.(topK := topK), reply)
  {
  }

  /** On a new index over readable files, the in-memory strategy with a
      large enough `topK` replies exactly as the scan strategy does. */
  lemma StrategiesAgree(files: seq<IndexFile>, args: SearchArgs, reply: seq<SearchResult>)
    requires FirstFailure(files).None?
    requires args.topK >= |Expected(ReadPairs(files), QueryWords(args.query))|
    ensures var memory := Search(IndexServer(NewInvertedIndex(files), true), args, reply);
      var scan := Search(IndexServer(NewInvertedIndex(files), false), args, reply);
      memory.error == scan.error == None && memory.reply == scan.reply
  {
    var words := QueryWords(args.query);
    var memory := Search(IndexServer(NewInvertedIndex(files), true), args, reply);
    var scan := Search(IndexServer(NewInvertedIndex(files), false), args, reply);
    var ranked := RankDocMatches(Expected(ReadPairs(files), words));
    assert DocPairs(memory.server.index.data.value) == ReadPairs(files);
    assert |ranked| == |Expected(ReadPairs(files), words)|;
    TopKOfShortRanking(ranked, args.topK);
    CarriedReplyIsUnique(memory.reply, scan.reply, ranked);
  }

  /** A cut at least as long as the ranking keeps all of it. */
  lemma TopKOfShortRanking(rs: seq<Ranking.Result>, k: int)
    requires k >= |rs|
    ensures Ranking.TopK(rs, k) == rs
  {
  }

  /** A reply is determined by the results it carries. */
  lemma CarriedReplyIsUnique(a: seq<SearchResult>, b: seq<SearchResult>, results: seq<Ranking.Result>)
    requires Carries(a, results) && Carries(b, results)
    ensures a == b
  {
    forall i | 0 <= i < |a| ensures a[i] == b[i] {
      assert ToResult(a[i]) == ToResult(b[i]);
    }
  }

  /** The handler as written fails to report a failed first load in memory
      mode, where the intended handler reports it. */
  lemma AsWrittenMasksFailedLoad(s: IndexServer, args: SearchArgs, reply: seq<SearchResult>)
    requires s.useMemory && s.index.data.None? && FirstFailure(s.index.indexFiles).Some?
    ensures SearchAsWritten(s, args, reply).error == None
    ensures Search(s, args, reply).error == Some(SearchFailed(FirstFailure(s.index.indexFiles).value))
    ensures Search(s, args, reply).reply == reply
  {
  }

  /** In scan mode the handler as written loads the whole index into memory,
      though it replies as the intended handler does. */
  lemma AsWrittenLoadsOnScan(s: IndexServer, args: SearchArgs, reply: seq<SearchResult>)
    requires !s.useMemory && s.index.data.None?
    ensures SearchAsWritten(s, args, reply).server.index.data.Some?
    ensures Search(s, args, reply).server.index.data.None?
    ensures SearchAsWritten(s, args, reply).reply == Search(s, args, reply).reply
    ensures SearchAsWritten(s, args, reply).error == Search(s, args, reply).error
  {
    var words := QueryWords(args.query);
    var loaded := EnsureIndexIsLoaded(s.index).0;
    assert loaded.indexFiles == s.index.indexFiles;
  }

  /** Once the index is loaded, the extra search of line 15 changes nothing:
      the two handlers agree. */
  lemma AsWrittenAgreesOnceLoaded(s: IndexServer, args: SearchArgs, reply: seq<SearchResult>)
    requires s.index.data.Some?
    ensures SearchAsWritten(s, args, reply) == Search(s, args, reply)
  {
  }
}

=== FILE: index_server_example.dfy ===
/** The index server's test scenario: one index file with two lines, a scan
    search for "apple banana cherry", and the reply grouped by document. */
module IndexServerExample {
  import opened Wrappers
  import opened Collections
  import opened Text
  import opened Numbers
  import opened Ordering
  import opened IndexLine
  import opened IndexMerge
  import opened DocMatches
  import opened InvertedIndex
  import opened RpcApi
  import opened IndexServer

  const AppleLine: string := "apple: 2 doc1,doc2"
  const BananaLine: string := "banana: 1 doc1"

  /** The test's single index file, read without error. */
  const ExampleFiles: seq<IndexFile> := [Readable([AppleLine, BananaLine], false)]

  /** The (word, document) pairs the file holds. */
  const ExamplePairs: set<(string, string)> := {("apple", "doc1"), ("apple", "doc2"), ("banana", "doc1")}

  /** The keywords each document matches. */
  const ExampleMatches: DocMatches := map["doc1" := {"apple", "banana"}, "doc2" := {"apple"}]

  // ---------------------------------------------------------------------------
  // The file
  // ---------------------------------------------------------------------------

  /** A comma-joined line's pairs, once its text is known to be the parts
      put together. */
  lemma CommaJoinedLinePairs(line: string, keyword: string, count: nat, docs: seq<string>)
    requires line == keyword + ": " + Decimal(count) + " " + Join(docs, ",")
    requires IsRegexWord(keyword) && count <= MaxInt && |docs| >= 1
    requires forall k :: 0 <= k < |docs| ==> IsCleanDocument(docs[k])
    ensures ParsedPairs(ParseInvertedIndexEntry(line)) == set d | d in docs :: (keyword, d)
  {
    ParseCommaJoinedLine(keyword, count, docs);
  }

  lemma PairsOfTwo(keyword: string, a: string, b: string)
    ensures (set d | d in [a, b] :: (keyword, d)) == {(keyword, a), (keyword, b)}
  {
    var s := set d | d in [a, b] :: (keyword, d);
    assert (keyword, a) in s && (keyword, b) in s;
  }

  lemma PairsOfOne(keyword: string, a: string)
    ensures (set d | d in [a] :: (keyword, d)) == {(keyword, a)}
  {
    var s := set d | d in [a] :: (keyword, d);
    assert (keyword, a) in s;
  }

  lemma AppleLinePairs()
    ensures ParsedPairs(ParseInvertedIndexEntry(AppleLine)) == {("apple", "doc1"), ("apple", "doc2")}
  {
    var docs := ["doc1", "doc2"];
    assert Join(docs, ",") == "doc1,doc2";
    assert Decimal(2) == "2";
    assert IsCleanDocument("doc1") && IsCleanDocument("doc2");
    CommaJoinedLinePairs(AppleLine, "apple", 2, docs);
    PairsOfTwo("apple", "doc1", "doc2");
  }

  lemma BananaLinePairs()
    ensures ParsedPairs(ParseInvertedIndexEntry(BananaLine)) == {("banana", "doc1")}
  {
    var docs := ["doc1"];
    assert Decimal(1) == "1";
    assert IsCleanDocument("doc1");
    CommaJoinedLinePairs(BananaLine, "banana", 1, docs);
    PairsOfOne("banana", "doc1");
  }

  /** A file of two lines that reads without error holds their pairs. */
  lemma TwoLineFile(a: string, b: string)
    ensures FirstFailure([Readable([a, b], false)]) == None
    ensures ReadPairs([Readable([a, b], false)]) == ParsedPairs(ParseInvertedIndexEntry(a)) + ParsedPairs(ParseInvertedIndexEntry(b))
  {
    var lines := [a, b];
    assert lines[1..] == [b] && lines[1..][1..] == [];
    assert LinesPairs(lines[1..]) == ParsedPairs(ParseInvertedIndexEntry(b)) + LinesPairs([]);
    var files := [Readable(lines, false)];
    assert files[1..] == [];
    assert ReadPairs(files) == LinesPairs(lines) + ReadPairs([]);
  }

  /** The file reads without failure and holds exactly the example pairs. */
  lemma ExampleFileContents()
    ensures FirstFailure(ExampleFiles) == None
    ensures ReadPairs(ExampleFiles) == ExamplePairs
  {
    AppleLinePairs();
    BananaLinePairs();
    TwoLineFile(AppleLine, BananaLine);
  }

  // ---------------------------------------------------------------------------
  // The query
  // ---------------------------------------------------------------------------

  const ExampleWords: seq<string> := ["apple", "banana", "cherry"]

  lemma ExampleQueryWords()
    ensures QueryWords("apple banana cherry") == ExampleWords
  {
    assert Join(ExampleWords, " ") == "apple banana cherry";
    QueryOfWords(ExampleWords);
  }

  /** Every pair of the file matches a query word, so the reference keyword
      map is the file's, grouped by document. */
  lemma ExampleExpected()
    ensures Expected(ExamplePairs, ExampleWords) == ExampleMatches
  {
    assert Restrict(ExamplePairs, ExampleWords) == ExamplePairs;
    assert MatchPairs(ExampleMatches) == ExamplePairs by {
      assert forall p :: p in ExamplePairs ==> p.1 in ExampleMatches && p.0 in ExampleMatches[p.1];
    }
    PairsDetermine(MatchesOf(ExamplePairs), ExampleMatches);
  }

  // ---------------------------------------------------------------------------
  // The reply
  // ---------------------------------------------------------------------------

  /** A sorted list of two distinct keywords, read in order. */
  lemma SortedPair(m: seq<string>, a: string, b: string)
    requires |m| == 2 && Elements(m) == {a, b} && a != b && !LessEq(b, a)
    requires SortedBy(LessEq, m)
    ensures m == [a, b]
  {
    assert m[0] in Elements(m) && m[1] in Elements(m);
    assert a in m && b in m;
  }

  lemma SingleElement(m: seq<string>, a: string)
    requires |m| == 1 && Elements(m) == {a}
    ensures m == [a]
  {
    assert m[0] in Elements(m);
  }

  /** What the test checks of one entry of the reply, its matches sorted:
      the first document with both keywords, the second with the first. */
  predicate ExpectedEntry(x: SearchResult, d1: string, d2: string, a: string, b: string) {
    (x.document == d1 && x.matches == [a, b]) || (x.document == d2 && x.matches == [a])
  }

  /** The scenario's keyword map, described by its entries. */
  predicate IsExampleMatches(dm: DocMatches, d1: string, d2: string, a: string, b: string) {
    dm.Keys == {d1, d2} && dm[d1] == {a, b} && dm[d2] == {a}
  }

  /** The documents and keywords of the scenario, as they must be for the
      reply to be read back. */
  predicate ExampleNames(d1: string, d2: string, a: string, b: string) {
    d1 != d2 && IsTrimmed(d1) && IsTrimmed(d2) && a != b && !LessEq(b, a)
  }

  /** Each entry of the ranking is one of the two expected documents with
      its keywords in order. */
  lemma RankedEntry(dm: DocMatches, x: Ranking.Result, d1: string, d2: string, a: string, b: string)
    requires ExampleNames(d1, d2, a, b) && IsExampleMatches(dm, d1, d2, a, b)
    requires x in RankDocMatches(dm)
    ensures ExpectedEntry(FromResult(x), d1, d2, a, b)
  {
    ResultsComeFromDocuments(dm, x);
    var d :| d in dm && x.document == TrimSpace(d) && Elements(x.matches) == dm[d] && |x.matches| == |dm[d]|;
    ExampleKey(dm, d, d1, d2, a, b);
    EntryOfDocument(x, d, dm[d], d1, d2, a, b);
  }

  lemma ExampleKey(dm: DocMatches, d: string, d1: string, d2: string, a: string, b: string)
    requires IsExampleMatches(dm, d1, d2, a, b) && d in dm
    ensures (d == d1 && dm[d] == {a, b}) || (d == d2 && dm[d] == {a})
  {
    assert d in dm.Keys;
  }

  /** An entry built from one of the scenario's documents, its matches
      sorted, is an expected entry. */
  lemma EntryOfDocument(x: Ranking.Result, d: string, m: set<string>, d1: string, d2: string, a: string, b: string)
    requires ExampleNames(d1, d2, a, b)
    requires (d == d1 && m == {a, b}) || (d == d2 && m == {a})
    requires x.document == TrimSpace(d) && Elements(x.matches) == m && |x.matches| == |m|
    requires SortedBy(LessEq, x.matches)
    ensures ExpectedEntry(FromResult(x), d1, d2, a, b)
  {
    TrimSpaceOfTrimmed(d);
    if d == d1 {
      SortedPair(x.matches, a, b);
    } else {
      SingleElement(x.matches, a);
    }
  }

  /** The ranking has an entry for document `d`. */
  predicate RanksDocument(ranked: seq<Ranking.Result>, d: string) {
    exists x :: x in ranked && x.document == d
  }

  /** Every entry of the reply is an expected one. */
  predicate AllExpected(reply: seq<SearchResult>, d1: string, d2: string, a: string, b: string) {
    forall i :: 0 <= i < |reply| ==> ExpectedEntry(reply[i], d1, d2, a, b)
  }

  /** The reply has an entry for document `d`. */
  predicate Lists(reply: seq<SearchResult>, d: string) {
    exists i :: 0 <= i < |reply| && reply[i].document == d
  }

  /** A document of the map has an entry in the ranking under its own name. */
  lemma RankedDocument(dm: DocMatches, d: string)
    requires d in dm && IsTrimmed(d)
    ensures RanksDocument(RankDocMatches(dm), d)
  {
    DocumentsHaveResults(dm, d);
    TrimSpaceOfTrimmed(d);
  }

  /** A reply carrying a ranking holds an entry for each document the
      ranking holds. */
  lemma CarriedDocument(reply: seq<SearchResult>, ranked: seq<Ranking.Result>, d: string)
    requires Carries(reply, ranked)
    requires RanksDocument(ranked, d)
    ensures Lists(reply, d)
  {
    var x :| x in ranked && x.document == d;
    var i :| 0 <= i < |ranked| && ranked[i] == x;
    assert ToResult(reply[i]) == x;
  }

  /** A reply of two entries: the first document with both keywords and
      the second with the first keyword, each in some position. */
  predicate ReplyHas(reply: seq<SearchResult>, d1: string, d2: string, a: string, b: string) {
    && |reply| == 2
    && AllExpected(reply, d1, d2, a, b)
    && Lists(reply, d1)
    && Lists(reply, d2)
  }

  /** A successful reply carrying the scenario's ranking is what the test
      expects. */
  lemma ExampleReply(reply: seq<SearchResult>, dm: DocMatches, d1: string, d2: string, a: string, b: string)
    requires ExampleNames(d1, d2, a, b) && IsExampleMatches(dm, d1, d2, a, b)
    requires Carries(reply, RankDocMatches(dm))
    ensures ReplyHas(reply, d1, d2, a, b)
  {
    ReplyLength(reply, RankDocMatches(dm), dm, d1, d2);
    ReplyEntries(reply, dm, d1, d2, a, b);
    ReplyDocument(reply, dm, d1);
    ReplyDocument(reply, dm, d2);
  }

  /** A reply carrying the ranking of a map with two documents has two
      entries. */
  lemma ReplyLength(reply: seq<SearchResult>, ranked: seq<Ranking.Result>, dm: DocMatches, d1: string, d2: string)
    requires dm.Keys == {d1, d2} && d1 != d2
    requires |ranked| == |dm| && Carries(reply, ranked)
    ensures |reply| == 2
  {
    assert |dm.Keys| == 2;
  }

  /** Every entry of a reply carrying the scenario's ranking is expected. */
  lemma ReplyEntries(reply: seq<SearchResult>, dm: DocMatches, d1: string, d2: string, a: string, b: string)
    requires ExampleNames(d1, d2, a, b) && IsExampleMatches(dm, d1, d2, a, b)
    requires Carries(reply, RankDocMatches(dm))
    ensures AllExpected(reply, d1, d2, a, b)
  {
    var ranked := RankDocMatches(dm);
    forall i | 0 <= i < |reply| ensures ExpectedEntry(reply[i], d1, d2, a, b) {
      RankedEntry(dm, ranked[i], d1, d2, a, b);
      assert FromResult(ranked[i]) == reply[i];
    }
  }

  /** A reply carrying the ranking of a map holds an entry for each trimmed
      document of the map. */
  lemma ReplyDocument(reply: seq<SearchResult>, dm: DocMatches, d: string)
    requires Carries(reply, RankDocMatches(dm))
    requires d in dm && IsTrimmed(d)
    ensures Lists(reply, d)
  {
    RankedDocument(dm, d);
    CarriedDocument(reply, RankDocMatches(dm), d);
  }

  lemma ExampleMatchesDescribed()
    ensures ExampleNames("doc1", "doc2", "apple", "banana")
    ensures IsExampleMatches(ExampleMatches, "doc1", "doc2", "apple", "banana")
  {
    assert !Less("banana", "apple");
  }

  /** A scan over files that read without failure replies with the ranking
      of the keyword map the files and the query determine. */
  lemma ScanReply(s: IndexServer, args: SearchArgs, reply: seq<SearchResult>, dm: DocMatches)
    requires !s.useMemory && FirstFailure(s.index.indexFiles) == None
    requires Expected(ReadPairs(s.index.indexFiles), QueryWords(args.query)) == dm
    ensures Search(s, args, reply).error == None
    ensures Carries(Search(s, args, reply).reply, RankDocMatches(dm))
  {
  }

  /** What the test expects of the call: no error, and a reply of two
      entries, doc1 with apple and banana and doc2 with apple. */
  predicate TestExpects(r: Call) {
    r.error == None && ReplyHas(r.reply, "doc1", "doc2", "apple", "banana")
  }

  /** A scan search whose files hold the example pairs and whose query has
      the example words gets the reply the test expects. */
  lemma ScenarioReply(s: IndexServer, args: SearchArgs)
    requires !s.useMemory && FirstFailure(s.index.indexFiles) == None
    requires ReadPairs(s.index.indexFiles) == ExamplePairs && QueryWords(args.query) == ExampleWords
    ensures TestExpects(Search(s, args, []))
  {
    ExampleExpected();
    ScanReply(s, args, [], ExampleMatches);
    ExampleMatchesDescribed();
    var r := Search(s, args, []);
    ExampleReply(r.reply, ExampleMatches, "doc1", "doc2", "apple", "banana");
  }

  /** The scenario end to end: the scan succeeds, and the reply, grouped by
      document with sorted matches, is doc1 with apple and banana and doc2
      with apple. */
  lemma SearchMatchesPerDocument(s: IndexServer, args: SearchArgs)
    requires s == IndexServer(NewInvertedIndex(ExampleFiles), false)
    requires args == SearchArgs("apple banana cherry", 10)
    ensures TestExpects(Search(s, args, []))
  {
    ExampleFileContents();
    ExampleQueryWords();
    ScenarioReply(s, args);
  }
}

=== FILE: index_server_main.dfy ===
/** The pure part of the index server's entry point: resolving which shard
    the server is, refusing inconsistent flags, and choosing the index files
    a shard loads (`selectFilesForShard`). Listing a directory is left to the
    caller, which passes the listing in. */
module IndexServerMain {
  import opened Wrappers
  import opened Text
  import opened Numbers
  import opened Collections

  // ---------------------------------------------------------------------------
  // File names
  // ---------------------------------------------------------------------------

  predicate IsSlash(c: char) {
    c == '/'
  }

  /** Go's `filepath.Base` on a system whose separator is `/`: the last
      element of the path once trailing slashes are dropped; `"."` for an
      empty path and `"/"` for a path made of slashes only. */
  function Base(path: string): (r: string)
    ensures r != ""
    ensures r == "/" || forall k :: 0 <= k < |r| ==> r[k] != '/'
  {
    if path == "" then "."
    else
      var stripped := TrimRight(path, IsSlash);
      if stripped == "" then "/" else AfterLast(stripped, '/')
  }

  /** The text after the last `c` of `s` (all of `s` when it has none). */
  function AfterLast(s: string, c: char): (r: string)
    ensures forall k :: 0 <= k < |r| ==> r[k] != c
    ensures |s| > 0 && s[|s| - 1] != c ==> r != []
  {
    s[LastIndexOf(s, c) + 1..]
  }

  /** A name without a slash, alone or after a directory, is its own base
      name. */
  lemma BaseOfName(dir: string, name: string)
    requires name != "" && '/' !in name
    requires dir == "" || dir[|dir| - 1] == '/'
    ensures Base(dir + name) == name
  {
    var path := dir + name;
    assert path[|path| - 1] == name[|name| - 1];
    assert TrimRight(path, IsSlash) == path;
    LastAt(path, '/', |dir| - 1);
    assert path[|dir|..] == name;
  }

  /** `LastIndexOf` finds `i` when `c` sits there (or `i` is -1) and never
      after it. */
  lemma LastAt(s: string, c: char, i: int)
    requires -1 <= i < |s| && (i >= 0 ==> s[i] == c)
    requires forall k :: i < k < |s| ==> s[k] != c
    ensures LastIndexOf(s, c) == i
  {
  }

  /** The shard index a file name carries: the integer between the last `-`
      of its base name and a final `.txt`; `None` for a name the selection
      skips (no `-`, no `.txt`, or no integer in between). */
  function FileIndex(path: string): (r: Option<int>)
    ensures r.Some? ==> '-' in Base(path) && HasSuffix(Base(path), ".txt")
    ensures r.Some? ==> 0 <= r.value <= MaxInt
  {
    IndexInName(Base(path))
  }

  /** The index a base name carries, as `FileIndex` reads it. */
  function IndexInName(base: string): (r: Option<int>)
    ensures r.Some? ==> '-' in base && HasSuffix(base, ".txt") && 0 <= r.value <= MaxInt
  {
    var dash := LastIndexOf(base, '-');
    if dash == -1 || !HasSuffix(base, ".txt") then None
    else
      var digits := TrimSuffix(base[dash + 1..], ".txt");
      NoDashAfterLast(base, dash, digits);
      Atoi(digits)
  }

  /** The text after the last dash, with a suffix removed, holds no dash. */
  lemma NoDashAfterLast(base: string, dash: int, digits: string)
    requires 0 <= dash < |base| && LastIndexOf(base, '-') == dash
    requires digits == TrimSuffix(base[dash + 1..], ".txt")
    ensures '-' !in digits
  {
    var tail := base[dash + 1..];
    forall k | 0 <= k < |digits| ensures digits[k] != '-' {
      assert digits[k] == tail[k] == base[dash + 1 + k];
    }
  }

  /** A name written as `<stem>-<n>.txt` (the partitioner's output pattern)
      carries the index `n`, whatever dashes the stem holds. */
  lemma FileIndexOfName(dir: string, stem: string, n: nat)
    requires '/' !in stem && n <= MaxInt
    requires dir == "" || dir[|dir| - 1] == '/'
    ensures FileIndex(dir + stem + "-" + Decimal(n) + ".txt") == Some(n)
  {
    var digits := Decimal(n);
    var name := stem + "-" + digits + ".txt";
    assert dir + stem + "-" + digits + ".txt" == dir + name;
    NumberedName(stem, digits);
    BaseOfName(dir, name);
    IndexInNumberedName(stem, n);
  }

  lemma IndexInNumberedName(stem: string, n: nat)
    requires '/' !in stem && n <= MaxInt
    ensures IndexInName(stem + "-" + Decimal(n) + ".txt") == Some(n)
  {
    var digits := Decimal(n);
    var name := stem + "-" + digits + ".txt";
    NumberedName(stem, digits);
    assert name[|stem| + 1..] == digits + ".txt";
    assert TrimSuffix(digits + ".txt", ".txt") == digits;
    AtoiOfDecimal(n);
  }

  /** The shape of `<stem>-<digits>.txt`: no slash, its last dash right after
      the stem, and the `.txt` suffix. */
  lemma NumberedName(stem: string, digits: string)
    requires '/' !in stem && IsDigits(digits)
    ensures var name := stem + "-" + digits + ".txt";
      && '/' !in name
      && LastIndexOf(name, '-') == |stem|
      && HasSuffix(name, ".txt")
  {
    var name := stem + "-" + digits + ".txt";
    forall k | |stem| < k < |stem| + 1 + |digits| ensures name[k] == digits[k - |stem| - 1] && IsDigit(name[k]) {
    }
    forall k | 0 <= k < |name| ensures name[k] != '/' {
      if k < |stem| {
        assert name[k] == stem[k];
      }
    }
    LastAt(name, '-', |stem|);
    assert name[|name| - 4..] == ".txt";
  }

  // ---------------------------------------------------------------------------
  // Selecting a shard's files (selectFilesForShard)
  // ---------------------------------------------------------------------------

  /** Go's `%` on `int`: the remainder of division truncated toward zero,
      which takes the sign of the dividend and ignores the divisor's. */
  function GoRem(a: int, b: int): (r: int)
    requires b != 0
    ensures a >= 0 ==> r == a % b && 0 <= r < (if b < 0 then -b else b)
    ensures a < 0 ==> r == -((-a) % b) && -(if b < 0 then -b else b) < r <= 0
  {
    var m := if b < 0 then -b else b;
    RemOfNegative(a, b);
    RemOfNegative(-a, b);
    if a >= 0 then a % m else -((-a) % m)
  }

  /** Dafny's Euclidean remainder does not depend on the divisor's sign. */
  lemma RemOfNegative(a: int, b: int)
    requires b != 0
    ensures a % b == a % (if b < 0 then -b else b)
  {
    if b > 0 {
      return;
    }
    var m := -b;
    var q0, r0 := a / b, a % b;
    var q1, r1 := a / m, a % m;
    assert a == b * q0 + r0 && 0 <= r0 < m;
    assert a == m * q1 + r1 && 0 <= r1 < m;
    assert m * (q1 + q0) == r0 - r1;
    if q1 + q0 != 0 {
      MulAtLeast(m, q1 + q0);
    }
  }

  /** A non-zero multiple of `b` is at least `b` away from zero. */
  lemma {:induction false} MulAtLeast(b: int, d: int)
    requires b > 0 && d != 0
    ensures b * d >= b || b * d <= -b
    decreases if d < 0 then -d else d
  {
    if d > 1 {
      MulAtLeast(b, d - 1);
      assert b * d == b * (d - 1) + b;
    } else if d < -1 {
      MulAtLeast(b, d + 1);
      assert b * d == b * (d + 1) - b;
    }
  }

  /** Whether `selectFilesForShard` keeps a file for shard `shardId` of
      `numShards`. */
  predicate Selected(path: string, shardId: int, numShards: int)
    requires numShards != 0
  {
    FileIndex(path).Some? && GoRem(FileIndex(path).value, numShards) == shardId
  }

  /** Go's `selectFilesForShard`: the files whose index falls to the shard,
      in their listed order. Go divides by `numShards`, so a zero count is a
      run-time panic; the entry point never calls it with one. */
  function SelectFilesForShard(files: seq<string>, shardId: int, numShards: int): (r: seq<string>)
    requires numShards != 0
    ensures |r| <= |files|
    ensures forall f :: f in r <==> f in files && Selected(f, shardId, numShards)
  {
    Filter(files, f => Selected(f, shardId, numShards))
  }

  /** The selection is the subsequence of the selected files: they sit at
      increasing positions of the listing, and every selected position is
      kept. */
  lemma SelectionKeepsOrder(files: seq<string>, shardId: int, numShards: int) returns (at: seq<nat>)
    requires numShards != 0
    ensures var r := SelectFilesForShard(files, shardId, numShards);
      && |at| == |r|
      && (forall k :: 0 <= k < |at| ==> at[k] < |files| && r[k] == files[at[k]])
      && (forall k, l :: 0 <= k < l < |at| ==> at[k] < at[l])
      && (forall j :: 0 <= j < |files| && Selected(files[j], shardId, numShards) ==> j in at)
  {
    at := FilterKeepsOrder(files, f => Selected(f, shardId, numShards));
  }

  /** Every well-formed file belongs to exactly one shard: the one its index
      names modulo the shard count. */
  lemma ExactlyOneShard(path: string, numShards: int)
    requires numShards > 0 && FileIndex(path).Some?
    ensures var home := FileIndex(path).value % numShards;
      && 0 <= home < numShards
      && forall shardId :: Selected(path, shardId, numShards) <==> shardId == home
  {
  }

  /** A malformed name is selected by no shard, whatever the listing. */
  lemma MalformedNeverSelected(files: seq<string>, path: string, shardId: int, numShards: int)
    requires numShards != 0
    requires '-' !in Base(path) || !HasSuffix(Base(path), ".txt")
    ensures path !in SelectFilesForShard(files, shardId, numShards)
  {
  }

  /** The shards split a listing: each well-formed file goes to exactly one
      of them, and a malformed one to none. */
  lemma ShardsPartitionTheListing(files: seq<string>, path: string, numShards: int)
    requires numShards > 0 && path in files
    ensures FileIndex(path).Some? ==>
      forall shardId :: 0 <= shardId < numShards ==>
        (path in SelectFilesForShard(files, shardId, numShards) <==> shardId == FileIndex(path).value % numShards)
    ensures FileIndex(path).None? ==>
      forall shardId :: path !in SelectFilesForShard(files, shardId, numShards)
  {
    if FileIndex(path).Some? {
      ExactlyOneShard(path, numShards);
    }
  }

  // ---------------------------------------------------------------------------
  // Resolving the shard and checking the flags (parseFlags)
  // ---------------------------------------------------------------------------

  /** The flags the entry point reads. */
  datatype Flags = Flags(
    indexDir: string,
    indexFiles: string,
    shardName: string,
    shardId: int,
    numShards: int,
    partitioned: bool,
    useMemory: bool)

  /** The values `parseFlags` returns. */
  datatype Config = Config(
    indexDir: string,
    indexFiles: string,
    shardId: int,
    numShards: int,
    partitioned: bool,
    useMemory: bool)

  /** Why the entry point stops (`log.Fatal`). */
  datatype StartError =
    | BothSources
    | NoSource
    | ShardNameWithoutDash
    | ShardNameWithoutNumber
    | PartitionedWithoutShard
    | CannotListDirectory
    | NoIndexFiles

  /** The shard id: an explicit non-negative `-shard_id` wins; otherwise a
      non-empty `-shard_name` gives the integer after its last dash; otherwise
      the explicit value stands, negative or not. */
  function ResolveShardId(shardId: int, shardName: string): (r: Outcome<int, StartError>)
    ensures shardId >= 0 || shardName == "" ==> r == Ok(shardId)
    ensures shardId < 0 && shardName != "" && '-' !in shardName ==> r == Err(ShardNameWithoutDash)
    ensures shardId < 0 && shardName != "" && '-' in shardName ==>
      r == (if Atoi(AfterLast(shardName, '-')).Some? then Ok(Atoi(AfterLast(shardName, '-')).value) else Err(ShardNameWithoutNumber))
  {
    if shardId < 0 && shardName != "" then
      var parts := Split(shardName, '-');
      LastPiece(shardName, '-');
      IdFromParts(parts)
    else
      Ok(shardId)
  }

  /** The id the pieces of a shard name give: an error without a dash, the
      last piece as an integer otherwise. */
  function IdFromParts(parts: seq<string>): (r: Outcome<int, StartError>)
    requires |parts| >= 1
    ensures |parts| < 2 <==> r == Err(ShardNameWithoutDash)
    ensures |parts| >= 2 ==> r == (if Atoi(parts[|parts| - 1]).Some? then Ok(Atoi(parts[|parts| - 1]).value) else Err(ShardNameWithoutNumber))
  {
    if |parts| < 2 then Err(ShardNameWithoutDash)
    else
      match Atoi(parts[|parts| - 1])
      case None => Err(ShardNameWithoutNumber)
      case Some(id) => Ok(id)
  }

  /** The last piece of a split is the text after the last separator, and
      there are two pieces or more exactly when the separator occurs. */
  lemma LastPiece(s: string, sep: char)
    ensures LastPieceFacts(s, Split(s, sep), sep)
  {
    JoinSplit(s, sep);
    SplitPiecesLack(s, sep);
    LastPart(s, Split(s, sep), sep);
  }

  /** The separator occurs exactly when there are two parts or more, and the
      text after the last one is the last part. */
  predicate LastPieceFacts(s: string, parts: seq<string>, sep: char) {
    && |parts| >= 1
    && (|parts| >= 2 <==> sep in s)
    && parts[|parts| - 1] == s[LastIndexOf(s, sep) + 1..]
  }

  /** In a text joined from parts that hold no separator, the separator
      occurs exactly when there are two parts or more, and the text after the
      last one is the last part. */
  lemma LastPart(s: string, parts: seq<string>, sep: char)
    requires |parts| >= 1 && Join(parts, [sep]) == s && NoneHold(parts, sep)
    ensures LastPieceFacts(s, parts, sep)
  {
    if |parts| == 1 {
      JoinOfOne(s, parts, sep);
    } else {
      JoinOfMany(s, parts, sep);
    }
  }

  /** A text joined from one part without the separator holds none, and its
      last separator is "before the start". */
  lemma JoinOfOne(s: string, parts: seq<string>, sep: char)
    requires |parts| == 1 && Join(parts, [sep]) == s && NoneHold(parts, sep)
    ensures sep !in s && s[LastIndexOf(s, sep) + 1..] == parts[0]
  {
    assert s == parts[0];
    LastAt(s, sep, -1);
  }

  /** In a text joined from two parts or more, the text after the last
      separator is the last part, when that part holds no separator. */
  lemma JoinOfMany(s: string, parts: seq<string>, sep: char)
    requires |parts| >= 2 && Join(parts, [sep]) == s && NoneHold(parts, sep)
    ensures sep in s && s[LastIndexOf(s, sep) + 1..] == parts[|parts| - 1]
  {
    var last := parts[|parts| - 1];
    var front := Join(parts[..|parts| - 1], [sep]);
    JoinLast(parts, [sep]);
    var i := |front|;
    assert s[i] == sep;
    forall k | i < k < |s| ensures s[k] != sep {
      assert s[k] == last[k - i - 1];
    }
    LastAt(s, sep, i);
    assert s[i + 1..] == last;
  }

  /** A shard id taken from a name is never negative: nothing after the last
      dash can carry a minus sign. */
  lemma NamedShardIsNonNegative(shardId: int, shardName: string)
    requires shardId < 0 && shardName != ""
    requires ResolveShardId(shardId, shardName).Ok?
    ensures ResolveShardId(shardId, shardName).value >= 0
  {
    var i := LastIndexOf(shardName, '-');
    var suffix := shardName[i + 1..];
    forall k | 0 <= k < |suffix| ensures suffix[k] != '-' {
      assert suffix[k] == shardName[i + 1 + k];
    }
  }

  /** Go's `parseFlags` after `flag.Parse`: exactly one file source, the
      shard id resolved, and partitioned mode only with a non-negative shard
      id and a positive shard count. */
  function ParseFlags(f: Flags): (r: Outcome<Config, StartError>)
    ensures f.indexDir != "" && f.indexFiles != "" ==> r == Err(BothSources)
    ensures f.indexDir == "" && f.indexFiles == "" ==> r == Err(NoSource)
    ensures r.Ok? ==> (r.value.indexDir == "") != (r.value.indexFiles == "")
    ensures r.Ok? ==> Ok(r.value.shardId) == ResolveShardId(f.shardId, f.shardName)
    ensures r.Ok? && r.value.partitioned ==> r.value.shardId >= 0 && r.value.numShards > 0
    ensures r.Ok? ==> r.value == Config(f.indexDir, f.indexFiles, r.value.shardId, f.numShards, f.partitioned, f.useMemory)
    ensures (f.indexDir == "") != (f.indexFiles == "") && ResolveShardId(f.shardId, f.shardName).Err? ==>
      r == Err(ResolveShardId(f.shardId, f.shardName).error)
    ensures (f.indexDir == "") != (f.indexFiles == "") && ResolveShardId(f.shardId, f.shardName).Ok? ==>
      (r.Ok? <==> (f.partitioned ==> ResolveShardId(f.shardId, f.shardName).value >= 0 && f.numShards > 0))
    ensures r.Err? && ResolveShardId(f.shardId, f.shardName).Ok? && (f.indexDir == "") != (f.indexFiles == "") ==>
      r == Err(PartitionedWithoutShard)
  {
    if f.indexDir != "" && f.indexFiles != "" then Err(BothSources)
    else if f.indexDir == "" && f.indexFiles == "" then Err(NoSource)
    else
      match ResolveShardId(f.shardId, f.shardName)
      case Err(e) => Err(e)
      case Ok(id) =>
        if f.partitioned && (id < 0 || f.numShards <= 0) then Err(PartitionedWithoutShard)
        else Ok(Config(f.indexDir, f.indexFiles, id, f.numShards, f.partitioned, f.useMemory))
  }

  /** Partitioned mode is refused exactly when the resolved shard cannot
      select files. */
  lemma PartitionedGuard(f: Flags)
    requires f.partitioned && (f.indexDir == "") != (f.indexFiles == "")
    requires ResolveShardId(f.shardId, f.shardName).Ok?
    ensures var id := ResolveShardId(f.shardId, f.shardName).value;
      ParseFlags(f).Ok? <==> id >= 0 && f.numShards > 0
  {
  }

  // ---------------------------------------------------------------------------
  // The files to load (main)
  // ---------------------------------------------------------------------------

  /** The files `main` hands to the index: the comma-separated
      `-index_files` as given, or the directory listing (`None` when it
      cannot be read), cut to the shard's files in partitioned mode; an empty
      choice stops the server. */
  function FilesToLoad(cfg: Config, listing: Option<seq<string>>): (r: Outcome<seq<string>, StartError>)
    requires cfg.partitioned ==> cfg.numShards > 0
    ensures r.Ok? ==> |r.value| > 0
    ensures cfg.indexFiles != "" ==> r == Ok(Split(cfg.indexFiles, ','))
    ensures cfg.indexFiles == "" && listing.None? ==> r == Err(CannotListDirectory)
    ensures cfg.indexFiles == "" && listing.Some? && r.Ok? ==>
      forall f :: f in r.value <==> f in listing.value && (cfg.partitioned ==> Selected(f, cfg.shardId, cfg.numShards))
    ensures cfg.indexFiles == "" && listing.Some? ==>
      (r.Ok? <==> exists f :: f in listing.value && (cfg.partitioned ==> Selected(f, cfg.shardId, cfg.numShards)))
    ensures cfg.indexFiles == "" && listing.Some? && r.Err? ==> r == Err(NoIndexFiles)
    ensures cfg.indexFiles == "" && listing.Some? && r.Ok? && !cfg.partitioned ==> r.value == listing.value
  {
    if cfg.indexFiles != "" then
      Ok(Split(cfg.indexFiles, ','))
    else if listing.None? then
      Err(CannotListDirectory)
    else
      var files := if cfg.partitioned then SelectFilesForShard(listing.value, cfg.shardId, cfg.numShards) else listing.value;
      if |files| == 0 then Err(NoIndexFiles)
      else
        assert files[0] in files;
        Ok(files)
  }

  /** Every accepted configuration can choose its files: the guard of
      `parseFlags` is what keeps the modulo of the selection defined. */
  lemma AcceptedFlagsSelect(f: Flags, listing: Option<seq<string>>)
    requires ParseFlags(f).Ok?
    ensures var cfg := ParseFlags(f).value;
      cfg.partitioned ==> cfg.numShards > 0 && cfg.shardId >= 0
  {
  }

  /** In partitioned mode the shards of one listing load disjoint sets of
      files, and together every well-formed file of the listing. */
  lemma ShardsLoadDisjointFiles(cfg: Config, other: Config, listing: seq<string>, path: string)
    requires cfg.partitioned && other.partitioned && cfg.indexFiles == "" && other.indexFiles == ""
    requires cfg.numShards > 0 && cfg.numShards == other.numShards && cfg.shardId != other.shardId
    ensures !(FilesToLoad(cfg, Some(listing)).Ok? && path in FilesToLoad(cfg, Some(listing)).value
      && FilesToLoad(other, Some(listing)).Ok? && path in FilesToLoad(other, Some(listing)).value)
  {
    if path in listing && FileIndex(path).Some? {
      ExactlyOneShard(path, cfg.numShards);
    }
  }
}

=== FILE: inverted_index.dfy ===
/** The searchable inverted index: its two search paths (scanning the files
    on every query, or loading them once and looking keywords up), the lazy
    load, and the top-K search. */
module InvertedIndex {
  import opened Wrappers
  import opened Collections
  import opened IndexMerge
  import opened DocMatches
  import Ranking

  /** Go's `InvertedIndex`: the index files and the in-memory map, `None`
      standing for the nil map of an index not loaded yet. */
  datatype InvertedIndex = InvertedIndex(indexFiles: seq<IndexFile>, data: Option<Index>)

  /** Go's `NewInvertedIndex`: nothing is loaded yet. */
  function NewInvertedIndex(files: seq<IndexFile>): (r: InvertedIndex)
    ensures r.indexFiles == files && r.data == None
  {
    InvertedIndex(files, None)
  }

  /** Go's `ensureIndexIsLoaded`. A loaded index is left alone. Otherwise
      the map is created empty and then filled file by file; a failure is
      reported, but the map keeps what was merged before it. */
  function EnsureIndexIsLoaded(idx: InvertedIndex): (r: (InvertedIndex, Option<IndexError>))
    ensures r.0.indexFiles == idx.indexFiles
    ensures r.0.data.Some?
    ensures idx.data.Some? ==> r == (idx, None)
    ensures idx.data.None? ==>
      && r.1 == FirstFailure(idx.indexFiles)
      && DocPairs(r.0.data.value) == ReadPairs(idx.indexFiles)
      && r.0.data.value.Keys == ReadWords(idx.indexFiles)
  {
    if idx.data.Some? then (idx, None)
    else
      var loaded := LoadFiles(map[], idx.indexFiles);
      LoadFilesContents(map[], idx.indexFiles);
      (idx.(data := Some(loaded.0)), loaded.1)
  }

  /** The keyword map both search paths must build from a set of
      (word, document) pairs. */
  ghost function Expected(pairs: set<(string, string)>, keywords: seq<string>): DocMatches {
    MatchesOf(Restrict(pairs, keywords))
  }

  /** Go's `SearchScanFiles`: reads every file on each call and fails at the
      first file that cannot be opened or read, returning no results. */
  function SearchScanFiles(idx: InvertedIndex, keywords: seq<string>): (r: Outcome<seq<Ranking.Result>, IndexError>)
    ensures FirstFailure(idx.indexFiles).Some? ==> r == Err(FirstFailure(idx.indexFiles).value)
    ensures FirstFailure(idx.indexFiles).None? ==>
      r == Ok(RankDocMatches(Expected(ReadPairs(idx.indexFiles), keywords)))
  {
    var scanned := ScanFiles(map[], idx.indexFiles, keywords);
    if scanned.1.Some? then
      Err(scanned.1.value)
    else
      PairsDetermine(scanned.0, Expected(ReadPairs(idx.indexFiles), keywords));
      Ok(RankDocMatches(scanned.0))
  }

  /** Go's `SearchInMemory`: loads the index if needed (reporting a failed
      load), then looks the keywords up in the map. */
  function SearchInMemory(idx: InvertedIndex, keywords: seq<string>): (r: (InvertedIndex, Outcome<seq<Ranking.Result>, IndexError>))
    ensures r.0 == EnsureIndexIsLoaded(idx).0
    ensures EnsureIndexIsLoaded(idx).1.Some? ==> r.1 == Err(EnsureIndexIsLoaded(idx).1.value)
    ensures EnsureIndexIsLoaded(idx).1.None? ==>
      r.1 == Ok(RankDocMatches(Expected(DocPairs(r.0.data.value), keywords)))
  {
    var loaded := EnsureIndexIsLoaded(idx);
    if loaded.1.Some? then
      (loaded.0, Err(loaded.1.value))
    else
      (loaded.0, Ok(RankDocMatches(CollectDocMatches(loaded.0.data.value, keywords))))
  }

  /** The intended `SearchInMemoryTopK` (the Go function is a stub that
      always fails): the in-memory search cut to its first `k` results. */
  function SearchInMemoryTopK(idx: InvertedIndex, keywords: seq<string>, k: int): (r: (InvertedIndex, Outcome<seq<Ranking.Result>, IndexError>))
    ensures r.0 == SearchInMemory(idx, keywords).0
    ensures SearchInMemory(idx, keywords).1.Err? ==> r.1 == SearchInMemory(idx, keywords).1
    ensures SearchInMemory(idx, keywords).1.Ok? ==>
      r.1 == Ok(Ranking.TopK(SearchInMemory(idx, keywords).1.value, k))
  {
    var searched := SearchInMemory(idx, keywords);
    if searched.1.Err? then searched
    else (searched.0, Ok(Ranking.TopK(searched.1.value, k)))
  }

  // ---------------------------------------------------------------------------
  // Properties
  // ---------------------------------------------------------------------------

  /** The two search paths agree on a new index, whatever the files: the
      same failure, or the same results. */
  lemma ScanAndMemoryAgree(files: seq<IndexFile>, keywords: seq<string>)
    ensures SearchScanFiles(NewInvertedIndex(files), keywords) == SearchInMemory(NewInvertedIndex(files), keywords).1
  {
  }

  /** Once an index has loaded without failure, every later in-memory
      search answers as a scan of the files would. */
  lemma LoadedIndexAgreesWithScan(idx: InvertedIndex, keywords: seq<string>)
    requires idx.data.None? && FirstFailure(idx.indexFiles).None?
    ensures var loaded := EnsureIndexIsLoaded(idx).0;
      SearchInMemory(loaded, keywords).1 == SearchScanFiles(idx, keywords)
  {
  }

  /** The load happens at most once: loading a loaded index changes nothing
      and reports nothing, so the map never changes again. */
  lemma LoadAtMostOnce(idx: InvertedIndex, keywords: seq<string>)
    ensures var once := EnsureIndexIsLoaded(idx).0;
      && EnsureIndexIsLoaded(once) == (once, None)
      && SearchInMemory(once, keywords).0 == once
  {
  }

  /** After a failed first load the in-memory path reports the failure once
      and then answers from the files read before the failure, while a scan
      keeps failing. */
  lemma FailedLoadLeavesPartialIndex(idx: InvertedIndex, keywords: seq<string>)
    requires idx.data.None? && FirstFailure(idx.indexFiles).Some?
    ensures var first := SearchInMemory(idx, keywords);
      && first.1 == Err(FirstFailure(idx.indexFiles).value)
      && SearchInMemory(first.0, keywords).1 == Ok(RankDocMatches(Expected(ReadPairs(idx.indexFiles), keywords)))
      && SearchScanFiles(first.0, keywords).Err?
  {
  }

  /** Only which keywords are asked for matters, not their order or
      repetition. */
  lemma KeywordsActAsASet(idx: InvertedIndex, keywords: seq<string>, others: seq<string>)
    requires Elements(keywords) == Elements(others)
    ensures SearchScanFiles(idx, keywords) == SearchScanFiles(idx, others)
    ensures SearchInMemory(idx, keywords) == SearchInMemory(idx, others)
  {
    assert forall pairs :: Restrict(pairs, keywords) == Restrict(pairs, others);
  }
}

=== FILE: numbers.dfy ===
/** Decimal integers as the Go code reads and writes them: `fmt.Sscanf("%d")`
    on a digit run, `strconv.Atoi`, and `%d` formatting. Go's `int` is taken
    to be 64 bits wide; a value outside its range is a parse failure. */
module Numbers {
  import opened Wrappers
  import opened Text

  const MaxInt: int := 0x7FFF_FFFF_FFFF_FFFF
  const MinInt: int := -0x8000_0000_0000_0000

  /** A non-empty run of ASCII digits, the RE2 pattern `\d+`. */
  predicate IsDigits(s: string) {
    |s| > 0 && forall i :: 0 <= i < |s| ==> IsDigit(s[i])
  }

  function DigitValue(c: char): nat
    requires IsDigit(c)
  {
    c as int - '0' as int
  }

  function DigitChar(d: nat): (c: char)
    requires d < 10
    ensures IsDigit(c) && DigitValue(c) == d
  {
    ('0' as int + d) as char
  }

  /** The decimal value of a digit string; leading zeros are allowed. */
  function DigitsValue(s: string): nat
    requires forall i :: 0 <= i < |s| ==> IsDigit(s[i])
  {
    if s == [] then 0 else 10 * DigitsValue(s[..|s| - 1]) + DigitValue(s[|s| - 1])
  }

  /** `%d` formatting of a non-negative number: a digit string without
      leading zeros that reads back as `n`. */
  function Decimal(n: nat): (s: string)
    ensures IsDigits(s)
    ensures DigitsValue(s) == n
    ensures s[0] == '0' ==> n == 0
  {
    if n < 10 then
      [DigitChar(n)]
    else
      var prefix := Decimal(n / 10);
      var s := prefix + [DigitChar(n % 10)];
      assert s[..|s| - 1] == prefix;
      s
  }

  /** `fmt.Sscanf(token, "%d", &count)` on a token matched by `\d+`: the
      value when it fits in an `int`, otherwise a failure. */
  function ScanInt(token: string): (r: Option<int>)
    requires IsDigits(token)
    ensures r.Some? <==> DigitsValue(token) <= MaxInt
    ensures r.Some? ==> r.value == DigitsValue(token) && 0 <= r.value
  {
    var v := DigitsValue(token);
    if v <= MaxInt then Some(v) else None
  }

  /** The value of a sign and a magnitude. */
  function Signed(sign: char, v: nat): int {
    if sign == '-' then -(v as int) else v
  }

  /** `strconv.Atoi`: an optional sign followed by digits, within the range
      of `int`. Underscores, spaces and base prefixes are rejected; leading
      zeros are not. An unsigned text is accepted exactly when it is a digit
      run whose value fits, and a signed one exactly when its digits' signed
      value fits; the value is then that of the digits. */
  function Atoi(s: string): (r: Option<int>)
    ensures r.Some? ==> MinInt <= r.value <= MaxInt
    ensures r.Some? ==> |s| > 0 && IsDigits(if s[0] == '+' || s[0] == '-' then s[1..] else s)
    ensures r.Some? && '-' !in s ==> r.value >= 0
    ensures s == "" ==> r.None?
    ensures |s| > 0 && s[0] != '+' && s[0] != '-' ==>
      (r.Some? <==> IsDigits(s) && DigitsValue(s) <= MaxInt)
    ensures |s| > 0 && s[0] != '+' && s[0] != '-' && r.Some? ==>
      IsDigits(s) && r.value == DigitsValue(s)
    ensures |s| > 0 && (s[0] == '+' || s[0] == '-') ==>
      (r.Some? <==> IsDigits(s[1..]) && MinInt <= Signed(s[0], DigitsValue(s[1..])) <= MaxInt)
    ensures |s| > 0 && (s[0] == '+' || s[0] == '-') && r.Some? ==>
      IsDigits(s[1..]) && r.value == Signed(s[0], DigitsValue(s[1..]))
  {
    if |s| > 0 && (s[0] == '+' || s[0] == '-') then
      var digits := s[1..];
      if !IsDigits(digits) then None
      else
        var v: int := if s[0] == '-' then -(DigitsValue(digits) as int) else DigitsValue(digits);
        if MinInt <= v <= MaxInt then Some(v) else None
    else if IsDigits(s) && DigitsValue(s) <= MaxInt then
      Some(DigitsValue(s))
    else
      None
  }

  /** `n` written with `z` leading zeros. */
  function Zeros(z: nat): (s: string)
    ensures |s| == z && forall i :: 0 <= i < z ==> s[i] == '0'
  {
    if z == 0 then [] else Zeros(z - 1) + ['0']
  }

  lemma {:induction false} ZerosValue(z: nat)
    ensures forall i :: 0 <= i < |Zeros(z)| ==> IsDigit(Zeros(z)[i])
    ensures DigitsValue(Zeros(z)) == 0
  {
    if z > 0 {
      var s := Zeros(z);
      ZerosValue(z - 1);
      assert s[..z - 1] == Zeros(z - 1);
      assert DigitValue(s[z - 1]) == 0;
      assert DigitsValue(s) == 10 * DigitsValue(Zeros(z - 1)) + DigitValue(s[z - 1]);
    }
  }

  /** Leading zeros do not change the value of a digit string. */
  lemma {:induction false} LeadingZerosValue(z: nat, d: string)
    requires forall i :: 0 <= i < |d| ==> IsDigit(d[i])
    ensures forall i :: 0 <= i < |Zeros(z) + d| ==> IsDigit((Zeros(z) + d)[i])
    ensures DigitsValue(Zeros(z) + d) == DigitsValue(d)
    decreases |d|
  {
    ZerosValue(z);
    if d == [] {
      assert Zeros(z) + d == Zeros(z);
    } else {
      var init := d[..|d| - 1];
      LeadingZerosValue(z, init);
      assert (Zeros(z) + d)[..|Zeros(z) + d| - 1] == Zeros(z) + init;
    }
  }

  /** `Atoi` reads a number padded with leading zeros, and with an explicit
      sign, as the number: the file names `x-007.txt` and `x-+7.txt` both
      carry 7. */
  lemma AtoiOfPaddedDecimal(z: nat, n: nat)
    requires n <= MaxInt
    ensures Atoi(Zeros(z) + Decimal(n)) == Some(n)
    ensures Atoi("+" + Zeros(z) + Decimal(n)) == Some(n)
    ensures Atoi("-" + Zeros(z) + Decimal(n)) == Some(-(n as int))
  {
    PaddedDigits(z, n);
    AtoiUnsigned(Zeros(z) + Decimal(n));
    AtoiSignedPadded('+', z, n);
    AtoiSignedPadded('-', z, n);
  }

  lemma PaddedDigits(z: nat, n: nat)
    ensures IsDigits(Zeros(z) + Decimal(n)) && DigitsValue(Zeros(z) + Decimal(n)) == n
  {
    LeadingZerosValue(z, Decimal(n));
  }

  lemma AtoiSignedPadded(sign: char, z: nat, n: nat)
    requires sign == '+' || sign == '-'
    requires n <= MaxInt
    ensures Atoi([sign] + Zeros(z) + Decimal(n)) == Some(Signed(sign, n))
  {
    PaddedDigits(z, n);
    SignedConcat(sign, Zeros(z), Decimal(n));
    AtoiSigned(sign, [sign] + Zeros(z) + Decimal(n), Zeros(z) + Decimal(n));
  }

  lemma SignedConcat(sign: char, a: string, b: string)
    ensures [sign] + a + b == [sign] + (a + b)
  {
  }

  lemma AtoiUnsigned(t: string)
    requires IsDigits(t) && DigitsValue(t) <= MaxInt
    ensures Atoi(t) == Some(DigitsValue(t))
  {
    assert t[0] != '+' && t[0] != '-' by { assert IsDigit(t[0]); }
  }

  lemma AtoiSigned(sign: char, s: string, t: string)
    requires sign == '+' || sign == '-'
    requires s == [sign] + t
    requires IsDigits(t) && DigitsValue(t) <= MaxInt
    ensures Atoi(s) == Some(Signed(sign, DigitsValue(t)))
  {
    assert s[1..] == t;
  }

  /** Reading back a formatted number gives the number. */
  lemma AtoiOfDecimal(n: nat)
    requires n <= MaxInt
    ensures Atoi(Decimal(n)) == Some(n)
  {
    var s := Decimal(n);
    assert s[0] != '+' && s[0] != '-' by { assert IsDigit(s[0]); }
  }
}

=== FILE: ordering.dfy ===
/** Go's string ordering, sortedness, and the sorting used to rank results. */
module Ordering {
  import opened Collections

  /** Go's `a < b` on strings: lexicographic by character, a proper prefix
      coming first. */
  predicate Less(a: string, b: string)
    decreases |a|
  {
    if |a| == 0 then |b| > 0
    else if |b| == 0 then false
    else if a[0] != b[0] then a[0] < b[0]
    else Less(a[1..], b[1..])
  }

  predicate LessEq(a: string, b: string) {
    a == b || Less(a, b)
  }

  lemma {:induction false} LessIrreflexive(a: string)
    ensures !Less(a, a)
  {
    if |a| > 0 {
      LessIrreflexive(a[1..]);
    }
  }

  lemma {:induction false} LessTransitive(a: string, b: string, c: string)
    requires Less(a, b) && Less(b, c)
    ensures Less(a, c)
    decreases |a|
  {
    if |a| > 0 && |b| > 0 && |c| > 0 && a[0] == b[0] && b[0] == c[0] {
      LessTransitive(a[1..], b[1..], c[1..]);
    }
  }

  lemma {:induction false} LessTrichotomy(a: string, b: string)
    ensures a == b || Less(a, b) || Less(b, a)
    ensures !(Less(a, b) && Less(b, a))
    decreases |a|
  {
    if |a| > 0 && |b| > 0 && a[0] == b[0] {
      LessTrichotomy(a[1..], b[1..]);
      assert a == [a[0]] + a[1..] && b == [b[0]] + b[1..];
    }
  }

  /** `LessEq` is a total order on strings. */
  lemma LessEqTotalOrder()
    ensures forall a, b :: LessEq(a, b) || LessEq(b, a)
    ensures forall a, b :: LessEq(a, b) && LessEq(b, a) ==> a == b
    ensures forall a, b, c :: LessEq(a, b) && LessEq(b, c) ==> LessEq(a, c)
  {
    forall a, b ensures LessEq(a, b) || LessEq(b, a) {
      LessTrichotomy(a, b);
    }
    forall a, b | LessEq(a, b) && LessEq(b, a) ensures a == b {
      LessTrichotomy(a, b);
    }
    forall a, b, c | LessEq(a, b) && LessEq(b, c) ensures LessEq(a, c) {
      if a != b && b != c {
        LessTransitive(a, b, c);
      }
    }
  }

  /** Ascending without repetitions. */
  ghost predicate StrictlyAscending(s: seq<string>) {
    forall i, j :: 0 <= i < j < |s| ==> Less(s[i], s[j])
  }

  /** `m` is the least element of `s`. */
  predicate IsLeast(m: string, s: set<string>) {
    m in s && forall y | y in s :: LessEq(m, y)
  }

  /** Every non-empty set of strings has a least element. */
  lemma {:induction false} MinimumExists(s: set<string>)
    requires s != {}
    ensures exists m :: IsLeast(m, s)
  {
    var x :| x in s;
    if s == {x} {
      assert IsLeast(x, s);
    } else {
      var rest := s - {x};
      MinimumExists(rest);
      var m :| IsLeast(m, rest);
      assert s == rest + {x};
      LeastOfOneMore(x, m, rest);
    }
  }

  /** Adding `x` to a set whose least element is `m` makes the smaller of
      the two the least element. */
  lemma LeastOfOneMore(x: string, m: string, rest: set<string>)
    requires IsLeast(m, rest)
    ensures IsLeast(if Less(x, m) then x else m, rest + {x})
  {
    LessTrichotomy(m, x);
    if Less(x, m) {
      forall y | y in rest ensures LessEq(x, y) {
        if y != m {
          LessTransitive(x, m, y);
        }
      }
    }
  }

  /** The elements of a set of strings in ascending order, as Go obtains them
      by collecting a map's keys and calling `sort.Strings`. */
  function SortedElements(s: set<string>): (r: seq<string>)
    ensures |r| == |s|
    ensures forall x :: x in r <==> x in s
    ensures StrictlyAscending(r)
    decreases |s|
  {
    if s == {} then []
    else
      MinimumExists(s);
      MinimumUnique(s);
      var m :| IsLeast(m, s);
      var rest := SortedElements(s - {m});
      MinimumFirst(s, m, rest);
      [m] + rest
  }

  /** A set has at most one least element. */
  lemma MinimumUnique(s: set<string>)
    ensures forall m, n :: IsLeast(m, s) && IsLeast(n, s) ==> m == n
  {
    forall m, n | IsLeast(m, s) && IsLeast(n, s) ensures m == n {
      assert LessEq(m, n) && LessEq(n, m);
      LessTrichotomy(m, n);
    }
  }

  /** The least element in front of the others in ascending order gives all
      of them in ascending order. */
  lemma MinimumFirst(s: set<string>, m: string, rest: seq<string>)
    requires IsLeast(m, s)
    requires |rest| == |s - {m}| && (forall x :: x in rest <==> x in s - {m})
    requires StrictlyAscending(rest)
    ensures |[m] + rest| == |s|
    ensures forall x :: x in [m] + rest <==> x in s
    ensures StrictlyAscending([m] + rest)
  {
    forall j | 0 <= j < |rest| ensures Less(m, rest[j]) {
      assert rest[j] in s - {m};
    }
    var r := [m] + rest;
    forall i, j | 0 <= i < j < |r| ensures Less(r[i], r[j]) {
      assert r[j] == rest[j - 1];
      if i > 0 {
        assert r[i] == rest[i - 1];
      }
    }
  }

  /** The values of a map with string keys, visited in ascending key order:
      each value occurs as often as there are keys holding it. */
  function ValuesInKeyOrder<V(!new)>(m: map<string, V>): (r: seq<V>)
    ensures |r| == |m|
    ensures forall v :: multiset(r)[v] == |KeysWith(m, m.Keys, v)|
  {
    var keys := SortedElements(m.Keys);
    assert Distinct(keys) by {
      StrictlyAscendingDistinct(keys);
    }
    assert Elements(keys) == m.Keys;
    var r := ValuesAt(m, keys);
    assert forall v :: multiset(r)[v] == |KeysWith(m, m.Keys, v)| by {
      forall v ensures multiset(r)[v] == |KeysWith(m, m.Keys, v)| {
        ValuesAtCount(m, keys, v);
      }
    }
    r
  }

  lemma StrictlyAscendingDistinct(s: seq<string>)
    requires StrictlyAscending(s)
    ensures Distinct(s)
  {
    forall i, j | 0 <= i < j < |s| ensures s[i] != s[j] {
      LessIrreflexive(s[i]);
    }
  }

  // ---------------------------------------------------------------------------
  // Sorting by a total preorder
  // ---------------------------------------------------------------------------

  ghost predicate TotalPreorder<T(!new)>(leq: (T, T) -> bool) {
    && (forall x, y :: leq(x, y) || leq(y, x))
    && (forall x, y, z :: leq(x, y) && leq(y, z) ==> leq(x, z))
  }

  ghost predicate SortedBy<T>(leq: (T, T) -> bool, s: seq<T>) {
    forall i, j :: 0 <= i < j < |s| ==> leq(s[i], s[j])
  }

  /** Inserts `x` in front of the first element it does not come after, so
      that `x` stays ahead of the elements it ties with. */
  function InsertBy<T(!new)>(leq: (T, T) -> bool, x: T, s: seq<T>): (r: seq<T>)
    requires TotalPreorder(leq)
    ensures multiset(r) == multiset(s) + multiset{x}
    ensures SortedBy(leq, s) ==> SortedBy(leq, r)
  {
    if s == [] || leq(x, s[0]) then
      [x] + s
    else
      var tail := InsertBy(leq, x, s[1..]);
      InsertBehind(leq, x, s, tail);
      [s[0]] + tail
  }

  /** Putting the head back in front of `x` inserted into the rest keeps the
      elements and the order. */
  lemma InsertBehind<T(!new)>(leq: (T, T) -> bool, x: T, s: seq<T>, tail: seq<T>)
    requires TotalPreorder(leq)
    requires s != [] && !leq(x, s[0])
    requires multiset(tail) == multiset(s[1..]) + multiset{x}
    requires SortedBy(leq, s[1..]) ==> SortedBy(leq, tail)
    ensures multiset([s[0]] + tail) == multiset(s) + multiset{x}
    ensures SortedBy(leq, s) ==> SortedBy(leq, [s[0]] + tail)
  {
    assert s == [s[0]] + s[1..];
    if SortedBy(leq, s) {
      assert SortedBy(leq, s[1..]);
      forall k | 0 <= k < |tail| ensures leq(s[0], tail[k]) {
        assert tail[k] in multiset(tail);
        if tail[k] != x {
          assert tail[k] in multiset(s[1..]);
          var j :| 0 <= j < |s[1..]| && s[1..][j] == tail[k];
          assert s[j + 1] == tail[k];
        }
      }
      var r := [s[0]] + tail;
      forall i, j | 0 <= i < j < |r| ensures leq(r[i], r[j]) {
        assert r[j] == tail[j - 1];
        if i > 0 {
          assert r[i] == tail[i - 1];
        }
      }
    }
  }

  /** The elements that tie with `x`: each comes no later than the other. */
  function Ties<T>(leq: (T, T) -> bool, x: T): (T -> bool) {
    y => leq(x, y) && leq(y, x)
  }

  /** A stable insertion sort: a permutation of `s` ordered by `leq`, equal
      elements keeping their input order (the elements tying with any `x`
      come out in the order they went in). */
  function SortBy<T(==, !new)>(leq: (T, T) -> bool, s: seq<T>): (r: seq<T>)
    requires TotalPreorder(leq)
    ensures multiset(r) == multiset(s)
    ensures SortedBy(leq, r)
    ensures forall x :: Filter(r, Ties(leq, x)) == Filter(s, Ties(leq, x))
  {
    if s == [] then []
    else
      assert s == [s[0]] + s[1..];
      var sorted := SortBy(leq, s[1..]);
      var r := InsertBy(leq, s[0], sorted);
      forall x ensures Filter(r, Ties(leq, x)) == Filter(s, Ties(leq, x)) {
        InsertByKeepsTies(leq, s[0], sorted, x);
        FilterCons(s[0], sorted, Ties(leq, x));
        FilterCons(s[0], s[1..], Ties(leq, x));
      }
      r
  }

  /** Inserting `x` only passes elements that do not tie with it, so the
      elements tying with any `y` keep their order, `x` first among them. */
  lemma {:induction false} InsertByKeepsTies<T(!new)>(leq: (T, T) -> bool, x: T, s: seq<T>, y: T)
    requires TotalPreorder(leq)
    ensures Filter(InsertBy(leq, x, s), Ties(leq, y)) == Filter([x] + s, Ties(leq, y))
    decreases |s|
  {
    if s != [] && !leq(x, s[0]) {
      var p := Ties(leq, y);
      var tail := InsertBy(leq, x, s[1..]);
      assert InsertBy(leq, x, s) == [s[0]] + tail;
      InsertByKeepsTies(leq, x, s[1..], y);
      TiesTie(leq, y, x, s[0]);
      FilterCons(s[0], tail, p);
      FilterCons(x, s[1..], p);
      FilterCons(s[0], s[1..], p);
      FilterCons(x, s, p);
      assert s == [s[0]] + s[1..];
      HeadsSwap(Filter(InsertBy(leq, x, s), p), Filter(tail, p), Filter(s[1..], p), Filter(s, p), Filter([x] + s, p),
        if p(x) then [x] else [], if p(s[0]) then [s[0]] else []);
    }
  }

  /** The step of `InsertByKeepsTies` on the filtered lists: at most one of
      the two heads is kept, so their order does not matter. */
  lemma HeadsSwap<T>(inserted: seq<T>, tail: seq<T>, rest: seq<T>, all: seq<T>, withX: seq<T>, hx: seq<T>, h0: seq<T>)
    requires inserted == h0 + tail && tail == hx + rest
    requires all == h0 + rest && withX == hx + all
    requires hx == [] || h0 == []
    ensures inserted == withX
  {
  }

  /** Two elements tying with the same `y` come no later than each other. */
  lemma TiesTie<T(!new)>(leq: (T, T) -> bool, y: T, a: T, b: T)
    requires TotalPreorder(leq)
    ensures Ties(leq, y)(a) && Ties(leq, y)(b) ==> leq(a, b)
  {
  }

  lemma FilterCons<T(!new)>(a: T, t: seq<T>, p: T -> bool)
    ensures Filter([a] + t, p) == (if p(a) then [a] else []) + Filter(t, p)
  {
    assert ([a] + t)[1..] == t;
  }

  lemma LessEqIsTotalPreorder()
    ensures TotalPreorder(LessEq)
  {
    LessEqTotalOrder();
  }

  /** A list sorted by `LessEq` without repeated elements is strictly
      ascending. */
  lemma SortedDistinctIsStrict(s: seq<string>)
    requires SortedBy(LessEq, s)
    requires forall i, j :: 0 <= i < j < |s| ==> s[i] != s[j]
    ensures StrictlyAscending(s)
  {
  }

  /** Two sorted arrangements of the same elements coincide as soon as the
      order separates every two distinct elements: how an unstable sort or a
      map's iteration order arranged them cannot show in the result. */
  lemma {:induction false} SortedPermutationUnique<T(!new)>(leq: (T, T) -> bool, a: seq<T>, b: seq<T>)
    requires multiset(a) == multiset(b)
    requires SortedBy(leq, a) && SortedBy(leq, b)
    requires forall x, y :: x in a && y in a && leq(x, y) && leq(y, x) ==> x == y
    ensures a == b
  {
    if a != [] {
      SortedHeadsAgree(leq, a, b);
      TailsPermutation(a, b);
      assert forall x :: x in a[1..] ==> x in a;
      SortedPermutationUnique(leq, a[1..], b[1..]);
    }
  }

  lemma SortedHeadsAgree<T(!new)>(leq: (T, T) -> bool, a: seq<T>, b: seq<T>)
    requires a != [] && multiset(a) == multiset(b)
    requires SortedBy(leq, a) && SortedBy(leq, b)
    requires forall x, y :: x in a && y in a && leq(x, y) && leq(y, x) ==> x == y
    ensures b != [] && a[0] == b[0]
  {
    assert a[0] in multiset(b);
    var j :| 0 <= j < |b| && b[j] == a[0];
    assert b[0] in multiset(a);
    var i :| 0 <= i < |a| && a[i] == b[0];
    if i != 0 && j != 0 {
      assert leq(a[0], a[i]) && leq(b[0], b[j]);
    }
  }

  lemma TailsPermutation<T>(a: seq<T>, b: seq<T>)
    requires a != [] && b != [] && a[0] == b[0] && multiset(a) == multiset(b)
    ensures multiset(a[1..]) == multiset(b[1..])
  {
    assert a == [a[0]] + a[1..] && b == [b[0]] + b[1..];
    calc {
      multiset(a[1..]);
      multiset(a) - multiset{a[0]};
      multiset(b) - multiset{b[0]};
      multiset(b[1..]);
    }
  }
}

=== FILE: partition_example.dfy ===
/** The partitioner's test scenario: three lines split over three partitions
    by a random source that answers 0, 1, 2, 0, 1, 2, … */
module PartitionExample {
  import opened Wrappers
  import opened Text
  import opened Numbers
  import opened IndexLine
  import opened IndexMerge
  import opened PartitionIndex

  /** The answers of the test's round-robin source after `count` calls. */
  function RoundRobin(count: nat, n: nat): (r: seq<int>)
    requires n > 0
    ensures |r| == count && ValidDraws(r, n)
  {
    seq(count, j => j % n)
  }

  /** The records of the test's input file. */
  const ExampleRecords: seq<Record> := [
    Record("apple", ["doc1", "doc2", "doc3"]),
    Record("banana", ["doc4", "doc5"]),
    Record("cherry", ["doc6"])
  ]

  /** What each partition receives. */
  const ExampleOutputs: seq<seq<Record>> := [
    [Record("apple", ["doc1"]), Record("banana", ["doc4"])],
    [Record("apple", ["doc2"]), Record("banana", ["doc5"])],
    [Record("apple", ["doc3"]), Record("cherry", ["doc6"])]
  ]

  /** A line written out piece by piece. */
  lemma FormatLineIs(keyword: string, count: nat, docs: seq<string>, digits: string, list: string, text: string)
    requires Decimal(count) == digits && Join(docs, ", ") == list
    requires text == keyword + ": " + digits + " " + list
    ensures FormatLine(keyword, count, docs) == text
  {
  }

  /** Records rendered line by line. */
  lemma RenderLinesIs(recs: seq<Record>, texts: seq<string>)
    requires |recs| == |texts|
    requires forall k :: 0 <= k < |recs| ==> FormatLine(recs[k].keyword, |recs[k].documents|, recs[k].documents) == texts[k]
    ensures RenderLines(recs) == texts
  {
    forall k | 0 <= k < |recs| ensures RenderLines(recs)[k] == texts[k] {
      RenderedLineAt(recs, k);
    }
  }

  lemma AppleText()
    ensures FormatLine("apple", 3, ["doc1", "doc2", "doc3"]) == "apple: 3 doc1, doc2, doc3"
  {
    assert Join(["doc1", "doc2", "doc3"], ", ") == "doc1, doc2, doc3";
    FormatLineIs("apple", 3, ["doc1", "doc2", "doc3"], "3", "doc1, doc2, doc3", "apple: 3 doc1, doc2, doc3");
  }

  lemma BananaText()
    ensures FormatLine("banana", 2, ["doc4", "doc5"]) == "banana: 2 doc4, doc5"
  {
    assert Join(["doc4", "doc5"], ", ") == "doc4, doc5";
    FormatLineIs("banana", 2, ["doc4", "doc5"], "2", "doc4, doc5", "banana: 2 doc4, doc5");
  }

  lemma CherryText()
    ensures FormatLine("cherry", 1, ["doc6"]) == "cherry: 1 doc6"
  {
    FormatLineIs("cherry", 1, ["doc6"], "1", "doc6", "cherry: 1 doc6");
  }

  /** The test's input file is the rendering of its records, the count of
      each line being its number of documents. */
  lemma ExampleInputText()
    ensures RenderLines(ExampleRecords) == ["apple: 3 doc1, doc2, doc3", "banana: 2 doc4, doc5", "cherry: 1 doc6"]
  {
    AppleText();
    BananaText();
    CherryText();
    RenderLinesIs(ExampleRecords, ["apple: 3 doc1, doc2, doc3", "banana: 2 doc4, doc5", "cherry: 1 doc6"]);
  }

  /** Every line of the test's input is accepted. */
  lemma ExampleLinesParse()
    ensures ParsedRecords(RenderLines(ExampleRecords)) == ExampleRecords
  {
    forall k | 0 <= k < |ExampleRecords| ensures Writable(ExampleRecords[k]) {
      var docs := ExampleRecords[k].documents;
      forall i | 0 <= i < |docs| ensures ListedName(docs[i], true) {
        assert |docs[i]| == 4 && docs[i][..3] == "doc";
      }
    }
    ReadBackRendered(ExampleRecords);
  }

  /** One step of the line loop. */
  lemma PartitionStep(outs: seq<seq<Record>>, recs: seq<Record>, n: nat, draws: seq<int>)
    requires |outs| == n && KeptCount(recs) <= |draws| && recs != []
    ensures PartitionRecords(outs, recs, n, draws)
      == PartitionRecords(EmitInto(outs, recs[0].keyword, Buckets(recs[0].documents, draws, n)), recs[1..], n, draws[|recs[0].documents|..])
  {
  }

  /** Routing a line's documents one draw at a time. */
  lemma PickedSnoc(docs: seq<string>, doc: string, draws: seq<int>, p: int)
    requires |docs| < |draws|
    ensures Picked(docs + [doc], draws, p) == Picked(docs, draws, p) + (if draws[|docs|] == p then [doc] else [])
  {
    assert (docs + [doc])[..|docs|] == docs;
  }

  lemma AppleRouting(draws: seq<int>)
    requires draws == [0, 1, 2, 0, 1, 2]
    ensures Buckets(["doc1", "doc2", "doc3"], draws, 3) == [["doc1"], ["doc2"], ["doc3"]]
  {
    forall p | 0 <= p < 3 ensures Picked(["doc1", "doc2", "doc3"], draws, p) == [["doc1", "doc2", "doc3"][p]] {
      PickedSnoc([], "doc1", draws, p);
      PickedSnoc(["doc1"], "doc2", draws, p);
      PickedSnoc(["doc1", "doc2"], "doc3", draws, p);
    }
  }

  lemma BananaRouting(draws: seq<int>)
    requires draws == [0, 1, 2]
    ensures Buckets(["doc4", "doc5"], draws, 3) == [["doc4"], ["doc5"], []]
  {
    forall p | 0 <= p < 3 ensures Picked(["doc4", "doc5"], draws, p) == [["doc4"], ["doc5"], []][p] {
      PickedSnoc([], "doc4", draws, p);
      PickedSnoc(["doc4"], "doc5", draws, p);
    }
  }

  lemma CherryRouting(draws: seq<int>)
    requires draws == [2]
    ensures Buckets(["doc6"], draws, 3) == [[], [], ["doc6"]]
  {
    forall p | 0 <= p < 3 ensures Picked(["doc6"], draws, p) == [[], [], ["doc6"]][p] {
      PickedSnoc([], "doc6", draws, p);
    }
  }

  const AfterApple: seq<seq<Record>> := [[Record("apple", ["doc1"])], [Record("apple", ["doc2"])], [Record("apple", ["doc3"])]]

  const AfterBanana: seq<seq<Record>> := ExampleOutputs[2 := [Record("apple", ["doc3"])]]

  lemma AppleStep(draws: seq<int>)
    requires draws == [0, 1, 2, 0, 1, 2]
    ensures PartitionRecords(seq(3, p => []), ExampleRecords, 3, draws) == PartitionRecords(AfterApple, ExampleRecords[1..], 3, draws[3..])
  {
    var empty: seq<seq<Record>> := seq(3, p => []);
    AppleRouting(draws);
    EmitIntoIs(empty, "apple", [["doc1"], ["doc2"], ["doc3"]], AfterApple);
    PartitionStep(empty, ExampleRecords, 3, draws);
  }

  lemma BananaStep(draws: seq<int>)
    requires draws == [0, 1, 2]
    ensures KeptCount(ExampleRecords[1..]) == 3
    ensures PartitionRecords(AfterApple, ExampleRecords[1..], 3, draws) == PartitionRecords(AfterBanana, ExampleRecords[2..], 3, draws[2..])
  {
    assert ExampleRecords[1..] == [ExampleRecords[1], ExampleRecords[2]];
    assert KeptCount([ExampleRecords[2]]) == 1;
    assert |AfterApple| == 3;
    BananaRouting(draws);
    EmitIntoIs(AfterApple, "banana", [["doc4"], ["doc5"], []], AfterBanana);
    PartitionStep(AfterApple, ExampleRecords[1..], 3, draws);
    assert ExampleRecords[1..][1..] == ExampleRecords[2..];
  }

  lemma CherryStep(draws: seq<int>)
    requires draws == [2]
    ensures PartitionRecords(AfterBanana, ExampleRecords[2..], 3, draws) == ExampleOutputs
  {
    CherryRouting(draws);
    EmitIntoIs(AfterBanana, "cherry", [[], [], ["doc6"]], ExampleOutputs);
    PartitionStep(AfterBanana, ExampleRecords[2..], 3, draws);
  }

  /** The round-robin source deals each line's documents over the
      partitions in turn. */
  lemma ExampleRouting()
    ensures PartitionRecords(seq(3, p => []), ExampleRecords, 3, RoundRobin(6, 3)) == ExampleOutputs
  {
    var draws := RoundRobin(6, 3);
    assert draws == [0, 1, 2, 0, 1, 2];
    AppleStep(draws);
    BananaStep(draws[3..]);
    assert draws[3..][2..] == draws[5..] == [2];
    CherryStep(draws[5..]);
  }

  /** One line's records appended partition by partition. */
  lemma EmitIntoIs(outs: seq<seq<Record>>, keyword: string, buckets: seq<seq<string>>, expected: seq<seq<Record>>)
    requires |outs| == |buckets| == |expected|
    requires forall p :: 0 <= p < |outs| ==> expected[p] == outs[p] + Emitted(keyword, buckets[p])
    ensures EmitInto(outs, keyword, buckets) == expected
  {
  }

  /** A partition line with one document. */
  lemma OneDocumentLine(keyword: string, doc: string, text: string)
    requires text == keyword + ": " + "1" + " " + doc
    ensures FormatLine(keyword, 1, [doc]) == text
  {
    FormatLineIs(keyword, 1, [doc], "1", doc, text);
  }

  lemma ExampleRendering()
    ensures Render(ExampleOutputs) == [
      ["apple: 1 doc1", "banana: 1 doc4"],
      ["apple: 1 doc2", "banana: 1 doc5"],
      ["apple: 1 doc3", "cherry: 1 doc6"]]
  {
    OneDocumentLine("apple", "doc1", "apple: 1 doc1");
    OneDocumentLine("apple", "doc2", "apple: 1 doc2");
    OneDocumentLine("apple", "doc3", "apple: 1 doc3");
    OneDocumentLine("banana", "doc4", "banana: 1 doc4");
    OneDocumentLine("banana", "doc5", "banana: 1 doc5");
    OneDocumentLine("cherry", "doc6", "cherry: 1 doc6");
    RenderLinesIs(ExampleOutputs[0], ["apple: 1 doc1", "banana: 1 doc4"]);
    RenderLinesIs(ExampleOutputs[1], ["apple: 1 doc2", "banana: 1 doc5"]);
    RenderLinesIs(ExampleOutputs[2], ["apple: 1 doc3", "cherry: 1 doc6"]);
  }

  /** The scenario end to end: every partition file gets lines, and they list
      the documents in the order the round-robin source dealt them. */
  lemma RoundRobinExample()
    ensures ParsedRecords(RenderLines(ExampleRecords)) == ExampleRecords
    ensures PartitionIndexFile(Readable(RenderLines(ExampleRecords), false), 3, RoundRobin(6, 3)) == Ok([
      ["apple: 1 doc1", "banana: 1 doc4"],
      ["apple: 1 doc2", "banana: 1 doc5"],
      ["apple: 1 doc3", "cherry: 1 doc6"]])
  {
    ExampleLinesParse();
    ExampleRouting();
    ExampleRendering();
  }
}

=== FILE: partition_index.dfy ===
/** The index partitioner (`PartitionIndexFile`): each document of each
    index line is sent to one of `n` partitions picked by an injected random
    source, and every partition that received documents for a line gets one
    line of its own for that keyword. Files are line sequences; the random
    source is the sequence of the answers its `Intn(n)` calls give. */
module PartitionIndex {
  import opened Wrappers
  import opened Collections
  import opened Text
  import opened Numbers
  import opened IndexLine
  import opened IndexMerge

  /** A line as the partitioner reads it, and a line it writes: a keyword and
      its documents. The count field of an input line is not kept. */
  datatype Record = Record(keyword: string, documents: seq<string>)

  // ---------------------------------------------------------------------------
  // Reading a line
  // ---------------------------------------------------------------------------

  predicate NonEmpty(d: string) {
    d != ""
  }

  /** The non-empty names, in order and as often as they occur: the general
      filter for `NonEmpty`, and as a multiset the names with every empty one
      removed. */
  function DropEmpty(ds: seq<string>): (r: seq<string>)
    ensures |r| <= |ds|
    ensures forall k :: 0 <= k < |r| ==> r[k] != "" && r[k] in ds
    ensures forall k :: 0 <= k < |ds| && ds[k] != "" ==> ds[k] in r
    ensures r == Filter(ds, NonEmpty)
    ensures multiset(r) == multiset(ds)["" := 0]
  {
    if ds == [] then []
    else
      var rest := DropEmpty(ds[1..]);
      var r := if ds[0] == "" then rest else [ds[0]] + rest;
      DropEmptyCount(ds, rest, r);
      assert r == Filter(ds, NonEmpty);
      FilteredNames(ds, r);
      r
  }

  /** The non-empty filter keeps exactly the non-empty names. */
  lemma FilteredNames(ds: seq<string>, r: seq<string>)
    requires r == Filter(ds, NonEmpty)
    ensures |r| <= |ds|
    ensures forall k :: 0 <= k < |r| ==> r[k] != "" && r[k] in ds
    ensures forall k :: 0 <= k < |ds| && ds[k] != "" ==> ds[k] in r
  {
    forall k | 0 <= k < |r| ensures r[k] != "" && r[k] in ds {
      assert r[k] in r;
    }
    forall k | 0 <= k < |ds| && ds[k] != "" ensures ds[k] in r {
      assert ds[k] in ds && NonEmpty(ds[k]);
    }
  }

  /** One step of `DropEmpty`, counted: the head is dropped exactly when
      empty. */
  lemma DropEmptyCount(ds: seq<string>, rest: seq<string>, r: seq<string>)
    requires ds != []
    requires multiset(rest) == multiset(ds[1..])["" := 0]
    requires r == if ds[0] == "" then rest else [ds[0]] + rest
    ensures multiset(r) == multiset(ds)["" := 0]
  {
    assert ds == [ds[0]] + ds[1..];
    assert multiset(ds) == multiset{ds[0]} + multiset(ds[1..]);
    if ds[0] != "" {
      assert multiset(r) == multiset{ds[0]} + multiset(rest);
    }
  }

  /** A name as a document list yields it: non-empty, trimmed, without a
      comma, and without a line break when the list had none. */
  predicate ListedName(d: string, noNewline: bool) {
    d != "" && IsTrimmed(d) && ',' !in d && (noNewline ==> '\n' !in d)
  }

  /** Every name of a list is a `ListedName`. */
  predicate AllListed(docs: seq<string>, noNewline: bool) {
    forall k :: 0 <= k < |docs| ==> ListedName(docs[k], noNewline)
  }

  /** The documents of a comma-separated list: every piece trimmed, the empty
      ones dropped, the others kept in order and as often as they occur. */
  function DocumentList(list: string): (docs: seq<string>)
    ensures forall k :: 0 <= k < |docs| ==> ListedName(docs[k], '\n' !in list)
    ensures docs == Filter(TrimEach(Split(list, ',')), NonEmpty)
    ensures multiset(docs) == multiset(TrimEach(Split(list, ',')))["" := 0]
  {
    var pieces := Split(list, ',');
    SplitPiecesLack(list, ',');
    SplitKeepsOut(list, ',', '\n');
    CleanPieces(pieces, '\n' !in list)
  }

  /** The trimmed pieces that are not empty, in order and as often as they
      occur. */
  function CleanPieces(pieces: seq<string>, noNewline: bool): (docs: seq<string>)
    requires forall k :: 0 <= k < |pieces| ==> ',' !in pieces[k] && (noNewline ==> '\n' !in pieces[k])
    ensures forall k :: 0 <= k < |docs| ==> ListedName(docs[k], noNewline)
    ensures docs == Filter(TrimEach(pieces), NonEmpty)
    ensures multiset(docs) == multiset(TrimEach(pieces))["" := 0]
  {
    var trimmed := TrimEach(pieces);
    TrimmedPiecesListed(pieces, trimmed, noNewline);
    DropEmpty(trimmed)
  }

  /** A trimmed piece is empty or a listed name. */
  lemma TrimmedPiecesListed(pieces: seq<string>, trimmed: seq<string>, noNewline: bool)
    requires forall k :: 0 <= k < |pieces| ==> ',' !in pieces[k] && (noNewline ==> '\n' !in pieces[k])
    requires |trimmed| == |pieces| && forall k :: 0 <= k < |trimmed| ==> trimmed[k] == TrimSpace(pieces[k])
    ensures forall k :: 0 <= k < |trimmed| ==> trimmed[k] == "" || ListedName(trimmed[k], noNewline)
  {
    forall k | 0 <= k < |trimmed| ensures trimmed[k] == "" || ListedName(trimmed[k], noNewline) {
      TrimSpaceKeepsOut(pieces[k], ',');
      if noNewline {
        TrimSpaceKeepsOut(pieces[k], '\n');
      }
    }
  }

  /** One line of the input: skipped (`None`) when it has no colon, or when
      the text after the first colon, trimmed, has no space between the count
      and the list. The keyword is the trimmed text before the first colon;
      the count is whatever precedes the first space and is discarded. */
  function ParseLine(line: string): (r: Option<Record>)
    ensures r.Some? <==> ':' in line && ' ' in AfterColon(line)
    ensures r.Some? ==> IsTrimmed(r.value.keyword) && ':' !in r.value.keyword
    ensures r.Some? ==> AllListed(r.value.documents, '\n' !in line)
    ensures r.Some? ==>
      && 0 <= IndexOf(line, ':') && 0 <= IndexOf(AfterColon(line), ' ')
      && r.value == Record(TrimSpace(line[..IndexOf(line, ':')]), ListAfter(AfterColon(line), IndexOf(AfterColon(line), ' ')))
  {
    var i := IndexOf(line, ':');
    Found(line, ':');
    if i == -1 then None
    else
      var parsed := ParseAfterColon(TrimSpace(line[..i]), AfterColon(line));
      ParseLineReads(line, parsed);
      parsed
  }

  /** What `ParseLine` reads from a line with a colon: the keyword before
      the first colon and the documents after the first space that follows
      it. */
  lemma ParseLineReads(line: string, parsed: Option<Record>)
    requires 0 <= IndexOf(line, ':')
    requires parsed == ParseAfterColon(TrimSpace(line[..IndexOf(line, ':')]), AfterColon(line))
    ensures parsed.Some? <==> ' ' in AfterColon(line)
    ensures parsed.Some? ==> IsTrimmed(parsed.value.keyword) && ':' !in parsed.value.keyword
    ensures parsed.Some? ==> AllListed(parsed.value.documents, false)
    ensures parsed.Some? && '\n' !in line ==> AllListed(parsed.value.documents, true)
    ensures parsed.Some? ==>
      && 0 <= IndexOf(AfterColon(line), ' ')
      && parsed.value == Record(TrimSpace(line[..IndexOf(line, ':')]), ListAfter(AfterColon(line), IndexOf(AfterColon(line), ' ')))
  {
    var i := IndexOf(line, ':');
    TrimSpaceKeepsOut(line[..i], ':');
    TrimmedTailKeepsOut(line, i + 1, '\n');
  }

  /** The trimmed text after the first colon of a line (the whole line,
      trimmed, when it has none). */
  function AfterColon(line: string): string {
    TrimSpace(line[IndexOf(line, ':') + 1..])
  }

  /** The rest of a line with a colon, given the trimmed texts before and
      after it. */
  function ParseAfterColon(keyword: string, rest: string): (r: Option<Record>)
    ensures r.Some? <==> ' ' in rest
    ensures r.Some? ==> r.value.keyword == keyword
    ensures r.Some? ==> AllListed(r.value.documents, '\n' !in rest)
    ensures r.Some? ==> 0 <= IndexOf(rest, ' ') && r.value.documents == ListAfter(rest, IndexOf(rest, ' '))
  {
    var j := IndexOf(rest, ' ');
    Found(rest, ' ');
    if j == -1 then None else Some(Record(keyword, ListAfter(rest, j)))
  }

  /** The documents listed after the space at `j`. */
  function ListAfter(rest: string, j: int): (docs: seq<string>)
    requires 0 <= j < |rest|
    ensures AllListed(docs, '\n' !in rest)
  {
    TrimmedTailKeepsOut(rest, j + 1, '\n');
    DocumentList(TrimSpace(rest[j + 1..]))
  }

  lemma Found(s: string, c: char)
    ensures IndexOf(s, c) != -1 <==> c in s
  {
    if c in s {
      var k :| 0 <= k < |s| && s[k] == c;
    }
  }

  lemma NotInSlice(s: string, a: int, b: int, c: char)
    requires 0 <= a <= b <= |s| && c !in s
    ensures c !in s[a..b]
  {
    forall k | a <= k < b ensures s[k] != c { assert s[k] in s; }
  }

  lemma TrimmedTailKeepsOut(s: string, a: int, c: char)
    requires 0 <= a <= |s|
    ensures c !in s ==> c !in TrimSpace(s[a..])
  {
    if c !in s {
      NotInSlice(s, a, |s|, c);
      TrimSpaceKeepsOut(s[a..], c);
    }
  }

  /** The pieces of a split hold no character the whole did not hold. */
  lemma {:induction false} SplitKeepsOut(s: string, sep: char, c: char)
    ensures c !in s ==> NoneHold(Split(s, sep), c)
    decreases |s|
  {
    var i := IndexOf(s, sep);
    if i != -1 && c !in s {
      NotInSlice(s, 0, i, c);
      NotInSlice(s, i + 1, |s|, c);
      SplitKeepsOut(s[i + 1..], sep, c);
      SplitStep(s, sep);
      PrependKeepsOut(s[..i], Split(s[i + 1..], sep), Split(s, sep), c);
    }
  }

  /** Non-empty trimmed names joined by any separator give a non-empty
      trimmed text. */
  lemma {:induction false} JoinTrimmed(docs: seq<string>, sep: string)
    requires |docs| >= 1
    requires forall k :: 0 <= k < |docs| ==> docs[k] != "" && IsTrimmed(docs[k])
    ensures Join(docs, sep) != "" && IsTrimmed(Join(docs, sep))
  {
    if |docs| > 1 {
      JoinTrimmed(docs[1..], sep);
      var tail := Join(docs[1..], sep);
      var all := docs[0] + sep + tail;
      assert Join(docs, sep) == all;
      assert all[0] == docs[0][0];
      assert all[|all| - 1] == tail[|tail| - 1];
    }
  }

  /** Without empty names nothing is dropped. */
  lemma {:induction false} DropNoEmpty(ds: seq<string>)
    requires forall k :: 0 <= k < |ds| ==> ds[k] != ""
    ensures DropEmpty(ds) == ds
  {
    if ds != [] {
      DropNoEmpty(ds[1..]);
    }
  }

  /** The partitioner reads the lines it writes: a written line gives back its
      keyword and documents, whatever its count. */
  lemma ParseFormattedLine(keyword: string, count: nat, docs: seq<string>)
    requires IsTrimmed(keyword) && ':' !in keyword
    requires |docs| >= 1
    requires forall k :: 0 <= k < |docs| ==> IsCleanDocument(docs[k])
    ensures ParseLine(FormatLine(keyword, count, docs)) == Some(Record(keyword, docs))
  {
    var digits := Decimal(count);
    var after := digits + " " + Join(docs, ", ");
    assert FormatLine(keyword, count, docs) == keyword + ": " + after;
    CountedListParts(count, docs);
    ParseKeywordLine(keyword, after, |digits|);
  }

  /** `ParseLine` at a clean keyword, a colon, and a trimmed rest whose first
      space is known. */
  lemma ParseKeywordLine(keyword: string, after: string, j: int)
    requires IsTrimmed(keyword) && ':' !in keyword
    requires TrimSpace([' '] + after) == after
    requires 0 <= j < |after| && IndexOf(after, ' ') == j
    ensures ParseLine(keyword + ": " + after) == Some(Record(keyword, DocumentList(TrimSpace(after[j + 1..]))))
  {
    var line := keyword + ": " + after;
    var i := |keyword|;
    assert IndexOf(line, ':') == i && line[..i] == keyword && line[i + 1..] == [' '] + after by {
      ColonSpace(keyword, after);
      FirstAt(keyword, ':', [' '] + after);
    }
    assert TrimSpace(line[..i]) == keyword by {
      TrimSpaceOfTrimmed(keyword);
    }
    ParseLineAt(line, i, after, j);
  }

  lemma ColonSpace(w: string, tail: string)
    ensures w + ": " + tail == w + [':'] + ([' '] + tail)
  {
  }

  /** What follows the colon of a written line: the count, one space, and the
      joined documents, which read back as the documents. */
  lemma CountedListParts(count: nat, docs: seq<string>)
    requires |docs| >= 1
    requires forall k :: 0 <= k < |docs| ==> IsCleanDocument(docs[k])
    ensures var digits := Decimal(count);
      var list := Join(docs, ", ");
      var after := digits + " " + list;
      && TrimSpace([' '] + after) == after
      && IndexOf(after, ' ') == |digits|
      && TrimSpace(after[|digits| + 1..]) == list
      && DocumentList(list) == docs
  {
    var digits := Decimal(count);
    var list := Join(docs, ", ");
    var after := digits + " " + list;
    assert TrimSpace([' '] + after) == after by {
      JoinTrimmed(docs, ", ");
      CountThenList(digits, list);
    }
    assert IndexOf(after, ' ') == |digits| && after[|digits| + 1..] == list by {
      DigitsHaveNoSpace(digits);
      FirstAt(digits, ' ', list);
    }
    ListOfJoined(docs);
  }

  /** `ParseLine` at a line whose first colon and, after it, first space are
      known. */
  lemma ParseLineAt(line: string, i: int, rest: string, j: int)
    requires 0 <= i < |line| && IndexOf(line, ':') == i
    requires rest == TrimSpace(line[i + 1..])
    requires 0 <= j < |rest| && IndexOf(rest, ' ') == j
    ensures ParseLine(line) == Some(Record(TrimSpace(line[..i]), DocumentList(TrimSpace(rest[j + 1..]))))
  {
    ParseLineCut(line, i);
    ParseAfterColonAt(TrimSpace(line[..i]), rest, j);
  }

  lemma ParseLineCut(line: string, i: int)
    requires 0 <= i < |line| && IndexOf(line, ':') == i
    ensures ParseLine(line) == ParseAfterColon(TrimSpace(line[..i]), TrimSpace(line[i + 1..]))
  {
  }

  lemma ParseAfterColonAt(keyword: string, rest: string, j: int)
    requires 0 <= j < |rest| && IndexOf(rest, ' ') == j
    ensures ParseAfterColon(keyword, rest) == Some(Record(keyword, DocumentList(TrimSpace(rest[j + 1..]))))
  {
    assert ParseAfterColon(keyword, rest) == Some(Record(keyword, ListAfter(rest, j)));
  }

  /** The first `c` of `w + [c] + tail` is the one after `w` when `w` holds
      none. */
  lemma FirstAt(w: string, c: char, tail: string)
    requires c !in w
    ensures var s := w + [c] + tail;
      && IndexOf(s, c) == |w| && s[..|w|] == w && s[|w| + 1..] == tail
  {
    var s := w + [c] + tail;
    assert s[|w|] == c;
    forall k | 0 <= k < |w| ensures s[k] != c {
      assert s[k] == w[k] && w[k] in w;
    }
  }

  lemma DigitsHaveNoSpace(digits: string)
    requires IsDigits(digits)
    ensures ' ' !in digits
  {
    forall k | 0 <= k < |digits| ensures digits[k] != ' ' {
      assert IsDigit(digits[k]);
    }
  }

  /** After the colon: the count, a space and the list, already trimmed. */
  lemma CountThenList(digits: string, list: string)
    requires IsDigits(digits)
    requires list != "" && IsTrimmed(list)
    ensures TrimSpace([' '] + (digits + " " + list)) == digits + " " + list
  {
    var after := digits + " " + list;
    assert after[0] == digits[0];
    assert after[|after| - 1] == list[|list| - 1];
    TrimSpaceAfterSpace(' ', after);
  }

  /** A list joined with `", "` reads back as its names. */
  lemma ListOfJoined(docs: seq<string>)
    requires |docs| >= 1
    requires forall k :: 0 <= k < |docs| ==> IsCleanDocument(docs[k])
    ensures TrimSpace(Join(docs, ", ")) == Join(docs, ", ")
    ensures DocumentList(Join(docs, ", ")) == docs
  {
    JoinTrimmed(docs, ", ");
    TrimSpaceOfTrimmed(Join(docs, ", "));
    JoinedDocuments(docs);
    TrimSpacePrefixed(docs);
    DropNoEmpty(docs);
  }

  // ---------------------------------------------------------------------------
  // Routing the documents of one line
  // ---------------------------------------------------------------------------

  /** The `Rand` contract: every answer of `Intn(n)` lies in `[0, n)`. */
  predicate ValidDraws(draws: seq<int>, n: int) {
    forall k :: 0 <= k < |draws| ==> 0 <= draws[k] < n
  }

  /** The documents sent to partition `p`, in input order: the `k`-th
      document goes where the `k`-th draw says. */
  function Picked(docs: seq<string>, draws: seq<int>, p: int): (r: seq<string>)
    requires |docs| <= |draws|
    ensures |r| <= |docs|
    decreases |docs|
  {
    if docs == [] then []
    else
      var last := |docs| - 1;
      Picked(docs[..last], draws, p) + (if draws[last] == p then [docs[last]] else [])
  }

  /** `countPerPartition` after the routing loop. */
  function Buckets(docs: seq<string>, draws: seq<int>, n: nat): (r: seq<seq<string>>)
    requires |docs| <= |draws|
    ensures |r| == n
  {
    seq(n, p requires 0 <= p < n => Picked(docs, draws, p))
  }

  /** Routing one more document appends it to the bucket its draw names. */
  lemma BucketsStep(docs: seq<string>, draws: seq<int>, n: nat)
    requires 1 <= |docs| <= |draws| && ValidDraws(draws, n)
    ensures var last := |docs| - 1;
      var before := Buckets(docs[..last], draws, n);
      Buckets(docs, draws, n) == before[draws[last] := before[draws[last]] + [docs[last]]]
  {
    var last := |docs| - 1;
    var before := Buckets(docs[..last], draws, n);
    var after := before[draws[last] := before[draws[last]] + [docs[last]]];
    forall p | 0 <= p < n ensures Buckets(docs, draws, n)[p] == after[p] {
      assert Picked(docs, draws, p) == Picked(docs[..last], draws, p) + (if draws[last] == p then [docs[last]] else []);
    }
  }

  /** The routing loop of `PartitionIndexFile`: each document is appended to
      the partition of its draw. */
  method RouteDocuments(docs: seq<string>, draws: seq<int>, n: nat) returns (buckets: seq<seq<string>>)
    requires |docs| <= |draws| && ValidDraws(draws, n)
    ensures buckets == Buckets(docs, draws, n)
    ensures multiset(Flatten(buckets)) == multiset(docs)
  {
    buckets := seq(n, p => []);
    FlattenOfEmpties(buckets);
    var i := 0;
    while i < |docs|
      invariant 0 <= i <= |docs|
      invariant buckets == Buckets(docs[..i], draws, n)
      invariant multiset(Flatten(buckets)) == multiset(docs[..i])
    {
      RouteStep(buckets, docs, draws, n, i);
      buckets := buckets[draws[i] := buckets[draws[i]] + [docs[i]]];
      i := i + 1;
    }
    assert docs[..i] == docs;
  }

  /** One iteration of the routing loop keeps both loop facts. */
  lemma RouteStep(buckets: seq<seq<string>>, docs: seq<string>, draws: seq<int>, n: nat, i: nat)
    requires i < |docs| <= |draws| && ValidDraws(draws, n)
    requires buckets == Buckets(docs[..i], draws, n)
    requires multiset(Flatten(buckets)) == multiset(docs[..i])
    ensures var next := buckets[draws[i] := buckets[draws[i]] + [docs[i]]];
      && next == Buckets(docs[..i + 1], draws, n)
      && multiset(Flatten(next)) == multiset(docs[..i + 1])
  {
    var prefix := docs[..i + 1];
    assert prefix[..i] == docs[..i] && prefix[i] == docs[i];
    BucketsStep(prefix, draws, n);
    AppendKeepsAll(buckets, docs[..i], draws[i], docs[i], prefix);
  }

  /** Appending `x` to one bucket adds it to what the buckets hold. */
  lemma AppendKeepsAll(buckets: seq<seq<string>>, docs: seq<string>, p: int, x: string, more: seq<string>)
    requires 0 <= p < |buckets| && more == docs + [x]
    requires multiset(Flatten(buckets)) == multiset(docs)
    ensures multiset(Flatten(buckets[p := buckets[p] + [x]])) == multiset(more)
  {
    FlattenAppendAt(buckets, p, x);
  }

  /** Nothing is lost and nothing duplicated: the partitions together hold
      the line's documents, each as often as the line does. */
  lemma {:induction false} BucketsKeepEveryDocument(docs: seq<string>, draws: seq<int>, n: nat)
    requires |docs| <= |draws| && ValidDraws(draws, n)
    ensures multiset(Flatten(Buckets(docs, draws, n))) == multiset(docs)
    decreases |docs|
  {
    if docs != [] {
      var last := |docs| - 1;
      var before := Buckets(docs[..last], draws, n);
      BucketsKeepEveryDocument(docs[..last], draws, n);
      BucketsStep(docs, draws, n);
      assert docs == docs[..last] + [docs[last]];
      AppendKeepsAll(before, docs[..last], draws[last], docs[last], docs);
    } else {
      FlattenOfEmpties(Buckets(docs, draws, n));
    }
  }

  /** `picked` lists, in order, the documents of `docs` whose draw is `p`:
      `at` gives their positions, increasing, and misses none. */
  predicate PicksInOrder(docs: seq<string>, draws: seq<int>, p: int, picked: seq<string>, at: seq<nat>) {
    && |docs| <= |draws|
    && |at| == |picked|
    && (forall k :: 0 <= k < |at| ==> at[k] < |docs| && draws[at[k]] == p && picked[k] == docs[at[k]])
    && (forall k, l :: 0 <= k < l < |at| ==> at[k] < at[l])
    && (forall j :: 0 <= j < |docs| && draws[j] == p ==> j in at)
  }

  /** Each partition keeps the relative order of its documents: they sit at
      increasing positions of the line, and they are exactly the documents
      whose draw named the partition. */
  lemma {:induction false} PickedKeepsOrder(docs: seq<string>, draws: seq<int>, p: int) returns (at: seq<nat>)
    requires |docs| <= |draws|
    ensures PicksInOrder(docs, draws, p, Picked(docs, draws, p), at)
    decreases |docs|
  {
    if docs == [] {
      at := [];
    } else {
      var last := |docs| - 1;
      var init := docs[..last];
      var before := PickedKeepsOrder(init, draws, p);
      assert docs == init + [docs[last]];
      if draws[last] == p {
        at := before + [last];
        PickOneMore(init, docs[last], draws, p, Picked(init, draws, p), before);
      } else {
        at := before;
        SkipOneMore(init, docs[last], draws, p, Picked(init, draws, p), before);
      }
    }
  }

  /** A document whose draw is `p` joins the end of the picks. */
  lemma PickOneMore(init: seq<string>, x: string, draws: seq<int>, p: int, picked: seq<string>, at: seq<nat>)
    requires |init| < |draws| && draws[|init|] == p
    requires PicksInOrder(init, draws, p, picked, at)
    ensures PicksInOrder(init + [x], draws, p, picked + [x], at + [|init|])
  {
    var docs := init + [x];
    var at' := at + [|init|];
    forall k | 0 <= k < |at'| ensures at'[k] < |docs| && draws[at'[k]] == p && (picked + [x])[k] == docs[at'[k]] {
      if k < |at| {
        assert at'[k] == at[k];
      }
    }
    forall j | 0 <= j < |docs| && draws[j] == p ensures j in at' {
      if j < |init| {
        assert j in at;
      }
    }
  }

  /** A document whose draw is not `p` leaves the picks as they were. */
  lemma SkipOneMore(init: seq<string>, x: string, draws: seq<int>, p: int, picked: seq<string>, at: seq<nat>)
    requires |init| < |draws| && draws[|init|] != p
    requires PicksInOrder(init, draws, p, picked, at)
    ensures PicksInOrder(init + [x], draws, p, picked, at)
  {
    var docs := init + [x];
    forall k | 0 <= k < |at| ensures docs[at[k]] == init[at[k]] {
    }
    forall j | 0 <= j < |docs| && draws[j] == p ensures j in at {
      assert j < |init|;
    }
  }

  // ---------------------------------------------------------------------------
  // Writing the partitions
  // ---------------------------------------------------------------------------

  /** What one bucket writes: a line only when it received documents.
      `EmittedPairs` and `EmitIntoPairs` state what these lines carry. */
  function Emitted(keyword: string, bucket: seq<string>): (r: seq<Record>)
    ensures bucket == [] ==> r == []
    ensures bucket != [] ==> r == [Record(keyword, bucket)]
  {
    if bucket == [] then [] else [Record(keyword, bucket)]
  }

  /** Every partition's output after one line. Its meaning, that the
      partitions together gain exactly the line's keyword paired with each
      routed document, is the lemma `EmitIntoPairs`. */
  function EmitInto(outs: seq<seq<Record>>, keyword: string, buckets: seq<seq<string>>): (r: seq<seq<Record>>)
    requires |outs| == |buckets|
    ensures |r| == |outs|
    ensures forall p :: 0 <= p < |r| ==> r[p] == outs[p] + Emitted(keyword, buckets[p])
  {
    seq(|outs|, p requires 0 <= p < |outs| => outs[p] + Emitted(keyword, buckets[p]))
  }

  /** How many documents the records hold: the number of draws they use. */
  function KeptCount(recs: seq<Record>): nat {
    if recs == [] then 0 else |recs[0].documents| + KeptCount(recs[1..])
  }

  /** The line loop over the accepted lines: each line routes its documents
      with the next draws and appends its records to the partitions. */
  function PartitionRecords(outs: seq<seq<Record>>, recs: seq<Record>, n: nat, draws: seq<int>): (r: seq<seq<Record>>)
    requires |outs| == n && KeptCount(recs) <= |draws|
    ensures |r| == n
    decreases recs
  {
    if recs == [] then outs
    else
      var docs := recs[0].documents;
      var next := EmitInto(outs, recs[0].keyword, Buckets(docs, draws, n));
      PartitionRecords(next, recs[1..], n, draws[|docs|..])
  }

  /** The accepted lines of a file, in order. */
  function ParsedRecords(lines: seq<string>): (r: seq<Record>)
    ensures |r| <= |lines|
  {
    Present(ParseEach(lines))
  }

  /** `ParseLine` applied to every line. */
  function ParseEach(lines: seq<string>): (r: seq<Option<Record>>)
    ensures |r| == |lines|
    ensures forall k :: 0 <= k < |lines| ==> r[k] == ParseLine(lines[k])
  {
    seq(|lines|, k requires 0 <= k < |lines| => ParseLine(lines[k]))
  }

  /** The values that are present, in order. */
  function Present<T>(opts: seq<Option<T>>): (r: seq<T>)
    ensures |r| <= |opts|
    decreases opts
  {
    if opts == [] then []
    else (if opts[0].Some? then [opts[0].value] else []) + Present(opts[1..])
  }

  /** Each value kept comes from some entry. */
  lemma {:induction false} PresentFrom<T>(opts: seq<Option<T>>, i: nat) returns (j: nat)
    requires i < |Present(opts)|
    ensures j < |opts| && opts[j] == Some(Present(opts)[i])
    decreases opts
  {
    if opts[0].Some? && i == 0 {
      j := 0;
    } else {
      var j' := PresentFrom(opts[1..], if opts[0].Some? then i - 1 else i);
      j := j' + 1;
    }
  }

  /** Nothing is dropped when every entry is present. */
  lemma {:induction false} PresentOfSomes<T>(opts: seq<Option<T>>, values: seq<T>)
    requires |opts| == |values|
    requires forall k :: 0 <= k < |opts| ==> opts[k] == Some(values[k])
    ensures Present(opts) == values
    decreases opts
  {
    if opts != [] {
      PresentOfSomes(opts[1..], values[1..]);
      assert values == [values[0]] + values[1..];
    }
  }

  /** The lines written for a partition's records, each without its
      terminating newline; the count written is the number of documents. */
  function RenderLines(recs: seq<Record>): (r: seq<string>)
    ensures |r| == |recs|
    decreases recs
  {
    if recs == [] then []
    else [FormatLine(recs[0].keyword, |recs[0].documents|, recs[0].documents)] + RenderLines(recs[1..])
  }

  /** The lines of every partition. */
  function Render(outs: seq<seq<Record>>): (r: seq<seq<string>>)
    ensures |r| == |outs|
    ensures forall p :: 0 <= p < |r| ==> |r[p]| == |outs[p]|
  {
    seq(|outs|, p requires 0 <= p < |outs| => RenderLines(outs[p]))
  }

  /** Go's `PartitionIndexFile` once the output files exist: an input that
      cannot be opened or read is an error. Otherwise there is one file per
      partition, partition `p` receives the lines of the records routed to
      it, and those records hold, over all partitions together, exactly the
      (keyword, document) pairs of the accepted input lines. */
  function PartitionIndexFile(file: IndexFile, n: nat, draws: seq<int>): (r: Outcome<seq<seq<string>>, FileError>)
    requires ValidDraws(draws, n)
    requires file.Readable? ==> KeptCount(ParsedRecords(file.lines)) <= |draws|
    ensures file.Unreadable? ==> r == Err(CannotOpen)
    ensures file.Readable? && file.readFails ==> r == Err(CannotRead)
    ensures file.Readable? && !file.readFails ==> r.Ok? && |r.value| == n
    ensures file.Readable? && !file.readFails ==>
      var outs := PartitionRecords(seq(n, p => []), ParsedRecords(file.lines), n, draws);
      && r.value == Render(outs)
      && OutputPairs(outs) == RecordPairs(ParsedRecords(file.lines))
  {
    match file
    case Unreadable => Err(CannotOpen)
    case Readable(lines, readFails) =>
      var empty: seq<seq<Record>> := seq(n, p => []);
      var outs := PartitionRecords(empty, ParsedRecords(lines), n, draws);
      PartitionKeepsEveryDocument(empty, ParsedRecords(lines), n, draws);
      OutputPairsOfEmpties(empty);
      if readFails then Err(CannotRead) else Ok(Render(outs))
  }

  // ---------------------------------------------------------------------------
  // Nothing lost, nothing invented
  // ---------------------------------------------------------------------------

  /** The (keyword, document) pairs of one line, with multiplicity. */
  function Tagged(keyword: string, docs: seq<string>): (r: multiset<(string, string)>)
    ensures forall x :: r[x] == if x.0 == keyword then multiset(docs)[x.1] else 0
    decreases docs
  {
    if docs == [] then multiset{}
    else
      assert docs == [docs[0]] + docs[1..];
      multiset{(keyword, docs[0])} + Tagged(keyword, docs[1..])
  }

  /** The pairs of a sequence of records. */
  function RecordPairs(recs: seq<Record>): multiset<(string, string)>
    decreases recs
  {
    if recs == [] then multiset{} else Tagged(recs[0].keyword, recs[0].documents) + RecordPairs(recs[1..])
  }

  /** The pairs of all partitions together. */
  function OutputPairs(outs: seq<seq<Record>>): multiset<(string, string)>
    decreases outs
  {
    if outs == [] then multiset{} else RecordPairs(outs[0]) + OutputPairs(outs[1..])
  }

  lemma TaggedAppend(keyword: string, a: seq<string>, b: seq<string>)
    ensures Tagged(keyword, a + b) == Tagged(keyword, a) + Tagged(keyword, b)
  {
    var l := Tagged(keyword, a + b);
    var r := Tagged(keyword, a) + Tagged(keyword, b);
    assert multiset(a + b) == multiset(a) + multiset(b);
    forall x ensures l[x] == r[x] {
    }
  }

  /** The pairs of a line depend only on how often each document occurs. */
  lemma TaggedPermutation(keyword: string, a: seq<string>, b: seq<string>)
    requires multiset(a) == multiset(b)
    ensures Tagged(keyword, a) == Tagged(keyword, b)
  {
  }

  lemma {:induction false} RecordPairsAppend(a: seq<Record>, b: seq<Record>)
    ensures RecordPairs(a + b) == RecordPairs(a) + RecordPairs(b)
    decreases a
  {
    if a == [] {
      assert a + b == b;
    } else {
      assert (a + b)[1..] == a[1..] + b;
      RecordPairsAppend(a[1..], b);
    }
  }

  lemma {:induction false} OutputPairsOfEmpties(outs: seq<seq<Record>>)
    requires forall p :: 0 <= p < |outs| ==> outs[p] == []
    ensures OutputPairs(outs) == multiset{}
    decreases outs
  {
    if outs != [] {
      OutputPairsOfEmpties(outs[1..]);
    }
  }

  /** Appending one line's buckets adds the pairs of the line's documents. */
  lemma {:induction false} EmitIntoPairs(outs: seq<seq<Record>>, keyword: string, buckets: seq<seq<string>>)
    requires |outs| == |buckets|
    ensures OutputPairs(EmitInto(outs, keyword, buckets)) == OutputPairs(outs) + Tagged(keyword, Flatten(buckets))
    decreases |outs|
  {
    if outs != [] {
      var r := EmitInto(outs, keyword, buckets);
      assert r[0] == outs[0] + Emitted(keyword, buckets[0]);
      assert r[1..] == EmitInto(outs[1..], keyword, buckets[1..]);
      EmitIntoPairs(outs[1..], keyword, buckets[1..]);
      EmittedPairs(outs[0], keyword, buckets[0]);
      TaggedAppend(keyword, buckets[0], Flatten(buckets[1..]));
    }
  }

  lemma EmittedPairs(recs: seq<Record>, keyword: string, bucket: seq<string>)
    ensures RecordPairs(recs + Emitted(keyword, bucket)) == RecordPairs(recs) + Tagged(keyword, bucket)
  {
    RecordPairsAppend(recs, Emitted(keyword, bucket));
    assert RecordPairs(Emitted(keyword, bucket)) == Tagged(keyword, bucket);
  }

  /** The partitions gain exactly the pairs of the records routed into them:
      every document of every line lands in one partition, under its line's
      keyword, once for each time the line lists it. */
  lemma {:induction false} PartitionKeepsEveryDocument(outs: seq<seq<Record>>, recs: seq<Record>, n: nat, draws: seq<int>)
    requires |outs| == n && KeptCount(recs) <= |draws| && ValidDraws(draws, n)
    ensures OutputPairs(PartitionRecords(outs, recs, n, draws)) == OutputPairs(outs) + RecordPairs(recs)
    decreases recs
  {
    if recs != [] {
      var docs := recs[0].documents;
      var buckets := Buckets(docs, draws, n);
      var next := EmitInto(outs, recs[0].keyword, buckets);
      EmitIntoPairs(outs, recs[0].keyword, buckets);
      BucketsKeepEveryDocument(docs, draws, n);
      TaggedPermutation(recs[0].keyword, Flatten(buckets), docs);
      PartitionKeepsEveryDocument(next, recs[1..], n, draws[|docs|..]);
    }
  }

  // ---------------------------------------------------------------------------
  // The written lines read back
  // ---------------------------------------------------------------------------

  /** A record `ParseLine` yields for a line without a line break. */
  predicate ParsedShape(rec: Record) {
    IsTrimmed(rec.keyword) && ':' !in rec.keyword && AllListed(rec.documents, true)
  }

  /** A record whose written line reads back as the record. */
  predicate Writable(rec: Record) {
    IsTrimmed(rec.keyword) && ':' !in rec.keyword && rec.documents != [] && AllListed(rec.documents, true)
  }

  lemma ParseLineShape(line: string)
    requires '\n' !in line
    ensures ParseLine(line).Some? ==> ParsedShape(ParseLine(line).value)
  {
  }

  lemma ParsedRecordsShape(lines: seq<string>)
    requires forall k :: 0 <= k < |lines| ==> '\n' !in lines[k]
    ensures forall i :: 0 <= i < |ParsedRecords(lines)| ==> ParsedShape(ParsedRecords(lines)[i])
  {
    var opts := ParseEach(lines);
    forall i | 0 <= i < |Present(opts)| ensures ParsedShape(Present(opts)[i]) {
      var j := PresentFrom(opts, i);
      ParseLineShape(lines[j]);
    }
  }

  /** A partition keeps a subsequence of its line's documents. */
  lemma {:induction false} PickedListed(docs: seq<string>, draws: seq<int>, p: int)
    requires |docs| <= |draws| && AllListed(docs, true)
    ensures AllListed(Picked(docs, draws, p), true)
    decreases |docs|
  {
    if docs != [] {
      PickedListed(docs[..|docs| - 1], draws, p);
    }
  }

  /** Appending one line's records keeps every partition writable: a
      partition gains a record only for a non-empty bucket, and a bucket
      lists a subsequence of the line's documents. */
  lemma EmitKeepsWritable(r: seq<seq<Record>>, outs: seq<seq<Record>>, keyword: string, buckets: seq<seq<string>>)
    requires |r| == |outs| == |buckets|
    requires forall p :: 0 <= p < |r| ==> r[p] == outs[p] + Emitted(keyword, buckets[p])
    requires forall p, k :: 0 <= p < |outs| && 0 <= k < |outs[p]| ==> Writable(outs[p][k])
    requires IsTrimmed(keyword) && ':' !in keyword
    requires forall p :: 0 <= p < |buckets| ==> AllListed(buckets[p], true)
    ensures forall p, k :: 0 <= p < |r| && 0 <= k < |r[p]| ==> Writable(r[p][k])
  {
    forall p, k | 0 <= p < |r| && 0 <= k < |r[p]| ensures Writable(r[p][k]) {
      if k >= |outs[p]| {
        assert r[p][k] == Record(keyword, buckets[p]);
      }
    }
  }

  /** Every line the partitioner writes lists at least one document, and its
      keyword and documents are ones `ParseLine` reads back. */
  lemma {:induction false} PartitionWritesReadableLines(outs: seq<seq<Record>>, recs: seq<Record>, n: nat, draws: seq<int>)
    requires |outs| == n && KeptCount(recs) <= |draws| && ValidDraws(draws, n)
    requires forall p, k :: 0 <= p < n && 0 <= k < |outs[p]| ==> Writable(outs[p][k])
    requires forall i :: 0 <= i < |recs| ==> ParsedShape(recs[i])
    ensures var r := PartitionRecords(outs, recs, n, draws);
      forall p, k :: 0 <= p < n && 0 <= k < |r[p]| ==> Writable(r[p][k])
    decreases recs
  {
    if recs != [] {
      var rec := recs[0];
      assert ParsedShape(rec);
      var buckets := Buckets(rec.documents, draws, n);
      forall p | 0 <= p < n ensures AllListed(buckets[p], true) {
        PickedListed(rec.documents, draws, p);
      }
      var next := EmitInto(outs, rec.keyword, buckets);
      EmitKeepsWritable(next, outs, rec.keyword, buckets);
      assert PartitionRecords(outs, recs, n, draws) == PartitionRecords(next, recs[1..], n, draws[|rec.documents|..]);
      assert forall i :: 0 <= i < |recs[1..]| ==> ParsedShape(recs[1..][i]);
      PartitionWritesReadableLines(next, recs[1..], n, draws[|rec.documents|..]);
    }
  }

  /** A written line reads back as its record. */
  lemma WrittenLineReadsBack(rec: Record)
    requires Writable(rec)
    ensures ParseLine(FormatLine(rec.keyword, |rec.documents|, rec.documents)) == Some(rec)
  {
    forall k | 0 <= k < |rec.documents| ensures IsCleanDocument(rec.documents[k]) {
      assert ListedName(rec.documents[k], true);
    }
    ParseFormattedLine(rec.keyword, |rec.documents|, rec.documents);
  }

  /** Reading back the lines written for well-formed records gives the
      records. */
  lemma {:induction false} ReadBackRendered(recs: seq<Record>)
    requires forall k :: 0 <= k < |recs| ==> Writable(recs[k])
    ensures ParsedRecords(RenderLines(recs)) == recs
    decreases recs
  {
    var lines := RenderLines(recs);
    forall k | 0 <= k < |recs| ensures ParseLine(lines[k]) == Some(recs[k]) {
      RenderedLineAt(recs, k);
      WrittenLineReadsBack(recs[k]);
    }
    PresentOfSomes(ParseEach(lines), recs);
  }

  lemma {:induction false} RenderedLineAt(recs: seq<Record>, k: nat)
    requires k < |recs|
    ensures RenderLines(recs)[k] == FormatLine(recs[k].keyword, |recs[k].documents|, recs[k].documents)
    decreases k
  {
    if k > 0 {
      RenderedLineAt(recs[1..], k - 1);
    }
  }

  /** What the partitions read back as. */
  function ReadBack(files: seq<seq<string>>): (r: seq<seq<Record>>)
    ensures |r| == |files|
  {
    seq(|files|, p requires 0 <= p < |files| => ParsedRecords(files[p]))
  }

  /** The property the partitioner exists for: once the whole input is read,
      every written line is accepted when read back, and the partitions read
      back hold, over all of them together, exactly the (keyword, document)
      pairs of the input lines. */
  lemma PartitionRoundTrip(file: IndexFile, n: nat, draws: seq<int>)
    requires file.Readable? && !file.readFails
    requires forall k :: 0 <= k < |file.lines| ==> '\n' !in file.lines[k]
    requires ValidDraws(draws, n) && KeptCount(ParsedRecords(file.lines)) <= |draws|
    ensures var r := PartitionIndexFile(file, n, draws);
      && r.Ok? && |r.value| == n
      && (forall p :: 0 <= p < n ==> |ReadBack(r.value)[p]| == |r.value[p]|)
      && OutputPairs(ReadBack(r.value)) == RecordPairs(ParsedRecords(file.lines))
  {
    var recs := ParsedRecords(file.lines);
    var empty: seq<seq<Record>> := seq(n, p => []);
    var outs := PartitionRecords(empty, recs, n, draws);
    var r := Render(outs);
    ParsedRecordsShape(file.lines);
    PartitionWritesReadableLines(empty, recs, n, draws);
    PartitionKeepsEveryDocument(empty, recs, n, draws);
    OutputPairsOfEmpties(empty);
    forall p | 0 <= p < n ensures ReadBack(r)[p] == outs[p] {
      ReadBackRendered(outs[p]);
    }
    assert ReadBack(r) == outs;
  }

  /** A written line is also one the index server loads: when the keyword
      holds no regular-expression space, `parseInvertedIndexEntry` reads it
      back as the keyword, the written count and the documents. */
  lemma WrittenLineIndexes(rec: Record)
    requires Writable(rec) && IsRegexWord(rec.keyword) && |rec.documents| <= MaxInt
    ensures ParseInvertedIndexEntry(FormatLine(rec.keyword, |rec.documents|, rec.documents))
      == (rec.keyword, Entry(|rec.documents|, rec.documents))
  {
    forall k | 0 <= k < |rec.documents| ensures IsCleanDocument(rec.documents[k]) {
      assert ListedName(rec.documents[k], true);
    }
    ParseFormatRoundTrip(rec.keyword, rec.documents);
  }
}

=== FILE: ranking.dfy ===
/** Ranking of search results (`toSortedResults`): one result per document,
    its name cleaned and its keywords sorted, more matches first and ties
    broken by document name. */
module Ranking {
  import opened Text
  import opened Ordering
  import opened Collections

  /** Go's `Result`: a document and the keywords it matched. The RPC type
      `SearchResult` has the same two fields. */
  datatype Result = Result(document: string, matches: seq<string>)

  /** The name under which a document is reported: leading and trailing
      white space and non-breaking spaces removed. U+00A0 already has the
      White_Space property, so this is exactly `strings.TrimSpace`. */
  function CleanDocumentName(doc: string): (r: string)
    ensures r == TrimSpace(doc)
  {
    assert forall c :: IsSpaceOrNoBreak(c) == IsSpace(c);
    TrimFuncAgrees(doc, IsSpaceOrNoBreak, IsSpace);
    TrimFunc(doc, IsSpaceOrNoBreak)
  }

  /** `sort.Strings`. */
  function SortStrings(s: seq<string>): (r: seq<string>)
    ensures multiset(r) == multiset(s)
    ensures SortedBy(LessEq, r)
  {
    LessEqIsTotalPreorder();
    SortBy(LessEq, s)
  }

  /** The result reported for one document: its cleaned name and its
      keywords in ascending order. */
  function MakeResult(doc: string, matches: seq<string>): (r: Result)
    ensures r.document == TrimSpace(doc)
    ensures multiset(r.matches) == multiset(matches)
    ensures SortedBy(LessEq, r.matches)
  {
    Result(CleanDocumentName(doc), SortStrings(matches))
  }

  /** The comparison of `toSortedResults`: `a` may come before `b` when it
      has more matches, or as many and a name that is not greater. */
  predicate RanksBefore(a: Result, b: Result) {
    |a.matches| > |b.matches| || (|a.matches| == |b.matches| && LessEq(a.document, b.document))
  }

  lemma RanksBeforeIsTotalPreorder()
    ensures TotalPreorder(RanksBefore)
  {
    LessEqTotalOrder();
  }

  /** The result each document of `m` is reported as. */
  function Reported(m: map<string, seq<string>>): (r: map<string, Result>)
    ensures r.Keys == m.Keys
    ensures forall d :: d in m ==> r[d] == MakeResult(d, m[d])
  {
    map d | d in m :: MakeResult(d, m[d])
  }

  /** Go's `toSortedResults`. Every document of the map yields exactly one
      result (a result occurs as often as there are documents reported as
      it), and the results are ordered by `RanksBefore`. Go visits the map in
      an unspecified order and sorts with an unstable sort; the model visits
      documents in ascending order and sorts stably, one of the orders the
      Go code may produce (`RankingIsDetermined` says when it is the only
      one). */
  function ToSortedResults(m: map<string, seq<string>>): (r: seq<Result>)
    ensures |r| == |m|
    ensures ReportsEachOnce(m, r)
    ensures SortedBy(RanksBefore, r)
  {
    var unsorted := ValuesInKeyOrder(Reported(m));
    RanksBeforeIsTotalPreorder();
    var r := SortBy(RanksBefore, unsorted);
    assert |r| == |unsorted| by {
      assert |multiset(r)| == |multiset(unsorted)|;
    }
    r
  }

  /** Each result occurs in `rs` as often as there are documents of `m`
      reported as it. */
  ghost predicate ReportsEachOnce(m: map<string, seq<string>>, rs: seq<Result>) {
    forall x :: multiset(rs)[x] == |KeysWith(Reported(m), m.Keys, x)|
  }

  /** No two documents are reported under the same name with as many
      matches. */
  predicate NoTies(m: map<string, seq<string>>) {
    forall d, e :: d in m && e in m && d != e && TrimSpace(d) == TrimSpace(e) ==> |m[d]| != |m[e]|
  }

  /** Any arrangement the Go code may return (the same results, ordered by
      the same comparison) is the model's arrangement when no two documents
      are reported under the same name with as many matches. */
  lemma RankingIsDetermined(m: map<string, seq<string>>, other: seq<Result>)
    requires ReportsEachOnce(m, other)
    requires SortedBy(RanksBefore, other)
    requires NoTies(m)
    ensures other == ToSortedResults(m)
  {
    var r := ToSortedResults(m);
    SameReports(m, other, r);
    TiesInRanking(m, other);
    SortedPermutationUnique(RanksBefore, other, r);
  }

  /** Two sequences that report each document once hold the same results. */
  lemma SameReports(m: map<string, seq<string>>, a: seq<Result>, b: seq<Result>)
    requires ReportsEachOnce(m, a) && ReportsEachOnce(m, b)
    ensures multiset(a) == multiset(b)
  {
    assert forall x :: multiset(a)[x] == multiset(b)[x];
  }

  /** Without ties in the map, two results of a ranking that tie are the
      same result. */
  lemma TiesInRanking(m: map<string, seq<string>>, rs: seq<Result>)
    requires ReportsEachOnce(m, rs) && NoTies(m)
    ensures forall x, y :: x in rs && y in rs && RanksBefore(x, y) && RanksBefore(y, x) ==> x == y
  {
    forall x, y | x in rs && y in rs && RanksBefore(x, y) && RanksBefore(y, x) ensures x == y {
      TiedResultsEqual(m, rs, x, y);
    }
  }

  /** Under the same condition, two results that tie are the same result. */
  lemma TiedResultsEqual(m: map<string, seq<string>>, rs: seq<Result>, x: Result, y: Result)
    requires ReportsEachOnce(m, rs) && NoTies(m)
    requires x in rs && y in rs && RanksBefore(x, y) && RanksBefore(y, x)
    ensures x == y
  {
    var d := ReportedFrom(m, rs, x);
    var e := ReportedFrom(m, rs, y);
    LessEqTotalOrder();
    assert x.document == y.document && |x.matches| == |y.matches|;
    assert |multiset(x.matches)| == |multiset(m[d])| && |multiset(y.matches)| == |multiset(m[e])|;
  }

  /** A result present in a ranking comes from some document. */
  lemma ReportedFrom(m: map<string, seq<string>>, rs: seq<Result>, x: Result) returns (d: string)
    requires ReportsEachOnce(m, rs)
    requires x in rs
    ensures d in m && MakeResult(d, m[d]) == x
  {
    assert multiset(rs)[x] > 0;
    d :| d in KeysWith(Reported(m), m.Keys, x);
  }

  /** The first `k` results, or all of them when there are fewer; none for a
      negative `k`. */
  function TopK(rs: seq<Result>, k: int): (r: seq<Result>)
    ensures |r| == if k <= 0 then 0 else if k < |rs| then k else |rs|
    ensures r == rs[..|r|]
  {
    if k <= 0 then [] else if k < |rs| then rs[..k] else rs
  }

  /** From a ranking, the cut keeps results that rank at least as well as
      every result it drops, and the kept ones are still ranked. */
  lemma TopKKeepsTheBest(rs: seq<Result>, k: int)
    requires SortedBy(RanksBefore, rs)
    ensures var r := TopK(rs, k);
      && SortedBy(RanksBefore, r)
      && forall i, j :: 0 <= i < |r| <= j < |rs| ==> RanksBefore(r[i], rs[j])
  {
    var r := TopK(rs, k);
    forall i, j | 0 <= i < j < |r| ensures RanksBefore(r[i], r[j]) {
      assert r[i] == rs[i] && r[j] == rs[j];
    }
  }
}

=== FILE: rpc_api.dfy ===
/** The types exchanged between the web server and the index servers. */
module RpcApi {
  import Ranking

  /** A search request: the query text and how many results to return. */
  datatype SearchArgs = SearchArgs(query: string, topK: int)

  /** One result of a shard: a document and the keywords it matched there. */
  datatype SearchResult = SearchResult(document: string, matches: seq<string>)

  /** The field-by-field copy of an index result into an RPC result. */
  function FromResult(x: Ranking.Result): (r: SearchResult)
    ensures ToResult(r) == x
  {
    SearchResult(x.document, x.matches)
  }

  /** The inverse copy, used to state properties of RPC results in terms of
      the ranking order. */
  function ToResult(s: SearchResult): (r: Ranking.Result)
    ensures r.document == s.document && r.matches == s.matches
  {
    Ranking.Result(s.document, s.matches)
  }

  /** Go's conversion loop: one RPC result per index result, in order. */
  function FromResults(xs: seq<Ranking.Result>): (r: seq<SearchResult>)
    ensures |r| == |xs|
    ensures forall i :: 0 <= i < |xs| ==> ToResult(r[i]) == xs[i]
  {
    if xs == [] then [] else [FromResult(xs[0])] + FromResults(xs[1..])
  }
}

=== FILE: text.dfy ===
/** String primitives of Go's `strings`, `unicode` and `regexp` packages that
    the search code relies on. Strings are sequences of Unicode scalar values,
    so comparing them character by character agrees with Go's byte-wise
    comparison of their UTF-8 encodings. */
module Text {
  import opened Collections

  /** The non-breaking space U+00A0, named explicitly by the result cleaners. */
  const NoBreakSpace: char := '\U{00A0}'

  /** Go's `unicode.IsSpace`: the characters with the Unicode White_Space
      property. */
  predicate IsSpace(c: char) {
    || c == '\t' || c == '\n' || c == '\U{000B}' || c == '\U{000C}' || c == '\r' || c == ' '
    || c == '\U{0085}' || c == '\U{00A0}' || c == '\U{1680}'
    || ('\U{2000}' <= c <= '\U{200A}')
    || c == '\U{2028}' || c == '\U{2029}' || c == '\U{202F}' || c == '\U{205F}' || c == '\U{3000}'
  }

  /** The RE2 class `\s` used by Go's `regexp`: ASCII tab, newline, form
      feed, carriage return and space only (no vertical tab, no Unicode). */
  predicate IsRegexSpace(c: char) {
    c == '\t' || c == '\n' || c == '\U{000C}' || c == '\r' || c == ' '
  }

  /** The RE2 class `\d`: ASCII digits only. */
  predicate IsDigit(c: char) {
    '0' <= c <= '9'
  }

  /** The characters removed from document names before they are reported. */
  predicate IsSpaceOrNoBreak(c: char) {
    IsSpace(c) || c == NoBreakSpace
  }

  predicate NoSpace(s: string) {
    forall i :: 0 <= i < |s| ==> !IsSpace(s[i])
  }

  /** `s` has nothing `strings.TrimSpace` would remove. */
  predicate IsTrimmed(s: string) {
    s == [] || (!IsSpace(s[0]) && !IsSpace(s[|s| - 1]))
  }

  // ---------------------------------------------------------------------------
  // Trimming (strings.TrimLeftFunc / TrimRightFunc / TrimFunc / TrimSpace)
  // ---------------------------------------------------------------------------

  /** Drops the longest prefix of characters satisfying `p`. */
  function TrimLeft(s: string, p: char -> bool): (r: string)
    ensures |r| <= |s| && r == s[|s| - |r|..]
    ensures forall i :: 0 <= i < |s| - |r| ==> p(s[i])
    ensures r != [] ==> !p(r[0])
  {
    if s != [] && p(s[0]) then TrimLeft(s[1..], p) else s
  }

  /** Drops the longest suffix of characters satisfying `p`. */
  function TrimRight(s: string, p: char -> bool): (r: string)
    ensures |r| <= |s| && r == s[..|r|]
    ensures forall i :: |r| <= i < |s| ==> p(s[i])
    ensures r != [] ==> !p(r[|r| - 1])
  {
    if s != [] && p(s[|s| - 1]) then TrimRight(s[..|s| - 1], p) else s
  }

  /** The length of the longest prefix of `s` whose characters all satisfy
      `p`: the number of characters `TrimLeft` removes. */
  function PrefixSpan(s: string, p: char -> bool): (n: nat)
    ensures n <= |s|
    ensures forall k :: 0 <= k < n ==> p(s[k])
    ensures n < |s| ==> !p(s[n])
  {
    |s| - |TrimLeft(s, p)|
  }

  /** The span stops exactly where a prefix of `p`-characters is followed by
      a character that fails `p`, or by nothing. */
  lemma PrefixSpanOf(w: string, t: string, p: char -> bool)
    requires forall k :: 0 <= k < |w| ==> p(w[k])
    requires t == [] || !p(t[0])
    ensures PrefixSpan(w + t, p) == |w|
  {
    assert forall k :: 0 <= k < |w| ==> (w + t)[k] == w[k];
    assert |w| < |w + t| ==> (w + t)[|w|] == t[0];
  }

  /** Go's `strings.TrimFunc`: the infix of `s` left after removing every
      leading and trailing character that satisfies `p`. */
  function TrimFunc(s: string, p: char -> bool): (r: string)
    ensures PrefixSpan(s, p) + |r| <= |s|
    ensures r == s[PrefixSpan(s, p)..PrefixSpan(s, p) + |r|]
    ensures forall k :: 0 <= k < PrefixSpan(s, p) ==> p(s[k])
    ensures forall k :: PrefixSpan(s, p) + |r| <= k < |s| ==> p(s[k])
    ensures r != [] ==> !p(r[0]) && !p(r[|r| - 1])
  {
    TrimRight(TrimLeft(s, p), p)
  }

  /** Trimming depends only on which characters the predicate accepts. */
  lemma {:induction false} TrimLeftAgrees(s: string, p: char -> bool, q: char -> bool)
    requires forall c :: p(c) == q(c)
    ensures TrimLeft(s, p) == TrimLeft(s, q)
  {
    if s != [] {
      TrimLeftAgrees(s[1..], p, q);
    }
  }

  lemma {:induction false} TrimRightAgrees(s: string, p: char -> bool, q: char -> bool)
    requires forall c :: p(c) == q(c)
    ensures TrimRight(s, p) == TrimRight(s, q)
  {
    if s != [] {
      TrimRightAgrees(s[..|s| - 1], p, q);
    }
  }

  lemma TrimFuncAgrees(s: string, p: char -> bool, q: char -> bool)
    requires forall c :: p(c) == q(c)
    ensures TrimFunc(s, p) == TrimFunc(s, q)
  {
    TrimLeftAgrees(s, p, q);
    TrimRightAgrees(TrimLeft(s, p), p, q);
  }

  /** Go's `strings.TrimSpace`. */
  function TrimSpace(s: string): (r: string)
    ensures IsTrimmed(r)
    ensures |r| <= |s|
  {
    TrimFunc(s, IsSpace)
  }

  lemma TrimSpaceOfTrimmed(s: string)
    requires IsTrimmed(s)
    ensures TrimSpace(s) == s
  {
  }

  /** A leading space in front of an already trimmed string is removed again. */
  lemma TrimSpaceAfterSpace(c: char, s: string)
    requires IsSpace(c) && IsTrimmed(s)
    ensures TrimSpace([c] + s) == s
  {
    assert ([c] + s)[1..] == s;
    assert TrimLeft([c] + s, IsSpace) == TrimLeft(s, IsSpace);
  }

  // ---------------------------------------------------------------------------
  // Searching
  // ---------------------------------------------------------------------------

  /** No position of `s` from `lo` up to (not including) `hi` holds `c`. */
  predicate Lacks(s: string, c: char, lo: int, hi: int) {
    forall k :: lo <= k < hi && 0 <= k < |s| ==> s[k] != c
  }

  /** Go's `strings.IndexByte`/`Index` for one character: the first position
      of `c` in `s`, or -1. */
  function IndexOf(s: string, c: char): (i: int)
    ensures -1 <= i < |s|
    ensures i >= 0 ==> s[i] == c
    ensures Lacks(s, c, 0, if i == -1 then |s| else i)
  {
    if |s| == 0 then -1
    else if s[0] == c then 0
    else
      var j := IndexOf(s[1..], c);
      if j == -1 then -1 else j + 1
  }

  /** Go's `strings.LastIndex` for one character: the last position of `c`
      in `s`, or -1. */
  function LastIndexOf(s: string, c: char): (i: int)
    ensures -1 <= i < |s|
    ensures i >= 0 ==> s[i] == c
    ensures Lacks(s, c, i + 1, |s|)
  {
    if |s| == 0 then -1
    else if s[|s| - 1] == c then |s| - 1
    else LastIndexOf(s[..|s| - 1], c)
  }

  predicate HasSuffix(s: string, suffix: string) {
    |suffix| <= |s| && s[|s| - |suffix|..] == suffix
  }

  /** Go's `strings.TrimSuffix`: removes one copy of `suffix` if present. */
  function TrimSuffix(s: string, suffix: string): (r: string)
    ensures HasSuffix(s, suffix) ==> r + suffix == s
    ensures !HasSuffix(s, suffix) ==> r == s
  {
    if HasSuffix(s, suffix) then s[..|s| - |suffix|] else s
  }

  // ---------------------------------------------------------------------------
  // Splitting and joining (strings.Split / strings.Join / strings.Fields)
  // ---------------------------------------------------------------------------

  /** Go's `strings.Join`. */
  function Join(parts: seq<string>, sep: string): string {
    if |parts| == 0 then ""
    else if |parts| == 1 then parts[0]
    else parts[0] + sep + Join(parts[1..], sep)
  }

  /** Go's `strings.Split(s, sep)` for a one-character separator: the pieces
      between consecutive separators; `Split("", sep)` is `[""]`. */
  function Split(s: string, sep: char): (parts: seq<string>)
    ensures |parts| >= 1
  {
    var i := IndexOf(s, sep);
    if i == -1 then
      [s]
    else
      [s[..i]] + Split(s[i + 1..], sep)
  }

  /** A text with a separator splits into the text before the first one
      and the pieces of the text after it. */
  lemma SplitStep(s: string, sep: char)
    requires IndexOf(s, sep) != -1
    ensures Split(s, sep) == [s[..IndexOf(s, sep)]] + Split(s[IndexOf(s, sep) + 1..], sep)
  {
  }

  /** No part holds `c`. */
  predicate NoneHold(parts: seq<string>, c: char) {
    forall k :: 0 <= k < |parts| ==> c !in parts[k]
  }

  /** No piece of a split of `s` holds the separator. */
  predicate PiecesLack(s: string, sep: char) {
    NoneHold(Split(s, sep), sep)
  }

  /** No piece of a split holds the separator. */
  lemma {:induction false} SplitPiecesLack(s: string, sep: char)
    ensures PiecesLack(s, sep)
    decreases |s|
  {
    var i := IndexOf(s, sep);
    if i == -1 {
      SplitWithout(s, sep);
      LacksPrefix(s, sep, |s|);
      assert s[..|s|] == s;
    } else {
      SplitPiecesLack(s[i + 1..], sep);
      SplitLackStep(s, sep);
    }
  }

  /** One step of `SplitPiecesLack`. */
  lemma SplitLackStep(s: string, sep: char)
    requires IndexOf(s, sep) != -1
    requires PiecesLack(s[IndexOf(s, sep) + 1..], sep)
    ensures PiecesLack(s, sep)
  {
    var i := IndexOf(s, sep);
    SplitStep(s, sep);
    LacksPrefix(s, sep, i);
    PrependKeepsOut(s[..i], Split(s[i + 1..], sep), Split(s, sep), sep);
  }

  lemma LacksPrefix(s: string, c: char, n: int)
    requires 0 <= n <= |s| && Lacks(s, c, 0, n)
    ensures c !in s[..n]
  {
    assert forall k :: 0 <= k < n ==> s[..n][k] == s[k];
  }

  lemma PrependKeepsOut(head: string, tail: seq<string>, parts: seq<string>, c: char)
    requires parts == [head] + tail
    requires c !in head && NoneHold(tail, c)
    ensures NoneHold(parts, c)
  {
    forall k | 1 <= k < |parts| ensures c !in parts[k] {
      assert parts[k] == tail[k - 1];
    }
  }

  /** Joining the pieces of a split with the separator gives the text back. */
  lemma {:induction false} JoinSplit(s: string, sep: char)
    ensures JoinsBack(s, sep)
    decreases |s|
  {
    var i := IndexOf(s, sep);
    if i == -1 {
      SplitWithout(s, sep);
    } else {
      JoinSplit(s[i + 1..], sep);
      JoinSplitStep(s, sep);
    }
  }

  /** The pieces of `s` joined with the separator give `s` back. */
  predicate JoinsBack(s: string, sep: char) {
    Join(Split(s, sep), [sep]) == s
  }

  /** A text without the separator is its own only piece. */
  lemma SplitWithout(s: string, sep: char)
    requires IndexOf(s, sep) == -1
    ensures Split(s, sep) == [s]
  {
  }

  /** One step of `JoinSplit`: when the pieces after the first separator
      join back into the text after it, all the pieces join back into the
      whole text. */
  lemma JoinSplitStep(s: string, sep: char)
    requires IndexOf(s, sep) != -1
    requires JoinsBack(s[IndexOf(s, sep) + 1..], sep)
    ensures JoinsBack(s, sep)
  {
    var i := IndexOf(s, sep);
    SplitStep(s, sep);
    JoinInFront(s[..i], Split(s[i + 1..], sep), [sep]);
    Reassemble(s, i);
  }

  /** A text is the part before position `i`, the character there, and the
      part after. */
  lemma Reassemble(s: string, i: int)
    requires 0 <= i < |s|
    ensures s == s[..i] + [s[i]] + s[i + 1..]
  {
  }

  /** Splitting the parts of a join gives the parts back, when no part holds
      the separator. */
  lemma {:induction false} SplitJoin(parts: seq<string>, sep: char)
    requires |parts| >= 1
    requires forall i :: 0 <= i < |parts| ==> sep !in parts[i]
    ensures Split(Join(parts, [sep]), sep) == parts
  {
    if |parts| > 1 {
      var w := parts[0];
      SplitJoin(parts[1..], sep);
      assert parts == [w] + parts[1..];
      JoinInFront(w, parts[1..], [sep]);
      assert forall k :: 0 <= k < |w| ==> w[k] != sep by {
        forall k | 0 <= k < |w| ensures w[k] != sep { assert w[k] in w; }
      }
      SplitAtSeparator(w, Join(parts[1..], [sep]), sep);
    }
  }

  /** A join of two parts or more ends with the separator and the last
      part. */
  lemma {:induction false} JoinLast(parts: seq<string>, sep: string)
    requires |parts| >= 2
    ensures Join(parts, sep) == Join(parts[..|parts| - 1], sep) + sep + parts[|parts| - 1]
  {
    if |parts| > 2 {
      JoinLast(parts[1..], sep);
      assert parts[1..][..|parts| - 2] == parts[..|parts| - 1][1..];
    }
  }

  lemma JoinInFront(w: string, rest: seq<string>, sep: string)
    requires |rest| >= 1
    ensures Join([w] + rest, sep) == w + sep + Join(rest, sep)
  {
    assert ([w] + rest)[1..] == rest;
  }

  /** A text whose first separator follows `w` splits into `w` and the pieces
      of what comes after. */
  lemma SplitAtSeparator(w: string, t: string, sep: char)
    requires forall k :: 0 <= k < |w| ==> w[k] != sep
    ensures Split(w + [sep] + t, sep) == [w] + Split(t, sep)
  {
    var s := w + [sep] + t;
    assert forall k :: 0 <= k < |w| ==> s[k] == w[k];
    assert s[|w|] == sep;
    assert IndexOf(s, sep) == |w|;
    assert s[..|w|] == w;
    assert s[|w| + 1..] == t;
  }

  /** The characters of `s` that are not white space, in order. */
  function NonSpaceChars(s: string): string {
    if s == [] then []
    else (if IsSpace(s[0]) then [] else [s[0]]) + NonSpaceChars(s[1..])
  }

  predicate IsNotSpace(c: char) {
    !IsSpace(c)
  }

  lemma {:induction false} NonSpaceCharsAppend(a: string, b: string)
    ensures NonSpaceChars(a + b) == NonSpaceChars(a) + NonSpaceChars(b)
  {
    if a != [] {
      assert (a + b)[1..] == a[1..] + b;
      NonSpaceCharsAppend(a[1..], b);
    } else {
      assert a + b == b;
    }
  }

  lemma {:induction false} NonSpaceCharsOfWord(w: string)
    requires NoSpace(w)
    ensures NonSpaceChars(w) == w
  {
    if w != [] {
      NonSpaceCharsOfWord(w[1..]);
    }
  }

  /** Go's `strings.Fields`: the maximal runs of non-space characters. Every
      field is non-empty and space-free. */
  function Fields(s: string): (r: seq<string>)
    ensures forall i :: 0 <= i < |r| ==> |r[i]| > 0 && NoSpace(r[i])
    decreases |s|
  {
    if s == [] then []
    else if IsSpace(s[0]) then Fields(s[1..])
    else
      var n := PrefixSpan(s, IsNotSpace);
      [s[..n]] + Fields(s[n..])
  }

  /** Together the fields hold exactly the non-space characters of `s`, in
      order: nothing but white space is dropped. */
  lemma {:induction false} FieldsKeepNonSpace(s: string)
    ensures Flatten(Fields(s)) == NonSpaceChars(s)
    decreases |s|
  {
    if s != [] {
      if IsSpace(s[0]) {
        FieldsKeepNonSpace(s[1..]);
      } else {
        var n := PrefixSpan(s, IsNotSpace);
        assert s == s[..n] + s[n..];
        NonSpaceCharsAppend(s[..n], s[n..]);
        NonSpaceCharsOfWord(s[..n]);
        FieldsKeepNonSpace(s[n..]);
      }
    }
  }

  /** Fields recovers the words that were joined with single spaces. */
  lemma {:induction false} FieldsOfJoin(words: seq<string>)
    requires forall i :: 0 <= i < |words| ==> |words[i]| > 0 && NoSpace(words[i])
    ensures Fields(Join(words, " ")) == words
  {
    if |words| == 1 {
      PrefixSpanOf(words[0], [], IsNotSpace);
      assert words[0] + [] == words[0];
      assert words[0][|words[0]|..] == [];
    } else if |words| > 1 {
      var w := words[0];
      var rest := Join(words[1..], " ");
      var s := Join(words, " ");
      assert s == w + (" " + rest);
      PrefixSpanOf(w, " " + rest, IsNotSpace);
      assert s[|w|..] == " " + rest;
      assert (" " + rest)[1..] == rest;
      FieldsOfJoin(words[1..]);
    }
  }

  // ---------------------------------------------------------------------------
  // Case mapping (strings.ToLower)
  // ---------------------------------------------------------------------------

  /** Lower-cases ASCII letters and leaves every other character alone. */
  function ToLowerChar(c: char): (r: char)
    ensures IsSpace(r) <==> IsSpace(c)
    ensures 'A' <= c <= 'Z' ==> 'a' <= r <= 'z'
    ensures !('A' <= c <= 'Z') ==> r == c
  {
    if 'A' <= c <= 'Z' then (c as int + 32) as char else c
  }

  /** Go's `strings.ToLower`, character by character. */
  function ToLower(s: string): (r: string)
    ensures |r| == |s|
    ensures forall i :: 0 <= i < |s| ==> r[i] == ToLowerChar(s[i])
  {
    if s == [] then [] else [ToLowerChar(s[0])] + ToLower(s[1..])
  }
}

=== FILE: webserver.dfy ===
/** The web server's merge of the replies of all index shards
    (`aggregateShardResults`) and the fan-out that feeds it
    (`searchAcrossShards`), with the network calls replaced by their
    outcomes. */
module WebServer {
  import opened Wrappers
  import opened Collections
  import opened Ordering
  import opened DocMatches
  import opened RpcApi
  import Ranking
  import Text

  /** The documents some result names. */
  ghost function ReportedDocuments(rs: seq<SearchResult>): set<string> {
    set x | x in rs :: x.document
  }

  /** Every keyword some result for document `d` matched. */
  ghost function KeywordsFor(rs: seq<SearchResult>, d: string): set<string> {
    set x, kw | x in rs && x.document == d && kw in x.matches :: kw
  }

  /** The merged keyword map the replies call for: each reported document
      with the union of its keywords over all results naming it. */
  ghost function Merged(rs: seq<SearchResult>): DocMatches {
    map d | d in ReportedDocuments(rs) :: KeywordsFor(rs, d)
  }

  /** One result of the merge loop: the document's set is created if it has
      none (even when the result matched nothing), then the result's
      keywords are added to it. */
  function MergeResult(dm: DocMatches, x: SearchResult): (r: DocMatches)
    ensures r.Keys == dm.Keys + {x.document}
    ensures r[x.document] == (if x.document in dm then dm[x.document] else {}) + Elements(x.matches)
    ensures forall d :: d in dm && d != x.document ==> r[d] == dm[d]
  {
    var current := if x.document in dm then dm[x.document] else {};
    dm[x.document := current + Elements(x.matches)]
  }

  /** `r` is `dm` with the results `rs` merged in: the documents of both,
      each with its keywords in `dm` and in `rs` together. */
  ghost predicate MergedOnto(r: DocMatches, dm: DocMatches, rs: seq<SearchResult>) {
    && r.Keys == dm.Keys + ReportedDocuments(rs)
    && forall d :: d in r ==> r[d] == (if d in dm then dm[d] else {}) + KeywordsFor(rs, d)
  }

  /** The merge loop over a run of results: keyword sets are combined, never
      overwritten. */
  function MergeResults(dm: DocMatches, rs: seq<SearchResult>): (r: DocMatches)
    ensures MergedOnto(r, dm, rs)
    decreases rs
  {
    if rs == [] then dm
    else
      var r := MergeResults(MergeResult(dm, rs[0]), rs[1..]);
      MergeResultsStep(dm, rs, r);
      r
  }

  /** The first result merged, then the others, gives the merge of all. */
  lemma MergeResultsStep(dm: DocMatches, rs: seq<SearchResult>, r: DocMatches)
    requires rs != []
    requires MergedOnto(r, MergeResult(dm, rs[0]), rs[1..])
    ensures MergedOnto(r, dm, rs)
  {
    ReportedCons(rs);
    forall d | d in r ensures r[d] == (if d in dm then dm[d] else {}) + KeywordsFor(rs, d) {
      MergedValueStep(dm, rs, r, d);
    }
  }

  lemma ReportedCons(rs: seq<SearchResult>)
    requires rs != []
    ensures ReportedDocuments(rs) == {rs[0].document} + ReportedDocuments(rs[1..])
  {
    assert forall y :: y in rs <==> y == rs[0] || y in rs[1..];
  }

  /** One document's keywords in `MergeResultsStep`. */
  lemma MergedValueStep(dm: DocMatches, rs: seq<SearchResult>, r: DocMatches, d: string)
    requires rs != [] && d in r
    requires MergedOnto(r, MergeResult(dm, rs[0]), rs[1..])
    ensures r[d] == (if d in dm then dm[d] else {}) + KeywordsFor(rs, d)
  {
    KeywordsForCons(rs, d);
  }

  lemma KeywordsForCons(rs: seq<SearchResult>, d: string)
    requires rs != []
    ensures KeywordsFor(rs, d)
      == (if d == rs[0].document then Elements(rs[0].matches) else {}) + KeywordsFor(rs[1..], d)
  {
    var head := if d == rs[0].document then Elements(rs[0].matches) else {};
    forall kw | kw in KeywordsFor(rs, d) ensures kw in head + KeywordsFor(rs[1..], d) {
      var x :| x in rs && x.document == d && kw in x.matches;
      if x != rs[0] {
        assert x in rs[1..];
      }
    }
    forall kw | kw in head ensures kw in KeywordsFor(rs, d) {
      assert rs[0] in rs;
    }
    forall kw | kw in KeywordsFor(rs[1..], d) ensures kw in KeywordsFor(rs, d) {
      var x :| x in rs[1..] && x.document == d && kw in x.matches;
      assert x in rs;
    }
  }

  /** The merge over all replies yields exactly the union of each
      document's keywords. */
  function MergeShardResults(replies: seq<seq<SearchResult>>): (r: DocMatches)
    ensures r == Merged(Flatten(replies))
  {
    var rs := Flatten(replies);
    var r := MergeResults(map[], rs);
    MergedFromNothing(r, rs);
    r
  }

  /** Results merged into an empty map give the merged keyword map. */
  lemma MergedFromNothing(r: DocMatches, rs: seq<SearchResult>)
    requires MergedOnto(r, map[], rs)
    ensures r == Merged(rs)
  {
    assert r.Keys == Merged(rs).Keys;
    assert forall d :: d in r ==> r[d] == Merged(rs)[d];
  }

  /** Every merged document ranked as `toSortedResults` ranks it. */
  function RankMerged(replies: seq<seq<SearchResult>>): (r: seq<Ranking.Result>)
    ensures |r| == |ReportedDocuments(Flatten(replies))|
    ensures SortedBy(Ranking.RanksBefore, r)
  {
    var dm := MergeShardResults(replies);
    MergedKeys(Flatten(replies));
    RankDocMatches(dm)
  }

  /** The merged ranking is the ranking of the merged keyword map. */
  lemma RankMergedIs(replies: seq<seq<SearchResult>>)
    ensures RankMerged(replies) == RankDocMatches(MergeShardResults(replies))
  {
  }

  lemma MergedKeys(rs: seq<SearchResult>)
    ensures Merged(rs).Keys == ReportedDocuments(rs)
  {
  }

  /** Go's `aggregateShardResults`. The merged documents are ranked the way
      `toSortedResults` ranks them (ascending names, cleaned names, sorted
      keyword lists, then a stable sort by match count and name) and the
      first `k` are kept, none when `k` is negative. */
  function AggregateShardResults(replies: seq<seq<SearchResult>>, k: int): (r: seq<SearchResult>)
    ensures var n := |ReportedDocuments(Flatten(replies))|;
      |r| == if k <= 0 then 0 else if k < n then k else n
    ensures forall i, j :: 0 <= i < j < |r| ==> Ranking.RanksBefore(ToResult(r[i]), ToResult(r[j]))
  {
    var ranked := RankMerged(replies);
    Ranking.TopKKeepsTheBest(ranked, k);
    FromResults(Ranking.TopK(ranked, k))
  }

  // ---------------------------------------------------------------------------
  // Properties
  // ---------------------------------------------------------------------------

  /** `x` is one reported document of `rs` under its cleaned name, with the
      union of that document's keywords over `rs`, each once and in
      ascending order. */
  ghost predicate ReportsMerged(x: SearchResult, rs: seq<SearchResult>) {
    && SortedBy(LessEq, x.matches)
    && (exists d ::
          && d in ReportedDocuments(rs)
          && x.document == Text.TrimSpace(d)
          && Elements(x.matches) == KeywordsFor(rs, d)
          && |x.matches| == |KeywordsFor(rs, d)|)
  }

  /** Each aggregated result is one reported document under its cleaned name,
      with the union of that document's keywords over all replies, each
      once and in ascending order. */
  lemma AggregatedResultsAreMerged(replies: seq<seq<SearchResult>>, k: int, i: nat)
    requires i < |AggregateShardResults(replies, k)|
    ensures ReportsMerged(AggregateShardResults(replies, k)[i], Flatten(replies))
  {
    var r := AggregateShardResults(replies, k);
    AggregateIsCut(replies, k);
    CutComesFrom(RankMerged(replies), k, r, i);
    RankedIsMerged(MergeShardResults(replies), Flatten(replies), ToResult(r[i]), r[i]);
  }

  lemma AggregateIsCut(replies: seq<seq<SearchResult>>, k: int)
    ensures AggregateShardResults(replies, k) == FromResults(Ranking.TopK(RankMerged(replies), k))
  {
  }

  /** Each result of a cut of a ranking, as a reply, comes from the
      ranking. */
  lemma CutComesFrom(ranked: seq<Ranking.Result>, k: int, r: seq<SearchResult>, i: nat)
    requires r == FromResults(Ranking.TopK(ranked, k)) && i < |r|
    ensures ToResult(r[i]) in ranked
  {
    assert ToResult(r[i]) == ranked[i];
  }

  /** A result of the ranking of the merged map, as a reply, reports a
      merged document. */
  lemma RankedIsMerged(dm: DocMatches, rs: seq<SearchResult>, x: Ranking.Result, y: SearchResult)
    requires dm == Merged(rs) && x in RankDocMatches(dm) && ToResult(y) == x
    ensures ReportsMerged(y, rs)
  {
    ResultsComeFromDocuments(dm, x);
    MergedKeys(rs);
  }

  /** `r` is a prefix of the ranking `all`, and every result of `all` past
      it ranks no better than every result in it. */
  predicate KeepsTheBest(r: seq<SearchResult>, all: seq<Ranking.Result>) {
    && |r| <= |all|
    && (forall i :: 0 <= i < |r| ==> ToResult(r[i]) == all[i])
    && (forall i, j :: 0 <= i < |r| <= j < |all| ==> Ranking.RanksBefore(ToResult(r[i]), all[j]))
  }

  /** The cap keeps the best-ranked documents: every merged document left
      out ranks no better than every one kept. */
  lemma AggregateKeepsTheBest(replies: seq<seq<SearchResult>>, k: int)
    ensures KeepsTheBest(AggregateShardResults(replies, k), RankMerged(replies))
  {
    CutKeepsTheBest(RankMerged(replies), k);
    AggregateIsCut(replies, k);
  }

  /** The first `k` results of a ranking, as a reply, keep the best. */
  lemma CutKeepsTheBest(all: seq<Ranking.Result>, k: int)
    requires SortedBy(Ranking.RanksBefore, all)
    ensures KeepsTheBest(FromResults(Ranking.TopK(all, k)), all)
  {
    Ranking.TopKKeepsTheBest(all, k);
  }

  /** Only which results arrived matters: not the order of the replies, not
      the order of results within a reply, not repetitions. */
  lemma AggregateDependsOnlyOnResults(a: seq<seq<SearchResult>>, b: seq<seq<SearchResult>>, k: int)
    requires forall x :: x in Flatten(a) <==> x in Flatten(b)
    ensures AggregateShardResults(a, k) == AggregateShardResults(b, k)
  {
    var fa := Flatten(a);
    var fb := Flatten(b);
    assert ReportedDocuments(fa) == ReportedDocuments(fb);
    forall d ensures KeywordsFor(fa, d) == KeywordsFor(fb, d) {
      assert forall kw :: kw in KeywordsFor(fa, d) ==> kw in KeywordsFor(fb, d);
      assert forall kw :: kw in KeywordsFor(fb, d) ==> kw in KeywordsFor(fa, d);
    }
    assert Merged(fa) == Merged(fb);
  }

  /** In particular, shard replies may arrive in any order. */
  lemma ReplyOrderIrrelevant(a: seq<seq<SearchResult>>, b: seq<seq<SearchResult>>, k: int)
    requires multiset(a) == multiset(b)
    ensures AggregateShardResults(a, k) == AggregateShardResults(b, k)
  {
    forall x ensures x in Flatten(a) <==> x in Flatten(b) {
      if x in Flatten(a) {
        var i :| 0 <= i < |a| && x in a[i];
        assert a[i] in multiset(b);
        var j :| 0 <= j < |b| && b[j] == a[i];
      }
      if x in Flatten(b) {
        var i :| 0 <= i < |b| && x in b[i];
        assert b[i] in multiset(a);
        var j :| 0 <= j < |a| && a[j] == b[i];
      }
    }
    AggregateDependsOnlyOnResults(a, b, k);
  }

  /** And each reply's results may come in any order. */
  lemma ResultOrderIrrelevant(a: seq<seq<SearchResult>>, b: seq<seq<SearchResult>>, k: int)
    requires |a| == |b|
    requires forall i :: 0 <= i < |a| ==> multiset(a[i]) == multiset(b[i])
    ensures AggregateShardResults(a, k) == AggregateShardResults(b, k)
  {
    forall x ensures x in Flatten(a) <==> x in Flatten(b) {
      if x in Flatten(a) {
        var i :| 0 <= i < |a| && x in a[i];
        assert x in multiset(b[i]);
      }
      if x in Flatten(b) {
        var i :| 0 <= i < |b| && x in b[i];
        assert x in multiset(a[i]);
      }
    }
    AggregateDependsOnlyOnResults(a, b, k);
  }

  // ---------------------------------------------------------------------------
  // Fan-out
  // ---------------------------------------------------------------------------

  /** The replies of the shards that answered; a shard whose dial or call
      failed (`None`) is skipped. */
  function SuccessfulReplies(outcomes: seq<Option<seq<SearchResult>>>): (r: seq<seq<SearchResult>>)
    ensures forall reply :: reply in r <==> Some(reply) in outcomes
  {
    if outcomes == [] then []
    else
      var rest := SuccessfulReplies(outcomes[1..]);
      assert forall o :: o in outcomes <==> o == outcomes[0] || o in outcomes[1..];
      if outcomes[0].Some? then [outcomes[0].value] + rest else rest
  }

  /** Go's `searchAcrossShards` once every shard has answered or failed:
      the aggregate of the replies that arrived. It never fails. */
  function SearchAcrossShards(outcomes: seq<Option<seq<SearchResult>>>, topK: int): (r: seq<SearchResult>)
    ensures forall i, j :: 0 <= i < j < |r| ==> Ranking.RanksBefore(ToResult(r[i]), ToResult(r[j]))
    ensures topK <= 0 ==> r == []
  {
    AggregateShardResults(SuccessfulReplies(outcomes), topK)
  }

  /** A failed shard changes nothing: the answer is the aggregate of the
      shards that replied, whatever order they replied in. */
  lemma FailedShardsIgnored(outcomes: seq<Option<seq<SearchResult>>>, replied: seq<seq<SearchResult>>, topK: int)
    requires forall reply :: reply in replied <==> Some(reply) in outcomes
    ensures SearchAcrossShards(outcomes, topK) == AggregateShardResults(replied, topK)
  {
    var got := SuccessfulReplies(outcomes);
    forall x ensures x in Flatten(got) <==> x in Flatten(replied) {
      if x in Flatten(got) {
        var i :| 0 <= i < |got| && x in got[i];
        var j :| 0 <= j < |replied| && replied[j] == got[i] by { assert got[i] in replied; }
      }
      if x in Flatten(replied) {
        var i :| 0 <= i < |replied| && x in replied[i];
        var j :| 0 <= j < |got| && got[j] == replied[i] by { assert replied[i] in got; }
      }
    }
    AggregateDependsOnlyOnResults(got, replied, topK);
  }
}

=== FILE: webserver_example.dfy ===
/** The web server's aggregation test scenario: two shards report two
    documents each, with overlapping keywords, and the merged reply ranks
    doc1 (three keywords) ahead of doc2 (two). */
module WebServerExample {
  import opened Collections
  import opened Ordering
  import opened DocMatches
  import opened RpcApi
  import opened WebServer
  import opened IndexServerExample
  import Ranking
  import Text

  const Shard1: seq<SearchResult> := [SearchResult("doc1", ["apple", "banana"]), SearchResult("doc2", ["apple"])]

  const Shard2: seq<SearchResult> := [SearchResult("doc1", ["cherry"]), SearchResult("doc2", ["banana"])]

  /** The keywords each document gathers over both shards. */
  const ExampleMerged: DocMatches := map["doc1" := Doc1Keywords, "doc2" := Doc2Keywords]

  /** `x` names document `d` with exactly the keywords `m`, each once. */
  predicate Shows(x: Ranking.Result, d: string, m: set<string>) {
    x.document == d && Elements(x.matches) == m && |x.matches| == |m|
  }

  /** A reply of two entries: `d1` with the keywords `m1`, then `d2` with
      the keywords `m2`. */
  predicate RepliesInOrder(r: seq<SearchResult>, d1: string, d2: string, m1: set<string>, m2: set<string>) {
    |r| == 2 && Shows(ToResult(r[0]), d1, m1) && Shows(ToResult(r[1]), d2, m2)
  }

  /** The test's four results, whatever the names: each document's keywords
      are combined across the shards. */
  lemma MergedShape(rs: seq<SearchResult>, d1: string, d2: string, a: string, b: string, c: string)
    requires rs == [SearchResult(d1, [a, b]), SearchResult(d2, [a]), SearchResult(d1, [c]), SearchResult(d2, [b])]
    requires d1 != d2
    ensures Merged(rs) == map[d1 := {a, b, c}, d2 := {a, b}]
  {
    assert rs[0] in rs && rs[1] in rs && rs[2] in rs && rs[3] in rs;
    assert ReportedDocuments(rs) == {d1, d2};
    assert a in rs[0].matches && b in rs[0].matches && c in rs[2].matches && b in rs[3].matches;
    assert KeywordsFor(rs, d1) == {a, b, c};
    assert KeywordsFor(rs, d2) == {a, b};
  }

  /** The shards' results, merged. */
  lemma ExampleMergedMatches()
    ensures MergeShardResults([Shard1, Shard2]) == ExampleMerged
  {
    var rs := Flatten([Shard1, Shard2]);
    assert Flatten([Shard2]) == Shard2;
    assert rs == Shard1 + Shard2;
    MergedShape(rs, "doc1", "doc2", "apple", "banana", "cherry");
  }

  /** `x` is document `d` of `dm` under its cleaned name, with exactly its
      keywords, each once. */
  ghost predicate EntryOf(dm: DocMatches, x: Ranking.Result, d: string) {
    d in dm && x.document == Text.TrimSpace(d) && Elements(x.matches) == dm[d] && |x.matches| == |dm[d]|
  }

  /** The ranking of a map with two documents that are their own cleaned
      names, the first with more keywords: the first document, then the
      second. */
  lemma TwoDocumentRanking(dm: DocMatches, d1: string, d2: string, m1: set<string>, m2: set<string>)
    requires dm.Keys == {d1, d2} && dm[d1] == m1 && dm[d2] == m2 && d1 != d2
    requires Text.TrimSpace(d1) == d1 && Text.TrimSpace(d2) == d2 && |m1| > |m2|
    ensures var ranked := RankDocMatches(dm);
      |ranked| == 2 && Shows(ranked[0], d1, m1) && Shows(ranked[1], d2, m2)
  {
    var ranked := RankDocMatches(dm);
    TwoKeys(dm, d1, d2);
    RankedShows(dm, ranked[0], d1, d2, m1, m2);
    RankedShows(dm, ranked[1], d1, d2, m1, m2);
    RankedDocument(dm, d1);
    RankedDocument(dm, d2);
    OrderOfTwo(ranked, d1, d2, m1, m2);
  }

  lemma TwoKeys(dm: DocMatches, d1: string, d2: string)
    requires dm.Keys == {d1, d2} && d1 != d2
    ensures |dm| == 2
  {
    assert |dm.Keys| == 2;
  }

  /** Two entries, each showing one of two documents, both documents
      present, ranked: the one with more keywords comes first. */
  lemma OrderOfTwo(ranked: seq<Ranking.Result>, d1: string, d2: string, m1: set<string>, m2: set<string>)
    requires |ranked| == 2 && d1 != d2 && |m1| > |m2|
    requires Shows(ranked[0], d1, m1) || Shows(ranked[0], d2, m2)
    requires Shows(ranked[1], d1, m1) || Shows(ranked[1], d2, m2)
    requires RanksDocument(ranked, d1) && RanksDocument(ranked, d2)
    requires Ranking.RanksBefore(ranked[0], ranked[1])
    ensures Shows(ranked[0], d1, m1) && Shows(ranked[1], d2, m2)
  {
  }

  /** Each entry of the ranking of a two-document map shows one of them. */
  lemma RankedShows(dm: DocMatches, x: Ranking.Result, d1: string, d2: string, m1: set<string>, m2: set<string>)
    requires dm.Keys == {d1, d2} && dm[d1] == m1 && dm[d2] == m2 && d1 != d2
    requires Text.TrimSpace(d1) == d1 && Text.TrimSpace(d2) == d2
    requires x in RankDocMatches(dm)
    ensures Shows(x, d1, m1) || Shows(x, d2, m2)
  {
    ResultsComeFromDocuments(dm, x);
    var d :| d in dm && x.document == Text.TrimSpace(d) && Elements(x.matches) == dm[d] && |x.matches| == |dm[d]|;
    EntryIsADocument(dm, x, d, d1, d2, m1, m2);
  }

  /** An entry of a two-document map shows one of them. */
  lemma EntryIsADocument(dm: DocMatches, x: Ranking.Result, d: string, d1: string, d2: string, m1: set<string>, m2: set<string>)
    requires dm.Keys == {d1, d2} && dm[d1] == m1 && dm[d2] == m2 && d1 != d2
    requires Text.TrimSpace(d1) == d1 && Text.TrimSpace(d2) == d2
    requires EntryOf(dm, x, d)
    ensures Shows(x, d1, m1) || Shows(x, d2, m2)
  {
  }

  /** The test's document names are their own cleaned names. */
  lemma ExampleNamesTrimmed()
    ensures Text.TrimSpace("doc1") == "doc1" && Text.TrimSpace("doc2") == "doc2"
  {
    Text.TrimSpaceOfTrimmed("doc1");
    Text.TrimSpaceOfTrimmed("doc2");
  }

  /** A cut at least as long as a two-entry ranking replies with both
      entries, in order. */
  lemma CutOfTwo(ranked: seq<Ranking.Result>, k: int, r: seq<SearchResult>, d1: string, d2: string, m1: set<string>, m2: set<string>)
    requires |ranked| == 2 && Shows(ranked[0], d1, m1) && Shows(ranked[1], d2, m2)
    requires k >= 2 && r == FromResults(Ranking.TopK(ranked, k))
    ensures RepliesInOrder(r, d1, d2, m1, m2)
  {
    assert Ranking.TopK(ranked, k) == ranked;
  }

  /** The keyword sets the two documents end up with. */
  const Doc1Keywords: set<string> := {"apple", "banana", "cherry"}

  const Doc2Keywords: set<string> := {"apple", "banana"}

  /** The keyword map's facts the ranking needs. */
  lemma ExampleMergedFacts()
    ensures ExampleMerged.Keys == {"doc1", "doc2"} && "doc1" != "doc2"
    ensures ExampleMerged["doc1"] == Doc1Keywords && ExampleMerged["doc2"] == Doc2Keywords
    ensures |Doc1Keywords| == 3 && |Doc2Keywords| == 2
  {
  }

  /** The merged documents ranked: doc1 with its three keywords, then doc2
      with its two. */
  lemma ExampleRanking()
    ensures var ranked := RankMerged([Shard1, Shard2]);
      |ranked| == 2 && Shows(ranked[0], "doc1", Doc1Keywords) && Shows(ranked[1], "doc2", Doc2Keywords)
  {
    ExampleMergedMatches();
    ExampleNamesTrimmed();
    ExampleMergedFacts();
    TwoDocumentRanking(ExampleMerged, "doc1", "doc2", Doc1Keywords, Doc2Keywords);
    RankMergedIs([Shard1, Shard2]);
  }

  /** The test: merging the two shards with `k = 10` gives doc1 with three
      keywords, then doc2 with two. */
  lemma AggregateExample()
    ensures var r := AggregateShardResults([Shard1, Shard2], 10);
      && RepliesInOrder(r, "doc1", "doc2", Doc1Keywords, Doc2Keywords)
      && |r[0].matches| == 3 && |r[1].matches| == 2
  {
    var replies := [Shard1, Shard2];
    ExampleRanking();
    ExampleMergedFacts();
    AggregateIsCut(replies, 10);
    CutOfTwo(RankMerged(replies), 10, AggregateShardResults(replies, 10), "doc1", "doc2", Doc1Keywords, Doc2Keywords);
  }
}

=== FILE: wrappers.dfy ===
/** Optional values and error-carrying results, used wherever the Go code
    returns a value together with an `error` or a "not found" flag. */
module Wrappers {

  datatype Option<+T> = None | Some(value: T)

  /** A Go `(value, error)` pair: exactly one of the two is meaningful. */
  datatype Outcome<+T, +E> = Ok(value: T) | Err(error: E)
}
